=== FILE: README.md ===
# Faculty appraisal front end — a Dafny model

Faculty-Appraisal-Next is the Next.js front end of a faculty appraisal system. Faculty fill in
the parts of an appraisal form:

- Part A, academic involvement;
- Part B, research, checked by a verification team;
- Part D, portfolio;
- Part E, extraordinary contributions.

Heads, deans, an associate dean, the director, external examiners and administrators review,
mark and verify these forms. A middleware gates every page by a role cookie. An auth provider
logs users in and out.

This project models the logic underneath the pages and proves its properties in Dafny:

- the clamped and capped scoring of Parts A, D and E and the lock gate on editing and saving them;
- the Part B category table, its in-place edits and the payload built from it;
- the director's 0–60 mark check and the rubric total;
- the middleware's route decision and the two role normalisers;
- the login and logout handling;
- the user-administration form, the list add, delete and update, and the password flows;
- the review worklists, with their filters, status tallies, cells and action labels.

The model follows the components' own structure:

- Components whose handlers update state step by step are classes. Their fields are the
  component's state variables, and each handler is a method that states the whole new state.
- Computations that are pure expressions are functions. Lemmas state their properties.
- Each backend reply is a parameter of the handler that awaits it (`Common.Fetch`): the
  request either threw with a message, or the server replied with an `ok` flag and a body.
- Shared JavaScript behaviour is modelled once:
  - `Text`: `trim`, the `\s` class, `toLowerCase`, `includes`, `split("@")[0]`, `parseInt`
    and the decimal rendering of integers;
  - `Lists`: `filter` and `filter(...).length`;
  - `Worklist`: the search and drop-down tests and the table cells shared by the review pages.

Three behaviours of the code may come as a surprise, and the model follows the code in each:

- Score fields are usually kept non-negative, but Part B's verified value is not.
  `app/verification-team/verification-form/page.tsx` line 154 sends `parseInt(x) || 0`.
  Only the input's HTML `min` stands in its way, so a typed negative integer reaches the
  payload (`VerificationForm.TypedIntegerPassesThrough`).
- Parts D and E lock once their status leaves "pending", but the verification page has no
  such lock. Every edit there is accepted.
- Filtering, search and authentication live in the pages and the middleware themselves, so
  they are modelled along with the scoring.

## Model

| member | source | states |
|---|---|---|
| PartA.Clamp | components/forms/parts/PartA_AcademicInvolvement.tsx:57 | `Math.min(hi, Math.max(lo, v))` lies in `[lo, hi]`, leaves values inside it alone and sends values below or above it to the nearer end |
| PartA.Round | components/forms/parts/PartA_AcademicInvolvement.tsx:63 | `Math.round` gives the integer within half a unit of `x`, halves going up |
| PartA.Factor | components/forms/parts/PartA_AcademicInvolvement.tsx:28-32 | every designation factor lies in `(0, 1]` |
| PartA.MaxScore | components/forms/parts/PartA_AcademicInvolvement.tsx:33-37 | every designation maximum lies in `[300, 440]` |
| PartA.RawSum | components/forms/parts/PartA_AcademicInvolvement.tsx:60 | the reduce over `Object.values(scores)` is the sum of all eight sub-scores |
| PartA.FinalScore | components/forms/parts/PartA_AcademicInvolvement.tsx:61-63 | the final score never exceeds the designation maximum, and is not negative when the raw sum is not |
| PartA.ProgressPercent | components/forms/parts/PartA_AcademicInvolvement.tsx:66-68 | progress is a percentage in `[0, 100]` for any scores |
| PartA.RawSumBounds | components/forms/parts/PartA_AcademicInvolvement.tsx:17-26 | with every sub-score clamped, the raw sum lies in `[0, 440]`, 440 being the sum of `MAXES` |
| PartA.UnknownDesignationFallsBack | components/forms/parts/PartA_AcademicInvolvement.tsx:61-62 | a designation other than Professor and Associate Professor gets factor 1.0 and maximum 440, the Assistant Professor values |
| PartA.FinalScoreBounds | components/forms/parts/PartA_AcademicInvolvement.tsx:63 | the final score lies in `[0, maxScore]` |
| PartA.CapNeverBinds | components/forms/parts/PartA_AcademicInvolvement.tsx:63 | for clamped input the `Math.min` with the maximum never takes effect (440 × 0.68 < 300, 440 × 0.79 < 350) |
| PartA.FinalScoreMonotone | components/forms/parts/PartA_AcademicInvolvement.tsx:60-63 | raising sub-scores never lowers the raw sum or the final score |
| PartA.ProfessorExample | components/forms/parts/PartA_AcademicInvolvement.tsx:60-63 | a Professor with raw sum 390 gets round(265.2) = 265 |
| PartA.ProgressBounds | components/forms/parts/PartA_AcademicInvolvement.tsx:66-68 | progress lies in `[0, 100]` and is 100 exactly when all eight sub-scores are positive |
| PartA.PartAForm.constructor | components/forms/parts/PartA_AcademicInvolvement.tsx:43-54 | the designation defaults to "Professor"; every sub-score starts at 0; manual scoring is off |
| PartA.PartAForm.SetScore | components/forms/parts/PartA_AcademicInvolvement.tsx:56-58 | only the named sub-score changes; it becomes the clamped input, so it lies in `[0, MAXES[f]]` for any input; the clamping invariant is kept |
| PartA.PartAForm.ToggleManualScoring | components/forms/parts/PartA_AcademicInvolvement.tsx:93 | the manual-scoring switch flips and the scores stay |
| Lock.Locked | components/forms/parts/PartD_Portfolio.tsx:54 | `formStatus !== "pending"`: a part is locked for every status but "pending", a missing status included (the same gate is PartE_Extra.tsx line 59) |
| Completion.Percent | components/forms/parts/PartD_Portfolio.tsx:67 | the progress formula `(interacted / total) * 100` of Parts D and E, defined for a positive field count; it is 0 exactly when nothing is filled |
| Completion.PercentBounds | components/forms/parts/PartD_Portfolio.tsx:67 | a completion percentage lies in `[0, 100]` and is 100 exactly when every counted field is filled |
| PartD.SelfMarksValue | components/forms/parts/PartD_Portfolio.tsx:58 | the self mark read is the administrative one for an administrative role and the faculty one otherwise |
| PartD.FromJson | components/forms/parts/PartD_Portfolio.tsx:75-83 | each loaded field is the stored value, or when missing its default: "both" for the portfolio type, 0 for every mark, false for the marking flags, and the designation's flag and name for the administrative role; a record with neither self mark loads a self mark of 0 |
| PartD.ComputeScores | components/forms/parts/PartD_Portfolio.tsx:47-52 | the self mark is the active branch's self mark capped at 60 |
| PartD.TotalScore | components/forms/parts/PartD_Portfolio.tsx:53 | the total is `Math.min(120, self + superior)`: it exceeds neither 120 nor self plus superior, and equals one of them |
| PartD.FacultySuperior | components/forms/parts/PartD_Portfolio.tsx:51 | for a faculty member the superior mark is the HOD/Dean average for "both", the Dean's mark for "institute" and the HOD's for "department"; the administrative marks play no part |
| PartD.AdministrativeSuperior | components/forms/parts/PartD_Portfolio.tsx:49-50 | for an administrative role the superior mark is the associate-dean mark for "associate_dean" and the director's mark otherwise; HOD and Dean marks, portfolio type and the faculty self mark play no part |
| PartD.TotalBoundary | components/forms/parts/PartD_Portfolio.tsx:53 | full self and superior marks reach the cap of 120 exactly |
| PartD.ToJson | components/forms/parts/PartD_Portfolio.tsx:76-86 | loading a saved record gives back the saved form data and both portfolio texts, whatever the defaults |
| PartD.PartDForm.constructor | components/forms/parts/PartD_Portfolio.tsx:31-45 | the initial form data and flags, with the administrative flag and role taken from the designation |
| PartD.PartDForm.Progress | components/forms/parts/PartD_Portfolio.tsx:56-67 | the step-by-step count has 3 fields for "both" or an administrative role and 2 for "institute" or "department"; one field is counted filled for a positive self mark and one for each non-blank portfolio text on display; progress is that share in percent, lies in `[0, 100]`, and is 100 exactly when the self mark is positive and every text on display is non-blank |
| PartD.PartDForm.Load | components/forms/parts/PartD_Portfolio.tsx:69-95 | a record that arrives sets the form with defaults for missing fields and clears `isFirstTime`; otherwise the form stays; the status is read only if the first request did not throw; loading always ends |
| PartD.PartDForm.HandleSubmit | components/forms/parts/PartD_Portfolio.tsx:97-109 | while locked no request goes out and only the status notice opens; otherwise the payload's `marks` is the total score, at most 120; success clears `isFirstTime` and sets `submitSuccess`; a refused reply or a throw sets `submitError` and keeps `isFirstTime` and `submitSuccess` as they were, so an earlier success notice stays; `isSubmitting` ends false |
| PartD.PartDForm.OnSelfMarksInput | components/forms/parts/PartD_Portfolio.tsx:151-154 | the input, disabled while the part is locked, is clamped to `[0, 60]` and written only to the active branch's self mark; nothing else changes |
| PartD.PartDForm.OnPortfolioType | components/forms/parts/PartD_Portfolio.tsx:121 | the buttons are disabled while the part is locked; a click changes only the portfolio type |
| PartD.PartDForm.OnInstitutePortfolio | components/forms/parts/PartD_Portfolio.tsx:131 | the text area is disabled while the part is locked; typing changes only the institute text |
| PartD.PartDForm.OnDepartmentPortfolio | components/forms/parts/PartD_Portfolio.tsx:137 | the text area is disabled while the part is locked; typing changes only the department text |
| PartE.FromJson | components/forms/parts/PartE_Extra.tsx:37 | `bullet_points` loads into the contributions and `total_marks` into the marks; missing fields load as "" and 0 |
| PartE.ToJson | components/forms/parts/PartE_Extra.tsx:51 | the save payload maps marks to `total_marks` and contributions to `bullet_points`, and loading it gives back the same form data |
| PartE.ClampMarks | components/forms/parts/PartE_Extra.tsx:89 | the marks input lands in `[0, 50]`: values inside it are kept, values below go to 0 and values above to 50 |
| PartE.PartEForm.constructor | components/forms/parts/PartE_Extra.tsx:16-23 | the initial form data and flags |
| PartE.PartEForm.Progress | components/forms/parts/PartE_Extra.tsx:25-29 | progress is 0, 50 or 100; it is 100 exactly when the contributions are non-blank and the marks positive, and 0 exactly when neither holds |
| PartE.PartEForm.Load | components/forms/parts/PartE_Extra.tsx:31-45 | a successful load sets the mapped form data and clears `isFirstTime`; the status is read only if the first request did not throw; loading always ends |
| PartE.PartEForm.HandleSubmit | components/forms/parts/PartE_Extra.tsx:47-56 | while locked nothing is sent and only the notice opens; otherwise the mapped payload is sent; success clears `isFirstTime` and sets `submitSuccess`; a refused reply or a throw sets `submitError` and keeps `isFirstTime` and `submitSuccess` as they were; `isSubmitting` ends false |
| PartE.PartEForm.OnMarksInput | components/forms/parts/PartE_Extra.tsx:89 | the input is disabled while the part is locked; the marks become the clamped input, and the contributions and every flag stay |
| PartE.PartEForm.OnContributionsInput | components/forms/parts/PartE_Extra.tsx:75 | the text area is disabled while the part is locked; the contributions change, and the marks and every flag stay |
| VerificationForm.BuildSections | app/verification-team/verification-form/page.tsx:42-110 | the fresh table has 7 sections, each of at least two untouched items |
| VerificationForm.BuildSectionsShape | app/verification-team/verification-form/page.tsx:42-110 | the fresh table has 7 sections and 25 items with distinct keys, all claimed 0 with empty proof and verified text |
| VerificationForm.BuildSectionsKeys | app/verification-team/verification-form/page.tsx:42-110 | the items' keys, in display order, are the 25 category keys |
| VerificationForm.UpdateVerified | app/verification-team/verification-form/page.tsx:132-145 | an edit keeps the number and order of sections and items; it sets `verified` on exactly the items with the given key in the given section; every other field and item is unchanged |
| VerificationForm.UpdateKeepsClaims | app/verification-team/verification-form/page.tsx:139 | after an edit, the flattened table keeps every item's key, label, claim and proof URL in the same order |
| VerificationForm.VerifiedValue | app/verification-team/verification-form/page.tsx:154 | falling back to 0: the parsed number when `parseInt` reads one, 0 when it yields NaN |
| VerificationForm.BlankIsZero | app/verification-team/verification-form/page.tsx:154 | a blank verified entry is sent as 0 |
| VerificationForm.NonNumericIsZero | app/verification-team/verification-form/page.tsx:154 | an entry that does not start with a digit or sign is sent as 0 |
| VerificationForm.TypedIntegerPassesThrough | app/verification-team/verification-form/page.tsx:154 | any integer typed in decimal, negative ones included, is sent unchanged |
| VerificationForm.PayloadOf | app/verification-team/verification-form/page.tsx:151-156 | the assignments leave at most one entry per item |
| VerificationForm.PayloadKeys | app/verification-team/verification-form/page.tsx:151-156 | the payload's keys are exactly the items' keys |
| VerificationForm.PayloadSize | app/verification-team/verification-form/page.tsx:151-156 | with distinct keys the payload has one entry per item |
| VerificationForm.PayloadLookup | app/verification-team/verification-form/page.tsx:151-156 | with distinct keys each item's entry is its own parsed verified text |
| VerificationForm.FreshPayload | app/verification-team/verification-form/page.tsx:151-156 | saving the untouched table sends 25 entries, all 0 |
| VerificationForm.BuildPayload | app/verification-team/verification-form/page.tsx:151-156 | the nested loops produce the left-to-right assignment of every item's parsed value |
| VerificationForm.VerificationFormPage.constructor | app/verification-team/verification-form/page.tsx:122-124 | the page starts with the fresh table and both flags false |
| VerificationForm.VerificationFormPage.HandleVerifiedChange | app/verification-team/verification-form/page.tsx:132-145 | the table becomes the edited table and the flags stay |
| VerificationForm.VerificationFormPage.OpenConfirm | app/verification-team/verification-form/page.tsx:270-273 | the confirmation opens unless a save is running |
| VerificationForm.VerificationFormPage.HandleSave | app/verification-team/verification-form/page.tsx:147-173 | the payload is built from the current table, the table is unchanged, and afterwards neither `saving` nor `confirmOpen` is set |
| DirectorVerify.AcceptedMarks | app/director/director-verify/page.tsx:61-65 | a mark is accepted only if `parseInt` reads a number and it lies in `[0, 60]`; the accepted value is what `parseInt` read |
| DirectorVerify.AcceptsEveryMarkInRange | app/director/director-verify/page.tsx:62 | every integer from 0 to 60 typed in decimal is accepted as itself (so "60" passes) |
| DirectorVerify.RejectsEveryMarkOutOfRange | app/director/director-verify/page.tsx:62 | every integer below 0 or above 60 is rejected (so "61" and "-1" fail) |
| DirectorVerify.RejectsBlank | app/director/director-verify/page.tsx:61-62 | a blank input is rejected |
| DirectorVerify.FractionIsTruncated | app/director/director-verify/page.tsx:61 | "42.9" is accepted as 42, since `parseInt` stops at the point |
| DirectorVerify.DirectorVerifyPage.constructor | app/director/director-verify/page.tsx:50-52 | the input is empty and both flags are false |
| DirectorVerify.DirectorVerifyPage.OnMarksInput | app/director/director-verify/page.tsx:171 | only the typed text changes |
| DirectorVerify.DirectorVerifyPage.ConfirmDisabled | app/director/director-verify/page.tsx:184 | the submit button is disabled while the typed mark is empty or a submit is running |
| DirectorVerify.DirectorVerifyPage.OpenConfirm | app/director/director-verify/page.tsx:183-184 | the confirmation opens unless the input is empty or a submit is running |
| DirectorVerify.DirectorVerifyPage.HandleConfirm | app/director/director-verify/page.tsx:60-78 | the action is disabled while a save runs; the mark is accepted exactly as `AcceptedMarks` says and the typed text stays; the dialog action closes the dialog on both paths, and afterwards no save is running |
| Rubric.ScoreOf | components/rubric-evaluator.tsx:23 | a criterion scores its stored score, or 0 when it has none |
| Rubric.Total | components/rubric-evaluator.tsx:21-26 | with no score stored the total is 0 |
| Rubric.MaxTotal | components/rubric-evaluator.tsx:29 | the sum of each criterion's maximum times its weight; its properties are stated by `Rubric.TotalBounded` (it bounds the total) and `Rubric.TopScoresReachMax` (top scores reach it) |
| Rubric.EmptyRubric | components/rubric-evaluator.tsx:21-29 | with no criteria the total and the maximum are both 0 |
| Rubric.NothingScored | components/rubric-evaluator.tsx:23 | an unscored criterion adds 0, so when none of the criteria is scored the total is 0, whatever else the scores hold |
| Rubric.TotalBounded | components/rubric-evaluator.tsx:21-29 | with non-negative weights and every score in `[0, maxScore]`, the total lies in `[0, maxScore total]` |
| Rubric.TopScoresReachMax | components/rubric-evaluator.tsx:21-29 | choosing the top score everywhere gives exactly the maximum |
| Rubric.TotalMonotone | components/rubric-evaluator.tsx:22-25 | with non-negative weights, raising scores never lowers the total |
| Rubric.ForeignScoreIgnored | components/rubric-evaluator.tsx:22-25 | a score stored under an id that belongs to no criterion does not change the total |
| Rubric.RubricEvaluator.TotalScore | components/rubric-evaluator.tsx:28 | the displayed total is the weighted total of the current scores; with nothing scored it is 0 |
| Rubric.RubricEvaluator.constructor | components/rubric-evaluator.tsx:15 | nothing is scored at first |
| Rubric.RubricEvaluator.HandleScoreChange | components/rubric-evaluator.tsx:17-19 | only the given criterion's score changes |
| Rubric.RubricEvaluator.ClickScore | components/rubric-evaluator.tsx:48-54 | the button sets its criterion to its score, `idx + 1`; with unique ids, scores stay within range |
| Rubric.RubricEvaluator.Submit | components/rubric-evaluator.tsx:78 | the scores and the total are handed over; with valid scores the total lies within `[0, maxScore]` |
| Middleware.Decide | middleware.ts:23-89 | `middleware()` sends a request home only on a gated path other than "/"; a gated path other than "/" passes only with a non-empty token and a backend check that was not refused |
| Middleware.Matched | middleware.ts:91-93 | the matcher selects only paths starting with "/"; it selects "/" and every path whose second character is none of `_`, `a`, `f` |
| Middleware.Route | middleware.ts:91-93 | a request is sent home only on a path the matcher selects, that is gated and is not "/"; such a path passes only with a non-empty token |
| Middleware.NormalizeRole | middleware.ts:13-21 | an absent or empty role normalises to nothing, any other to something |
| Middleware.NormalizeRoleLowerCase | middleware.ts:15-20 | a normalised role has no upper-case letters |
| Middleware.NormalizeRolePrecedence | middleware.ts:16-19 | "coordinator" wins over "head", then "admin", then "participant"; otherwise the lower-cased role is kept |
| Middleware.NormalizeRoleIdempotent | middleware.ts:13-21 | normalising twice is normalising once |
| Middleware.Bypass | middleware.ts:28-35 | the skip test: a path starting with `/_next`, `/static` or `/auth`, or containing a dot; `Middleware.UngatedPathsPass` shows such paths pass |
| Middleware.UngatedPathsPass | middleware.ts:28-38 | `/_next`, `/static` and `/auth` paths, paths with a dot, and "/" always pass |
| Middleware.NoTokenRedirects | middleware.ts:40-46 | the middleware sends any other path without an access token home; a request is sent home exactly when the matcher selects its path |
| Middleware.ApiPathsSkipMiddleware | middleware.ts:91-93 | the matcher leaves out every `/api` path, so such a request goes on whatever its cookies |
| Middleware.ApiRequestsUngated | middleware.ts:91-93 | an `/api` request without a token goes on, though the middleware itself would send it home |
| Middleware.ThrownCheckIsIgnored | middleware.ts:48-77 | a backend check that throws decides as a successful one would |
| Middleware.NoRoleSkipsGate | middleware.ts:79-88 | with a token, a check that did not fail and no role, every page passes |
| Middleware.PrefixesDisjoint | middleware.ts:6-11 | no path starts with two of the four role prefixes |
| Middleware.EntersOtherArea | middleware.ts:79-86 | the role loop: some role prefix begins the path and that prefix belongs to a role other than the user's; `Middleware.RoleAreaGate` shows the consequence |
| Middleware.RoleAreaGate | middleware.ts:79-86 | a path under a role prefix passes exactly when the normalised role is that prefix's role |
| Middleware.DirectorPagesPass | middleware.ts:79-88 | paths under `/director` are never role-redirected |
| Middleware.AdminUsersNotBypassed | middleware.ts:28-35 | `/admin/users` is gated |
| Middleware.AdminCoordinatorIsCoordinator | middleware.ts:16 | the role "Admin Coordinator" normalises to coordinator |
| Middleware.AdminCoordinatorLeavesAdmin | middleware.ts:79-86 | so an "Admin Coordinator" is redirected from `/admin/users` |
| AuthProvider.NormalizeRolePath | app/AuthProvider.tsx:47-53 | an absent or empty role gives nothing, any other a lower-case string |
| AuthProvider.RolePathExactMatches | app/AuthProvider.tsx:49-52 | only "event coordinator" and "coordinator" give coordinator, and only "evaluator head" and "head" give head, in any letter case; anything else is returned lower-cased |
| AuthProvider.RolePathIdempotent | app/AuthProvider.tsx:47-53 | normalising twice is normalising once |
| AuthProvider.NormalizersDisagree | app/AuthProvider.tsx:50-52 | "Department Head" is head to the middleware but stays "department head" here |
| AuthProvider.LoginOutcomeOf | app/AuthProvider.tsx:55-98 | a successful login always carries a non-empty token and e-mail |
| AuthProvider.LoginSucceedsExactly | app/AuthProvider.tsx:71-90 | a login succeeds exactly when the reply is ok with a token and a user e-mail; the name defaults to the part of the e-mail before "@", the id to "", and the role path is the normalised role |
| AuthProvider.LoginErrors | app/AuthProvider.tsx:66-76 | a thrown request or a missing `data` gives "Network error"; a refused reply gives its message or "Invalid credentials"; a missing token or e-mail gives "Malformed login response" |
| AuthProvider.Session.IsAuthenticated | app/AuthProvider.tsx:125 | `!!token`: authenticated exactly when a non-empty token is held; `Login` and `Logout` state how it changes |
| AuthProvider.Session.constructor | app/AuthProvider.tsx:42-44 | the session starts from the pre-set token and user, not loading |
| AuthProvider.Session.Login | app/AuthProvider.tsx:55-98 | the outcome is the login outcome of the reply; success stores the user and token, failure keeps them; loading ends false |
| AuthProvider.Session.Logout | app/AuthProvider.tsx:100-116 | a completed logout request clears user and token, so the session is no longer authenticated; a thrown one leaves both; loading ends false |
| Text.IsSpace | app/admin/users/page.tsx:110 | space, tab, line feed and carriage return are white space; no printable ASCII character is |
| Text.Trim | app/admin/users/page.tsx:102 | `trim()` gives a piece of the string that neither starts nor ends with white space |
| Text.ToLower | middleware.ts:15 | `toLowerCase()` keeps the length and lower-cases each character on its own |
| Text.Contains | middleware.ts:16-19 | `includes()`: a contained string is no longer than the container, and every prefix of a string is contained in it |
| Text.BeforeFirst | app/AuthProvider.tsx:81 | `split("@")[0]` is a prefix of the string holding no separator, followed by the separator when shorter |
| Text.ShowInt | app/college-external/dashboard/page.tsx:149 | a number renders with a leading minus sign exactly when negative and never as empty |
| Text.TrimEmptyIff | app/admin/users/page.tsx:102 | `s.trim()` is empty exactly when `s` is all white space |
| Text.ParseInt | app/verification-team/verification-form/page.tsx:154 | `parseInt` yields NaN (nothing) exactly when no digits follow the optional white space, sign and hex prefix |
| Text.ParseIntShowInt | app/verification-team/verification-form/page.tsx:154 | `parseInt` reads every integer's decimal rendering back as that integer |
| Text.ToLowerIsLower | middleware.ts:15 | `toLowerCase` leaves no upper-case letter, and lower-casing twice is lower-casing once |
| Worklist.OrDash | app/associate-dean/review/page.tsx:131 | a string cell is never empty: the value itself, or the dash for an empty value |
| Worklist.MarksCell | app/director/assign-external/page.tsx:150-154 | a missing mark shows the placeholder; a present one shows text that `parseInt` reads back as that mark |
| Worklist.SearchIgnoresCase | app/director/faculty-forms/page.tsx:67-69 | since both sides are lower-cased, whether the search hits a field does not depend on the search's letter case |
| AdminUsers.EmailShaped | app/admin/users/page.tsx:110 | an address the pattern accepts has at least five characters, the shortest being "a@b.c" |
| AdminUsers.EmailShapedProperties | app/admin/users/page.tsx:110 | an address the e-mail pattern accepts has no white space and exactly one "@", neither first nor last |
| AdminUsers.ShapedNotBlank | app/admin/users/page.tsx:107-113 | an accepted address is never blank |
| AdminUsers.LeadingSpaceRejected | app/admin/users/page.tsx:110 | an address starting with white space is rejected |
| AdminUsers.ExampleAddressShaped | app/admin/users/page.tsx:110 | "a@b.co" is accepted |
| AdminUsers.NameError | app/admin/users/page.tsx:102-105 | the name error is empty exactly when the name is not blank, and "Name is required" otherwise |
| AdminUsers.EmailError | app/admin/users/page.tsx:107-113 | the e-mail error is empty exactly when the pattern accepts the address; it is "Email is required" exactly when blank and "Invalid email format" exactly when non-blank but malformed |
| AdminUsers.PasswordError | app/admin/users/page.tsx:115-125 | the password error is empty exactly when the password has 6 characters or an edit leaves it empty; it is "Password is required" exactly when adding with an empty password |
| AdminUsers.RoleError | app/admin/users/page.tsx:127-130 | the role error is empty exactly when a role is chosen |
| AdminUsers.FormErrorsOf | app/admin/users/page.tsx:93-134 | all four messages are empty exactly when the form is acceptable field by field |
| AdminUsers.ValidateForm | app/admin/users/page.tsx:93-135 | the step-by-step check yields the per-field errors, and the form is valid exactly when all four are empty |
| AdminUsers.FilteredUsers | app/admin/users/page.tsx:404-408 | a user is listed exactly when the search hits their name or e-mail |
| AdminUsers.EmptySearchShowsAll | app/admin/users/page.tsx:404-408 | an empty search lists everyone |
| AdminUsers.SearchIgnoresCase | app/admin/users/page.tsx:406-407 | the letter case of the search makes no difference |
| AdminUsers.FilteredIsSublist | app/admin/users/page.tsx:404-408 | the list shown keeps the users' order |
| AdminUsers.AddUser | app/admin/users/page.tsx:410-423 | adding appends exactly one user, built from the form and the new id, at the end |
| AdminUsers.DeleteUser | app/admin/users/page.tsx:439 | no user with the id is left, every other user stays, and nothing new appears |
| AdminUsers.DeleteKeepsOthers | app/admin/users/page.tsx:439 | the remaining users keep their order; deleting an unknown id changes nothing |
| AdminUsers.DeleteUndoesAdd | app/admin/users/page.tsx:422-439 | deleting a freshly added user by its new id restores the list |
| AdminUsers.UpdateUser | app/admin/users/page.tsx:597-601 | the update keeps length, order and ids; it replaces exactly the users with the updated id |
| AdminUsers.UpdateIdempotent | app/admin/users/page.tsx:597-601 | applying the same update twice is applying it once |
| AdminUsers.UpdateUnknownId | app/admin/users/page.tsx:597-601 | an update for an unknown id changes nothing |
| AdminUsers.DeleteAfterUpdate | app/admin/users/page.tsx:597-601 | deleting an updated user gives the same list as deleting it unchanged |
| AdminUsers.UsersPage.constructor | app/admin/users/page.tsx:350-355 | the page starts with no users, no search, the modal closed and a blank form |
| AdminUsers.UsersPage.OpenAddModal | app/admin/users/page.tsx:461-465 | the modal opens for adding, with a blank form and no errors |
| AdminUsers.UsersPage.OpenEditModal | app/admin/users/page.tsx:467-471 | the modal opens for editing the user, with their fields and an empty password |
| AdminUsers.UsersPage.EditForm | app/admin/users/page.tsx:253-320 | the inputs are disabled while a submit runs, and while editing only the name can change (e-mail and role disabled, password hidden); typing changes only the form |
| AdminUsers.UsersPage.HandleClose | app/admin/users/page.tsx:222-226 | the form and errors are reset and the modal closes |
| AdminUsers.UsersPage.HandleSubmit | app/admin/users/page.tsx:137-220 | an invalid form sends nothing and shows its errors; an edit sends id, name, e-mail and role but never a password; a valid form clears the errors whatever the reply; success updates or appends and closes the modal; failure keeps the list and the modal; submitting ends false |
| AdminUsers.UsersPage.HandleDeleteUser | app/admin/users/page.tsx:425-459 | a successful delete removes the users with that id; any other outcome keeps the list |
| ForgotPassword.RequestError | app/forgot-password/page.tsx:37-42 | a request fails exactly when it threw, was refused or its body was unreadable; the message is never empty |
| ForgotPassword.ResetCheck | app/forgot-password/page.tsx:61-69 | the reset goes ahead exactly when both passwords match and have 6 characters; a mismatch is reported first |
| ForgotPassword.ForgotPasswordPage.constructor | app/forgot-password/page.tsx:15-22 | the page starts at the e-mail step with every field empty |
| ForgotPassword.ForgotPasswordPage.EnterEmail | app/forgot-password/page.tsx:172 | only the e-mail changes |
| ForgotPassword.ForgotPasswordPage.EnterReset | app/forgot-password/page.tsx:212-245 | only the code and the two passwords change |
| ForgotPassword.ForgotPasswordPage.HandleSendOtp | app/forgot-password/page.tsx:24-54 | the code is requested for the current e-mail; a failure stays at the e-mail step with the server's message or "Failed to send OTP"; success shows the confirmation and starts the step timer; loading ends false |
| ForgotPassword.ForgotPasswordPage.StepTimerFires | app/forgot-password/page.tsx:45-48 | the timer moves to the code step and clears the confirmation |
| ForgotPassword.ForgotPasswordPage.HandleResetPassword | app/forgot-password/page.tsx:56-96 | a failed local check sends nothing and leaves loading false; otherwise e-mail, code and new password are sent; messages are cleared on entry |
| ForgotPassword.ForgotPasswordPage.Resend | app/forgot-password/page.tsx:264-270 | back to the e-mail step with the code, both passwords and the error cleared, the e-mail kept |
| ChangePassword.SubmitError | components/change-password-dialog.tsx:59-76 | a sent request fails exactly when it threw or was refused, with a non-empty message |
| ChangePassword.ChangePasswordDialog.constructor | components/change-password-dialog.tsx:31-37 | all three fields and the error start empty |
| ChangePassword.ChangePasswordDialog.EnterPasswords | components/change-password-dialog.tsx:95-137 | only the three password fields change |
| ChangePassword.ChangePasswordDialog.HandleSubmit | components/change-password-dialog.tsx:41-77 | a request goes out exactly when new and confirmed passwords match, with no length rule; a mismatch sets "New passwords do not match"; a refusal sets the server's error or "Failed to change password" and keeps the fields; success clears all three and the error; a throw sets "Network error" |
| FacultyForms.Filtered | app/director/faculty-forms/page.tsx:66-74 | a record is shown exactly when the search hits its name or employee id and each drop-down is "all" or equal to its value |
| FacultyForms.FilteredIsSublist | app/director/faculty-forms/page.tsx:66-74 | the list shown keeps the records' order |
| FacultyForms.NoFiltersShowAll | app/director/faculty-forms/page.tsx:66-74 | no search and every drop-down on "all" shows everything |
| FacultyForms.PillStatuses | app/director/faculty-forms/page.tsx:77 | the pill statuses are the four options other than "all" |
| FacultyForms.CountOf | app/director/faculty-forms/page.tsx:78 | a status tally never exceeds the number of records |
| FacultyForms.Tally | app/director/faculty-forms/page.tsx:76-79 | the loop gives an entry for exactly the statuses listed, each the number of records with that status |
| FacultyForms.StatusCounts | app/director/faculty-forms/page.tsx:76-79 | `counts` has exactly the four pill statuses as keys, each with its tally |
| FacultyForms.CountsBounded | app/director/faculty-forms/page.tsx:76-79 | the four tallies together never exceed the number of records |
| FacultyForms.PillCountMatchesRows | app/director/faculty-forms/page.tsx:90-100 | with no other filter, selecting a pill shows exactly as many rows as its tally |
| FacultyForms.FacultyFormsPage.constructor | app/director/faculty-forms/page.tsx:54-59 | no records, no search, every drop-down on "all" |
| FacultyForms.Toggle | app/director/faculty-forms/page.tsx:93 | the new filter is "all" or the pill's status; it is "all" exactly when the pill was already selected or the pill is "all" |
| FacultyForms.FacultyFormsPage.OnPillClick | app/director/faculty-forms/page.tsx:93 | a pill toggles the status filter between its status and "all"; nothing else changes |
| FacultyForms.PillTwiceClears | app/director/faculty-forms/page.tsx:93 | from another selection, one click selects the pill and a second returns to "all" |
| VerificationDashboard.Filtered | app/verification-team/dashboard/page.tsx:58-64 | a record is shown exactly when the search hits its name or employee id and the department is "all" or its own |
| VerificationDashboard.FilteredIsSublist | app/verification-team/dashboard/page.tsx:58-64 | the list shown keeps the records' order |
| VerificationDashboard.NoFiltersShowAll | app/verification-team/dashboard/page.tsx:58-64 | an empty search with department "all" shows everything |
| VerificationDashboard.DepartmentFilterExact | app/verification-team/dashboard/page.tsx:62 | a chosen department lets through only records of exactly that department |
| VerificationDashboard.Tally | app/verification-team/dashboard/page.tsx:66-68 | each tally is at most the number of records |
| VerificationDashboard.TalliesCoverAll | app/verification-team/dashboard/page.tsx:66-68 | pending, in progress and verified add up to the number of records |
| VerificationDashboard.ActionLabel | app/verification-team/dashboard/page.tsx:159 | the button reads "Review" exactly for verified records and "Verify" otherwise |
| CollegeExternal.Filtered | app/college-external/dashboard/page.tsx:57-63 | a record is shown exactly when the search hits its name or employee id and the designation is "all" or its own |
| CollegeExternal.FilteredIsSublist | app/college-external/dashboard/page.tsx:57-63 | the list shown keeps the records' order |
| CollegeExternal.NoFiltersShowAll | app/college-external/dashboard/page.tsx:57-63 | an empty search with designation "all" shows everything |
| CollegeExternal.Evaluated | app/college-external/dashboard/page.tsx:65 | `evaluated` is at most the number of records, and equal to it exactly when every record has marks |
| CollegeExternal.Pending | app/college-external/dashboard/page.tsx:66 | `pending` is never negative, and it adds up with `evaluated` to the number of records |
| CollegeExternal.PendingCountsUnevaluated | app/college-external/dashboard/page.tsx:65-66 | `pending` is the number of records without external marks |
| CollegeExternal.MarksCellAsWritten | app/college-external/dashboard/page.tsx:148-152 | as written, a record without marks shows the three characters of the mis-encoded dash |
| CollegeExternal.UnmarkedRowShowsMojibake | app/college-external/dashboard/page.tsx:151 | that cell is three characters long and is not the dash |
| CollegeExternal.MarksCellOf | app/college-external/dashboard/page.tsx:148-152 | the corrected cell shows the dash exactly for records without marks |
| CollegeExternal.ActionLabel | app/college-external/dashboard/page.tsx:159 | "Re-evaluate" exactly when external marks exist, "Evaluate" exactly when they do not |
| AssignExternal.Filtered | app/director/assign-external/page.tsx:56-64 | a record is shown exactly when it matches the search, the department and the designation together |
| AssignExternal.FilteredIsSublist | app/director/assign-external/page.tsx:56-64 | the list shown keeps the records' order |
| AssignExternal.NoFiltersShowAll | app/director/assign-external/page.tsx:56-64 | an empty search with both drop-downs on "all" shows everything |
| AssignExternal.DepartmentNarrows | app/director/assign-external/page.tsx:57-63 | choosing a department shows the "all departments" list restricted to that department |
| AssignExternal.MarksCellOf | app/director/assign-external/page.tsx:150-154 | the cell reads "Not evaluated" exactly when the director's marks are missing |
| AssignExternal.ActionLabel | app/director/assign-external/page.tsx:164 | "Re-evaluate" exactly when the director's marks exist, "Evaluate" exactly when they do not |
| AssignExternal.CellMatchesLabel | app/director/assign-external/page.tsx:150-164 | the button offers "Evaluate" exactly when the cell reads "Not evaluated" |
| AddExternal.Filtered | app/director/add-external/page.tsx:87-92 | a reviewer is shown exactly when the search hits the name, the mail or the organization |
| AddExternal.FilteredIsSublist | app/director/add-external/page.tsx:87-92 | the list shown keeps the reviewers' order |
| AddExternal.EmptySearchShowsAll | app/director/add-external/page.tsx:87-92 | an empty search shows every reviewer |
| AddExternal.OptionalCell | app/director/add-external/page.tsx:236-238 | the mobile and organization cells show the value, or the dash when it is empty |
| AddExternal.AddExternalPage.constructor | app/director/add-external/page.tsx:50-62 | no reviewers, no search, not submitting, every form field empty |
| AddExternal.AddExternalPage.EditForm | app/director/add-external/page.tsx:117-182 | typing changes only the form |
| AddExternal.AddExternalPage.HandleSubmit | app/director/add-external/page.tsx:68-85 | a form missing the name, mail or designation is refused before `submitting` is set and changes nothing; otherwise it is accepted and all seven fields are reset, with `submitting` ending false; no request is issued, since the call is still to be written |
| AddExternal.ResetFormRefused | app/director/add-external/page.tsx:70-78 | the reset form lacks every required field |
| AssociateDeanReview.Filtered | app/associate-dean/review/page.tsx:51-57 | a submission is shown exactly when the search hits its name or employee id and the status is "all" or its own |
| AssociateDeanReview.FilteredIsSublist | app/associate-dean/review/page.tsx:51-57 | the list shown keeps the submissions' order |
| AssociateDeanReview.NoFiltersShowAll | app/associate-dean/review/page.tsx:51-57 | status "all" with an empty search shows every submission |
| AssociateDeanReview.StatusFilterExact | app/associate-dean/review/page.tsx:52-56 | with a status chosen, a submission is shown exactly when it has that status and the search hits its name or employee id |
| AssociateDeanReview.SubmittedAtCell | app/associate-dean/review/page.tsx:131 | an empty submission date shows the dash, any other shows itself |
| AssociateDeanReview.TotalMarksCell | app/associate-dean/review/page.tsx:134 | the total shows the dash exactly when it is missing |

## Left out

- Network I/O is not modelled. Every `fetch`, the proxy routes and the API client are
  replaced by the reply the handler receives, as a parameter.
- The middleware's backend check becomes a parameter. The cookies it sets go on a response
  that is discarded, so they have no effect.
- Toasts, `router.push`, `window.location` and timer delays are not modelled. The exception
  is the forgot-password step timer: it is a pending flag, and a method fires it.
- React scheduling is not modelled. Each handler is one sequential step on the component's
  state, and requests in flight do not interleave.
- Numbers are exact rationals (`real`), not IEEE doubles. `Math.round` is round half up.
  `toFixed` display formatting is not modelled.
- Numeric inputs are modelled as finite numbers, so NaN from a non-number input is not.
  `Number("")` is 0, as the components read it.
- The marks shown in the worklists are integers. Rendering a fractional JavaScript number is
  not modelled.
- `toLowerCase` is modelled on ASCII letters only, with no Unicode case mapping. String
  lengths count code points, not UTF-16 units.
- `parseInt` is modelled on arbitrary-precision integers. Precision loss above 2^53 is not
  modelled.
- `ReplyBody` in the forgot-password and change-password models has no case of its own for
  a JSON `null` body. Reading a field of a refused `null` body throws a TypeError. The
  handler then shows its connection or "Network error" message, which is the outcome of
  `Unreadable`, so such a reply is passed as `Unreadable`. An accepted reply's body is never
  read, so an accepted `null` body is passed as `Readable(None)`. The TypeError itself is
  not modelled.
- Data loading in `useEffect` is not modelled where the source leaves it as a TODO:
  - the worklists;
  - Part B's claimed values;
  - the director-verify record and its save calls.
  The director-verify save has no failing path in the source, so none is modelled.
- `ROLE_FACTOR[userRole]` inherits from `Object.prototype`, which is not modelled. A
  designation such as "constructor" would find an inherited entry there.
- The logout request's header uses the token captured when the callback was first created.
  This affects only the request, so it is not modelled.
- The user update `{...u, ...updated}` is modelled as replacing the user with `updated`.
  The two agree because `updated` carries every field of a user.
- The add-external `catch` branch is not modelled. Its `try` block only shows a toast and
  resets the form, so in the model it cannot fail. The new reviewer is not added to the
  list, since the source leaves the refresh as a TODO.
- The director's faculty list shows `grandTotal ?? "—"`. This cell is not modelled.
- The dialog components under `components/ui` are not part of this model.
  `DirectorVerify.DirectorVerifyPage.HandleConfirm` treats the dialog's action button as
  closing the dialog after its click handler, as the Radix action it wraps does.
- Presentational components, layouts, sidebars and the static duplicate of Part A are not
  part of this model.
- `lib/types.ts` and the login page are not part of this model.

## Findings

| source | as written | input that shows it | evidently intended | confidence | as-written member | corrected member |
|---|---|---|---|---|---|---|
| app/college-external/dashboard/page.tsx:151 | the placeholder for missing external marks is the three characters U+00E2 U+20AC U+201D, which is an em dash's UTF-8 bytes read as Windows-1252 | any assigned record whose `externalMarks` is null | the em dash "—" that every other table shows for a missing value | high (not executed) | CollegeExternal.MarksCellAsWritten | CollegeExternal.MarksCellOf |

=== FILE: add_external.dfy ===
/** The director's register of external reviewers: the add form with its three required
    fields, and the list filtered by one search over name, mail and organization. */
module AddExternal {
  import opened Common
  import Lists
  import Worklist

  datatype ExternalReviewer = ExternalReviewer(
    id: string, fullName: string, mail: string, mob: string, designation: string,
    specialization: string, organization: string, address: string)

  /** The seven fields of the add form. */
  datatype ReviewerForm = ReviewerForm(
    fullName: string, mail: string, mob: string, designation: string,
    specialization: string, organization: string, address: string)

  const BlankForm := ReviewerForm("", "", "", "", "", "", "")

  /** `!form.full_name || !form.mail || !form.designation` */
  predicate MissingRequired(form: ReviewerForm) {
    form.fullName == [] || form.mail == [] || form.designation == []
  }

  /** The search is a case-insensitive part of the name, the mail or the organization. */
  predicate Keep(search: string, e: ExternalReviewer) {
    Worklist.SearchHit(e.fullName, search) || Worklist.SearchHit(e.mail, search)
    || Worklist.SearchHit(e.organization, search)
  }

  /** `filtered` */
  function Filtered(externals: seq<ExternalReviewer>, search: string): (r: seq<ExternalReviewer>)
    ensures forall i | 0 <= i < |r| :: r[i] in externals && Keep(search, r[i])
    ensures forall i | 0 <= i < |externals| :: Keep(search, externals[i]) ==> externals[i] in r
  {
    Lists.Filter(externals, e => Keep(search, e))
  }

  lemma FilteredIsSublist(externals: seq<ExternalReviewer>, search: string)
    ensures Lists.SubseqOf(Filtered(externals, search), externals)
  {
    Lists.FilterIsSubseq(externals, e => Keep(search, e));
  }

  /** An empty search keeps every reviewer. */
  lemma EmptySearchShowsAll(externals: seq<ExternalReviewer>)
    ensures Filtered(externals, "") == externals
  {
    forall i | 0 <= i < |externals| ensures Keep("", externals[i]) {
      Worklist.EmptySearchHits(externals[i].fullName);
    }
    Lists.FilterKeepsAll(externals, e => Keep("", e));
  }

  /** The mobile and organization cells: the value, or the dash when it is empty. */
  function OptionalCell(value: string): (r: string)
    ensures r == Worklist.Dash <==> value == [] || value == Worklist.Dash
    ensures value != [] ==> r == value
  {
    Worklist.OrDash(value)
  }

  class AddExternalPage {
    var externals: seq<ExternalReviewer>
    var search: string
    var submitting: bool
    var form: ReviewerForm

    constructor()
      ensures externals == [] && search == "" && !submitting && form == BlankForm
    {
      externals, search, submitting, form := [], "", false, BlankForm;
    }

    function Shown(): seq<ExternalReviewer>
      reads this
    {
      Filtered(externals, search)
    }

    /** Typing into the form. */
    method EditForm(newForm: ReviewerForm)
      modifies this
      ensures form == newForm
      ensures externals == old(externals) && search == old(search) && submitting == old(submitting)
    {
      form := newForm;
    }

    /** `handleSubmit`: a form missing a required field is refused before anything is set;
        otherwise the form is accepted and every field is reset, with `submitting` ending
        false. No request is issued (the source leaves the call to be written) and the list is
        not refreshed. */
    method HandleSubmit() returns (accepted: Option<ReviewerForm>)
      modifies this
      ensures accepted.None? <==> MissingRequired(old(form))
      ensures accepted.None? ==> form == old(form) && submitting == old(submitting)
      ensures accepted.Some? ==> accepted.value == old(form) && form == BlankForm && !submitting
      ensures externals == old(externals) && search == old(search)
    {
      if form.fullName == [] || form.mail == [] || form.designation == [] {
        return None;
      }
      submitting := true;
      accepted := Some(form);
      form := BlankForm;
      submitting := false;
    }
  }

  /** A form that has just been accepted cannot be accepted again unchanged: the reset form
      lacks every required field. */
  lemma ResetFormRefused()
    ensures MissingRequired(BlankForm)
  {
  }
}

=== FILE: admin_users.dfy ===
/** User administration: the add/edit dialog with its field checks, and the user list it
    feeds (search, add, delete, update). */
module AdminUsers {
  import opened Common
  import Text
  import Lists
  import Worklist

  datatype User = User(name: string, email: string, role: string, id: string)

  datatype FormData = FormData(name: string, email: string, password: string, role: string, id: string)

  /** One message per field; "" means no complaint. */
  datatype FormErrors = FormErrors(name: string, email: string, password: string, role: string)

  const BlankForm := FormData("", "", "", "", "")
  const NoErrors := FormErrors("", "", "", "")

  // ---- field checks ----------------------------------------------------------------------

  /** No white space and no '@': the class `[^\s@]`. */
  predicate Plain(t: string) {
    forall k | 0 <= k < |t| :: !Text.IsSpace(t[k]) && t[k] != '@'
  }

  /** The pattern `^[^\s@]+@[^\s@]+\.[^\s@]+$`: a non-empty local part, '@', then a domain
      in which some dot has a non-empty run on either side, with no white space and no
      second '@' anywhere. */
  predicate EmailShaped(s: string)
    ensures EmailShaped(s) ==> |s| >= 5
  {
    exists i, j | 0 < i && i + 1 < j && j + 1 < |s| ::
      s[i] == '@' && s[j] == '.' && Plain(s[..i]) && Plain(s[i + 1..j]) && Plain(s[j + 1..])
  }

  /** A well-shaped address has exactly one '@' and no white space, so it is never blank. */
  lemma EmailShapedProperties(s: string)
    requires EmailShaped(s)
    ensures forall k | 0 <= k < |s| :: !Text.IsSpace(s[k])
    ensures exists i | 0 < i < |s| - 1 :: s[i] == '@' && forall k | 0 <= k < |s| && k != i :: s[k] != '@'
    ensures !Text.IsBlank(s)
  {
    var i, j :| 0 < i && i + 1 < j && j + 1 < |s|
      && s[i] == '@' && s[j] == '.' && Plain(s[..i]) && Plain(s[i + 1..j]) && Plain(s[j + 1..]);
    forall k | 0 <= k < |s| && k != i ensures !Text.IsSpace(s[k]) && s[k] != '@' {
      if k < i {
        assert s[k] == s[..i][k];
      } else if k < j {
        assert s[k] == s[i + 1..j][k - i - 1];
      } else if k > j {
        assert s[k] == s[j + 1..][k - j - 1];
      }
    }
    assert !Text.IsSpace(s[i]);
  }

  lemma ShapedNotBlank(s: string)
    ensures EmailShaped(s) ==> !Text.IsBlank(s)
  {
    if EmailShaped(s) {
      EmailShapedProperties(s);
    }
  }

  /** The regular expression is applied to the untrimmed text: a leading space makes the
      address malformed. */
  lemma LeadingSpaceRejected(s: string)
    requires s != [] && Text.IsSpace(s[0])
    ensures !EmailShaped(s)
  {
    if EmailShaped(s) {
      EmailShapedProperties(s);
      assert false;
    }
  }

  lemma ExampleAddressShaped()
    ensures EmailShaped("a@b.co")
  {
    var s := "a@b.co";
    assert s[..1] == "a" && s[1 + 1..3] == "b" && s[3 + 1..] == "co";
    assert Plain(s[..1]) && Plain(s[1 + 1..3]) && Plain(s[3 + 1..]);
    assert s[1] == '@' && s[3] == '.';
  }

  // `!s.trim()` is written `Text.IsBlank(s)` below; `Text.TrimEmptyIff` shows the two agree.

  /** The name must not be blank. */
  function NameError(name: string): (r: string)
    ensures r == "" <==> !Text.IsBlank(name)
    ensures r == "" || r == "Name is required"
  {
    if Text.IsBlank(name) then "Name is required" else ""
  }

  /** The e-mail is "required" exactly when blank and "invalid" exactly when non-blank but
      malformed. */
  function EmailError(email: string): (r: string)
    ensures r == "" <==> EmailShaped(email)
    ensures r == "Email is required" <==> Text.IsBlank(email)
    ensures r == "Invalid email format" <==> !Text.IsBlank(email) && !EmailShaped(email)
  {
    ShapedNotBlank(email);
    if Text.IsBlank(email) then "Email is required"
    else if !EmailShaped(email) then "Invalid email format"
    else ""
  }

  /** A new user needs a password of at least 6 characters; an edit may leave it empty but
      not short. */
  function PasswordError(password: string, isEditing: bool): (r: string)
    ensures r == "" <==> (isEditing && password == "") || |password| >= 6
    ensures r == "Password is required" <==> !isEditing && password == ""
    ensures r == "" || r == "Password is required" || r == "Password must be at least 6 characters"
  {
    if !isEditing then
      if password == "" then "Password is required"
      else if |password| < 6 then "Password must be at least 6 characters"
      else ""
    else if password != "" && |password| < 6 then "Password must be at least 6 characters"
    else ""
  }

  /** The role must be chosen. */
  function RoleError(role: string): (r: string)
    ensures r == "" <==> role != ""
  {
    if role == "" then "Role is required" else ""
  }

  /** The messages `validateForm` leaves behind. */
  function FormErrorsOf(form: FormData, isEditing: bool): (r: FormErrors)
    ensures r == NoErrors <==> Acceptable(form, isEditing)
  {
    FormErrors(NameError(form.name), EmailError(form.email), PasswordError(form.password, isEditing), RoleError(form.role))
  }

  /** The form as the dialog accepts it, stated field by field. */
  predicate Acceptable(form: FormData, isEditing: bool) {
    !Text.IsBlank(form.name)
    && EmailShaped(form.email)
    && (if isEditing then form.password == "" || |form.password| >= 6 else |form.password| >= 6)
    && form.role != ""
  }

  /** `validateForm`: collects one message per field (every field is checked, none stops the
      others) and whether all passed. */
  method ValidateForm(form: FormData, isEditing: bool) returns (errors: FormErrors, isValid: bool)
    ensures errors == FormErrorsOf(form, isEditing)
    ensures isValid <==> errors == NoErrors
    ensures isValid <==> Acceptable(form, isEditing)
  {
    errors := NoErrors;
    isValid := true;
    Text.TrimEmptyIff(form.name);
    if Text.Trim(form.name) == "" {
      errors := errors.(name := "Name is required");
      isValid := false;
    }
    assert errors == NoErrors.(name := NameError(form.name));
    Text.TrimEmptyIff(form.email);
    if Text.Trim(form.email) == "" {
      errors := errors.(email := "Email is required");
      isValid := false;
    } else if !EmailShaped(form.email) {
      errors := errors.(email := "Invalid email format");
      isValid := false;
    }
    assert errors == NoErrors.(name := NameError(form.name), email := EmailError(form.email));
    assert isValid <==> errors == NoErrors;
    if !isEditing {
      if form.password == "" {
        errors := errors.(password := "Password is required");
        isValid := false;
      } else if |form.password| < 6 {
        errors := errors.(password := "Password must be at least 6 characters");
        isValid := false;
      }
    } else if form.password != "" && |form.password| < 6 {
      errors := errors.(password := "Password must be at least 6 characters");
      isValid := false;
    }
    assert errors.password == PasswordError(form.password, isEditing);
    assert isValid <==> errors == NoErrors;
    if form.role == "" {
      errors := errors.(role := "Role is required");
      isValid := false;
    }
  }

  // ---- the user list ---------------------------------------------------------------------

  /** A user matches the search when the search text, lower-cased, occurs in the lower-cased
      name or e-mail. */
  predicate Matches(search: string, u: User) {
    Worklist.SearchHit(u.name, search) || Worklist.SearchHit(u.email, search)
  }

  /** `filteredUsers` */
  function FilteredUsers(users: seq<User>, search: string): (r: seq<User>)
    ensures forall i | 0 <= i < |r| :: r[i] in users && Matches(search, r[i])
    ensures forall i | 0 <= i < |users| :: Matches(search, users[i]) ==> users[i] in r
  {
    Lists.Filter(users, u => Matches(search, u))
  }

  /** An empty search shows everyone, in order. */
  lemma EmptySearchShowsAll(users: seq<User>)
    ensures FilteredUsers(users, "") == users
  {
    forall i | 0 <= i < |users| ensures Matches("", users[i]) {
      Worklist.EmptySearchHits(users[i].name);
    }
    Lists.FilterKeepsAll(users, u => Matches("", u));
  }

  /** The search ignores letter case. */
  lemma SearchIgnoresCase(users: seq<User>, search: string)
    ensures FilteredUsers(users, search) == FilteredUsers(users, Text.ToLower(search))
  {
    forall i | 0 <= i < |users| ensures Matches(search, users[i]) == Matches(Text.ToLower(search), users[i]) {
      Worklist.SearchIgnoresCase(users[i].name, search);
      Worklist.SearchIgnoresCase(users[i].email, search);
    }
    Lists.FilterSameTest(users, u => Matches(search, u), u => Matches(Text.ToLower(search), u));
  }

  /** The shown list keeps the order of the full one. */
  lemma FilteredIsSublist(users: seq<User>, search: string)
    ensures Lists.SubseqOf(FilteredUsers(users, search), users)
  {
    Lists.FilterIsSubseq(users, u => Matches(search, u));
  }

  /** `handleAddUser`: the new user, with the given id, goes at the end; the password is not
      kept in the list. */
  function AddUser(users: seq<User>, data: FormData, newId: string): (r: seq<User>)
    ensures |r| == |users| + 1 && r[..|users|] == users
    ensures r[|users|] == User(data.name, data.email, data.role, newId)
  {
    users + [User(data.name, data.email, data.role, newId)]
  }

  predicate HasId(users: seq<User>, id: string) {
    exists i | 0 <= i < |users| :: users[i].id == id
  }

  /** The delete filter's test: keep users whose id differs. */
  function OtherThan(id: string): User -> bool {
    (u: User) => u.id != id
  }

  /** `prev.filter(u => u.id !== user.id)` */
  function DeleteUser(users: seq<User>, id: string): (r: seq<User>)
    ensures !HasId(r, id)
    ensures forall i | 0 <= i < |users| :: users[i].id != id ==> users[i] in r
    ensures forall i | 0 <= i < |r| :: r[i] in users
  {
    Lists.Filter(users, OtherThan(id))
  }

  /** Deleting keeps the order of the others, and deleting an id nobody has changes nothing. */
  lemma DeleteKeepsOthers(users: seq<User>, id: string)
    ensures Lists.SubseqOf(DeleteUser(users, id), users)
    ensures !HasId(users, id) ==> DeleteUser(users, id) == users
  {
    Lists.FilterIsSubseq(users, OtherThan(id));
    if !HasId(users, id) {
      Lists.FilterKeepsAll(users, OtherThan(id));
    }
  }

  /** Adding a user under a fresh id and then deleting that id restores the list. */
  lemma DeleteUndoesAdd(users: seq<User>, data: FormData, newId: string)
    requires !HasId(users, newId)
    ensures DeleteUser(AddUser(users, data, newId), newId) == users
  {
    var nu := User(data.name, data.email, data.role, newId);
    Lists.FilterAppend(users, [nu], OtherThan(newId));
    Lists.FilterKeepsAll(users, OtherThan(newId));
    assert Lists.Filter([nu], OtherThan(newId)) == [];
  }

  /** `onUpdateUser`: every entry with the updated id is replaced by the update (all four
      fields are overwritten); everything else stays where it was. */
  function UpdateUser(users: seq<User>, updated: User): (r: seq<User>)
    ensures |r| == |users|
    ensures forall i | 0 <= i < |users| :: r[i].id == users[i].id
    ensures forall i | 0 <= i < |users| :: users[i].id != updated.id ==> r[i] == users[i]
    ensures forall i | 0 <= i < |users| :: users[i].id == updated.id ==> r[i] == updated
  {
    seq(|users|, i requires 0 <= i < |users| => if users[i].id == updated.id then updated else users[i])
  }

  /** Applying the same update twice is the same as once. */
  lemma UpdateIdempotent(users: seq<User>, updated: User)
    ensures UpdateUser(UpdateUser(users, updated), updated) == UpdateUser(users, updated)
  {
  }

  /** An update to an id nobody has changes nothing. */
  lemma UpdateUnknownId(users: seq<User>, updated: User)
    requires !HasId(users, updated.id)
    ensures UpdateUser(users, updated) == users
  {
  }

  /** Deleting an id after updating it leaves what deleting alone leaves. */
  lemma {:induction false} DeleteAfterUpdate(users: seq<User>, updated: User)
    ensures DeleteUser(UpdateUser(users, updated), updated.id) == DeleteUser(users, updated.id)
  {
    if users != [] {
      var r := UpdateUser(users, updated);
      assert r[1..] == UpdateUser(users[1..], updated);
      DeleteAfterUpdate(users[1..], updated);
    }
  }

  // ---- the page --------------------------------------------------------------------------

  datatype Request =
    | UpdateRequest(id: string, name: string, email: string, role: string)
    | AddRequest(form: FormData)

  /** The users page with its add/edit dialog. */
  class UsersPage {
    var users: seq<User>
    var searchTerm: string
    var isAddModalOpen: bool
    var isEditing: bool
    var selectedUser: Option<User>
    var formData: FormData
    var errors: FormErrors
    var isSubmitting: bool

    /** The edit dialog is only ever opened with a user to edit. */
    predicate Valid()
      reads this
    {
      isEditing ==> selectedUser.Some?
    }

    constructor()
      ensures Valid()
      ensures users == [] && searchTerm == "" && !isAddModalOpen && !isEditing && selectedUser.None?
      ensures formData == BlankForm && errors == NoErrors && !isSubmitting
    {
      users, searchTerm := [], "";
      isAddModalOpen, isEditing, selectedUser := false, false, None;
      formData, errors, isSubmitting := BlankForm, NoErrors, false;
    }

    function Filtered(): seq<User>
      reads this
    {
      FilteredUsers(users, searchTerm)
    }

    /** `openAddModal`, with the dialog's opening effect: a blank form, no errors. */
    method OpenAddModal()
      modifies this
      ensures Valid()
      ensures isAddModalOpen && !isEditing && selectedUser.None?
      ensures formData == BlankForm && errors == NoErrors
      ensures users == old(users) && searchTerm == old(searchTerm) && isSubmitting == old(isSubmitting)
    {
      selectedUser, isEditing, isAddModalOpen := None, false, true;
      formData, errors := BlankForm, NoErrors;
    }

    /** `openEditModal(u)`, with the dialog's opening effect: the form shows the user with an
        empty password. */
    method OpenEditModal(u: User)
      modifies this
      ensures Valid()
      ensures isAddModalOpen && isEditing && selectedUser == Some(u)
      ensures formData == FormData(u.name, u.email, "", u.role, u.id) && errors == NoErrors
      ensures users == old(users) && searchTerm == old(searchTerm) && isSubmitting == old(isSubmitting)
    {
      selectedUser, isEditing, isAddModalOpen := Some(u), true, true;
      formData, errors := FormData(u.name, u.email, "", u.role, u.id), NoErrors;
    }

    /** Typing into the dialog. Every input is disabled while a submit runs; when editing,
        the e-mail and role inputs are disabled and the password input is not shown, so only
        the name can change. No input edits the id. */
    method EditForm(form: FormData)
      requires !isSubmitting
      requires form.id == formData.id
      requires isEditing ==> form.email == formData.email && form.password == formData.password && form.role == formData.role
      modifies this
      ensures formData == form
      ensures users == old(users) && searchTerm == old(searchTerm) && isAddModalOpen == old(isAddModalOpen)
      ensures isEditing == old(isEditing) && selectedUser == old(selectedUser)
      ensures errors == old(errors) && isSubmitting == old(isSubmitting)
    {
      formData := form;
    }

    /** `handleClose` followed by the page's `onClose`. */
    method HandleClose()
      modifies this
      ensures Valid()
      ensures formData == BlankForm && errors == NoErrors
      ensures !isAddModalOpen && !isEditing && selectedUser.None?
      ensures users == old(users) && searchTerm == old(searchTerm) && isSubmitting == old(isSubmitting)
    {
      formData, errors := BlankForm, NoErrors;
      isAddModalOpen, isEditing, selectedUser := false, false, None;
    }

    /** `handleSubmit`: an invalid form only shows its errors and sends nothing. A valid one is
        sent (an edit without the password, an addition with the whole form); on an ok reply the
        list is updated and the dialog closed, otherwise the dialog stays as it was. */
    method HandleSubmit(response: Fetch<()>, newId: string) returns (request: Option<Request>)
      requires Valid()
      modifies this
      ensures Valid()
      ensures request.None? ==> errors == FormErrorsOf(old(formData), old(isEditing)) && errors != NoErrors
      ensures request.Some? <==> FormErrorsOf(old(formData), old(isEditing)) == NoErrors
      ensures request.None? ==>
        users == old(users) && formData == old(formData) && isSubmitting == old(isSubmitting)
        && isAddModalOpen == old(isAddModalOpen) && isEditing == old(isEditing) && selectedUser == old(selectedUser)
      ensures request.Some? && old(isEditing) ==>
        request.value == UpdateRequest(old(selectedUser).value.id, old(formData).name, old(formData).email, old(formData).role)
      ensures request.Some? && !old(isEditing) ==> request.value == AddRequest(old(formData))
      ensures request.Some? && response == Replied(true, ()) && old(isEditing) ==>
        users == UpdateUser(old(users), User(old(formData).name, old(formData).email, old(formData).role, old(selectedUser).value.id))
      ensures request.Some? && response == Replied(true, ()) && !old(isEditing) ==>
        users == AddUser(old(users), old(formData), newId)
      ensures request.Some? && response == Replied(true, ()) ==>
        formData == BlankForm && errors == NoErrors && !isAddModalOpen && !isEditing && selectedUser.None?
      ensures request.Some? && response != Replied(true, ()) ==>
        users == old(users) && formData == old(formData) && isAddModalOpen == old(isAddModalOpen)
        && isEditing == old(isEditing) && selectedUser == old(selectedUser)
      ensures request.Some? ==> !isSubmitting && errors == NoErrors
      ensures searchTerm == old(searchTerm)
    {
      var valid;
      errors, valid := ValidateForm(formData, isEditing);
      if !valid {
        return None;
      }
      isSubmitting := true;
      var form := formData;
      if isEditing {
        var id := selectedUser.value.id;
        request := Some(UpdateRequest(id, form.name, form.email, form.role));
        if response == Replied(true, ()) {
          users := UpdateUser(users, User(form.name, form.email, form.role, id));
        }
      } else {
        request := Some(AddRequest(form));
        if response == Replied(true, ()) {
          users := AddUser(users, form, newId);
        }
      }
      if response == Replied(true, ()) {
        formData, errors := BlankForm, NoErrors;
        isAddModalOpen, isEditing, selectedUser := false, false, None;
      }
      isSubmitting := false;
    }

    /** `handleDeleteUser(u)`: on an ok reply every entry with that id leaves the list. */
    method HandleDeleteUser(u: User, response: Fetch<()>)
      modifies this
      ensures response == Replied(true, ()) ==> users == DeleteUser(old(users), u.id)
      ensures response != Replied(true, ()) ==> users == old(users)
      ensures searchTerm == old(searchTerm) && isAddModalOpen == old(isAddModalOpen) && isEditing == old(isEditing)
      ensures selectedUser == old(selectedUser) && formData == old(formData) && errors == old(errors)
      ensures isSubmitting == old(isSubmitting)
    {
      if response == Replied(true, ()) {
        users := DeleteUser(users, u.id);
      }
    }
  }
}

=== FILE: assign_external.dfy ===
/** The director's list of faculty awaiting the interaction evaluation: filtered by a search,
    a department and a designation, with the director's marks and the row's action. */
module AssignExternal {
  import opened Common
  import Lists
  import Worklist

  datatype FacultyRecord = FacultyRecord(
    id: string, name: string, employeeId: string, department: string,
    designation: string, status: string, directorMarks: Option<int>)

  /** The search hits the name or the employee id, and both drop-downs are "all" or equal
      to the record's value. */
  predicate Keep(search: string, department: string, designation: string, f: FacultyRecord) {
    (Worklist.SearchHit(f.name, search) || Worklist.SearchHit(f.employeeId, search))
    && Worklist.Selects(department, f.department)
    && Worklist.Selects(designation, f.designation)
  }

  /** `filtered` */
  function Filtered(faculty: seq<FacultyRecord>, search: string, department: string, designation: string)
    : (r: seq<FacultyRecord>)
    ensures forall i | 0 <= i < |r| :: r[i] in faculty && Keep(search, department, designation, r[i])
    ensures forall i | 0 <= i < |faculty| ::
      Keep(search, department, designation, faculty[i]) ==> faculty[i] in r
  {
    Lists.Filter(faculty, f => Keep(search, department, designation, f))
  }

  lemma FilteredIsSublist(faculty: seq<FacultyRecord>, search: string, department: string, designation: string)
    ensures Lists.SubseqOf(Filtered(faculty, search, department, designation), faculty)
  {
    Lists.FilterIsSubseq(faculty, f => Keep(search, department, designation, f));
  }

  /** An empty search with both drop-downs on "all" shows every record. */
  lemma NoFiltersShowAll(faculty: seq<FacultyRecord>)
    ensures Filtered(faculty, "", "all", "all") == faculty
  {
    forall i | 0 <= i < |faculty| ensures Keep("", "all", "all", faculty[i]) {
      Worklist.EmptySearchHits(faculty[i].name);
    }
    Lists.FilterKeepsAll(faculty, f => Keep("", "all", "all", f));
  }

  function InDepartment(department: string): FacultyRecord -> bool {
    (f: FacultyRecord) => Worklist.Selects(department, f.department)
  }

  /** Narrowing one drop-down never adds rows: what is shown with a department chosen is
      what is shown with "all" departments, restricted to that department. */
  lemma {:induction false} DepartmentNarrows(faculty: seq<FacultyRecord>, search: string, department: string,
                                             designation: string)
    ensures Filtered(faculty, search, department, designation)
         == Lists.Filter(Filtered(faculty, search, "all", designation), InDepartment(department))
  {
    if faculty != [] {
      var x, rest := faculty[0], faculty[1..];
      var head := if Keep(search, "all", designation, x) then [x] else [];
      assert Filtered(faculty, search, "all", designation) == head + Filtered(rest, search, "all", designation);
      Lists.FilterAppend(head, Filtered(rest, search, "all", designation), InDepartment(department));
      DepartmentNarrows(rest, search, department, designation);
    }
  }

  /** The marks cell: the director's marks, or "Not evaluated" exactly when there are none. */
  function MarksCellOf(f: FacultyRecord): (r: string)
    ensures r == "Not evaluated" <==> f.directorMarks.None?
  {
    Worklist.PlaceholderIffUnmarked(f.directorMarks, "Not evaluated", 0);
    Worklist.MarksCell(f.directorMarks, "Not evaluated")
  }

  /** The row's button. */
  function ActionLabel(f: FacultyRecord): (r: string)
    ensures r == "Re-evaluate" <==> f.directorMarks.Some?
    ensures r == "Evaluate" <==> f.directorMarks.None?
  {
    Worklist.EvaluateLabel(f.directorMarks)
  }

  /** The cell and the button agree: a row offers "Evaluate" exactly when its cell reads
      "Not evaluated". */
  lemma CellMatchesLabel(f: FacultyRecord)
    ensures ActionLabel(f) == "Evaluate" <==> MarksCellOf(f) == "Not evaluated"
  {
  }
}

=== FILE: associate_dean_review.dfy ===
/** The associate dean's review list: submissions filtered by a search and a status, with
    dashes for a missing submission date or total. */
module AssociateDeanReview {
  import opened Common
  import Lists
  import Worklist

  /** `totalMarks` is declared a number, but a submission whose JSON lacks it (or holds
      null) reaches the table as well. */
  datatype FacultySubmission = FacultySubmission(
    id: string, name: string, employeeId: string, designation: string, status: string,
    submittedAt: string, totalMarks: Option<int>)

  /** The search hits the name or the employee id, and the status drop-down is "all" or
      equal to the submission's status. */
  predicate Keep(search: string, status: string, s: FacultySubmission) {
    (Worklist.SearchHit(s.name, search) || Worklist.SearchHit(s.employeeId, search))
    && Worklist.Selects(status, s.status)
  }

  /** `filtered` */
  function Filtered(submissions: seq<FacultySubmission>, search: string, status: string)
    : (r: seq<FacultySubmission>)
    ensures forall i | 0 <= i < |r| :: r[i] in submissions && Keep(search, status, r[i])
    ensures forall i | 0 <= i < |submissions| :: Keep(search, status, submissions[i]) ==> submissions[i] in r
  {
    Lists.Filter(submissions, s => Keep(search, status, s))
  }

  lemma FilteredIsSublist(submissions: seq<FacultySubmission>, search: string, status: string)
    ensures Lists.SubseqOf(Filtered(submissions, search, status), submissions)
  {
    Lists.FilterIsSubseq(submissions, s => Keep(search, status, s));
  }

  /** Status "all" with an empty search keeps every submission. */
  lemma NoFiltersShowAll(submissions: seq<FacultySubmission>)
    ensures Filtered(submissions, "", "all") == submissions
  {
    forall i | 0 <= i < |submissions| ensures Keep("", "all", submissions[i]) {
      Worklist.EmptySearchHits(submissions[i].name);
    }
    Lists.FilterKeepsAll(submissions, s => Keep("", "all", s));
  }

  /** With a status chosen, a submission is shown exactly when it has that status and the
      search hits its name or employee id. */
  lemma StatusFilterExact(submissions: seq<FacultySubmission>, search: string, status: string, s: FacultySubmission)
    requires status != "all" && s in submissions
    ensures s in Filtered(submissions, search, status) <==>
      s.status == status && (Worklist.SearchHit(s.name, search) || Worklist.SearchHit(s.employeeId, search))
  {
    var i :| 0 <= i < |submissions| && submissions[i] == s;
  }

  /** `s.submittedAt || "—"` */
  function SubmittedAtCell(s: FacultySubmission): (r: string)
    ensures r == Worklist.Dash <==> s.submittedAt == [] || s.submittedAt == Worklist.Dash
    ensures s.submittedAt != [] ==> r == s.submittedAt
  {
    Worklist.OrDash(s.submittedAt)
  }

  /** `s.totalMarks ?? "—"`: the dash exactly when the total is missing. */
  function TotalMarksCell(s: FacultySubmission): (r: string)
    ensures r == Worklist.Dash <==> s.totalMarks.None?
    ensures s.totalMarks.Some? ==> r != []
  {
    Worklist.PlaceholderIffUnmarked(s.totalMarks, Worklist.Dash, 0);
    Worklist.MarksCell(s.totalMarks, Worklist.Dash)
  }
}

=== FILE: auth_provider.dfy ===
/** The client-side session: the signed-in user, the token and a loading flag, changed by
    `login` and `logout`. */
module AuthProvider {
  import opened Common
  import Text
  import Middleware

  /** `normalizeRolePath`: no role for an absent or empty value; otherwise the lower-cased
      value, with exactly "event coordinator" and "evaluator head" collapsed. */
  function NormalizeRolePath(r: Option<string>): (p: Option<string>)
    ensures p.None? <==> r.None? || r.value == ""
    ensures p.Some? ==> Text.IsLowerCase(p.value)
  {
    if r.None? || r.value == "" then None
    else
      var s := Text.ToLower(r.value);
      Text.ToLowerIsLower(r.value);
      if s == "event coordinator" || s == "coordinator" then Some("coordinator")
      else if s == "evaluator head" || s == "head" then Some("head")
      else Some(s)
  }

  /** Only the two exact coordinator spellings (in any case) give "coordinator", and only the
      two exact head spellings give "head". */
  lemma RolePathExactMatches(r: string)
    ensures NormalizeRolePath(Some(r)) == Some("coordinator")
        <==> Text.ToLower(r) == "event coordinator" || Text.ToLower(r) == "coordinator"
    ensures NormalizeRolePath(Some(r)) == Some("head")
        <==> Text.ToLower(r) == "evaluator head" || Text.ToLower(r) == "head"
    ensures r != "" && Text.ToLower(r) !in {"event coordinator", "coordinator", "evaluator head", "head"} ==>
        NormalizeRolePath(Some(r)) == Some(Text.ToLower(r))
  {
    if r == "" {
      assert Text.ToLower(r) == "";
    }
  }

  /** `normalizeRolePath` is idempotent. */
  lemma RolePathIdempotent(r: Option<string>)
    ensures NormalizeRolePath(NormalizeRolePath(r)) == NormalizeRolePath(r)
  {
    var p := NormalizeRolePath(r);
    if p.Some? {
      Text.LowerCaseFixed(p.value);
    }
  }

  lemma DepartmentHeadLower()
    ensures Text.ToLower("Department Head") == "department head"
  {
  }

  lemma DepartmentHeadLacksCoordinator()
    ensures !Text.Contains("department head", "coordinator")
  {
    var l := "department head";
    if Text.Contains(l, "coordinator") {
      Text.ContainsFirstChar(l, "coordinator");
      assert false;
    }
  }

  lemma MiddlewareReadsDepartmentHead()
    ensures Middleware.NormalizeRole(Some("Department Head")) == Some("head")
  {
    DepartmentHeadLower();
    DepartmentHeadLacksCoordinator();
    var l := "department head";
    assert "head" <= l[11..];
  }

  /** The two normalisations differ: the middleware reads "Department Head" as a head, the
      provider's role path keeps it as "department head". */
  lemma NormalizersDisagree()
    ensures Middleware.NormalizeRole(Some("Department Head")) == Some("head")
    ensures NormalizeRolePath(Some("Department Head")) == Some("department head")
  {
    MiddlewareReadsDepartmentHead();
    DepartmentHeadLower();
  }

  // ---- the login response ---------------------------------------------------------------

  /** The user object inside a login reply; every field may be missing. */
  datatype ReplyUser = ReplyUser(id: Option<string>, email: Option<string>, name: Option<string>, role: Option<string>)

  datatype ReplyData = ReplyData(token: Option<string>, user: Option<ReplyUser>)

  /** The parsed reply body; an unparsable body reads as `{}`, every field absent. */
  datatype ReplyBody = ReplyBody(message: Option<string>, data: Option<ReplyData>)

  datatype AuthUser = AuthUser(id: string, email: string, name: string, role: Option<string>)

  datatype LoginOutcome =
    | LoginFailed(error: string)
    | LoginSucceeded(user: AuthUser, token: string, rolePath: Option<string>)

  /** The value `login` resolves to for a given fetch outcome. A missing `data` object makes
      the reply's property access throw, which the surrounding catch reports as a network
      error. */
  function LoginOutcomeOf(response: Fetch<ReplyBody>): (r: LoginOutcome)
    ensures r.LoginSucceeded? ==> r.token != "" && r.user.email != ""
  {
    match response
    case Threw(_) => LoginFailed("Network error")
    case Replied(ok, body) =>
      if !ok then LoginFailed(Text.OrElse(body.message, "Invalid credentials"))
      else if body.data.None? then LoginFailed("Network error")
      else
        var d := body.data.value;
        if d.token.None? || d.token.value == "" || d.user.None? || d.user.value.email.None?
           || d.user.value.email.value == "" then LoginFailed("Malformed login response")
        else
          var u := d.user.value;
          var email := u.email.value;
          var name := Text.OrElse(u.name, Text.BeforeFirst(email, '@'));
          LoginSucceeded(AuthUser(Text.OrElse(u.id, ""), email, name, u.role), d.token.value,
                         NormalizeRolePath(u.role))
  }

  /** A reply that names a token and a user e-mail */
  predicate WellFormedReply(body: ReplyBody) {
    body.data.Some? && body.data.value.token.Some? && body.data.value.token.value != ""
    && body.data.value.user.Some? && body.data.value.user.value.email.Some?
    && body.data.value.user.value.email.value != ""
  }

  /** Login succeeds exactly on an ok reply that is well formed; the session then holds that
      token and e-mail, the id defaults to "", the name to the part of the e-mail before the
      first '@', and the role path is the normalised role. */
  lemma LoginSucceedsExactly(response: Fetch<ReplyBody>)
    ensures LoginOutcomeOf(response).LoginSucceeded?
        <==> response.Replied? && response.ok && WellFormedReply(response.body)
    ensures LoginOutcomeOf(response).LoginSucceeded? ==>
      var u := response.body.data.value.user.value;
      var r := LoginOutcomeOf(response);
      r.token == response.body.data.value.token.value
      && r.user.email == u.email.value
      && r.user.id == (if u.id.Some? then u.id.value else "")
      && (u.name.Some? && u.name.value != "" ==> r.user.name == u.name.value)
      && (u.name.None? || u.name.value == "" ==>
            r.user.name == Text.BeforeFirst(u.email.value, '@')
            && r.user.name <= r.user.email && '@' !in r.user.name)
      && r.rolePath == NormalizeRolePath(u.role)
  {
  }

  /** The error messages of a failed login, by cause. */
  lemma LoginErrors(response: Fetch<ReplyBody>)
    ensures response.Threw? ==> LoginOutcomeOf(response) == LoginFailed("Network error")
    ensures response.Replied? && !response.ok ==>
      LoginOutcomeOf(response).LoginFailed?
      && LoginOutcomeOf(response).error == Text.OrElse(response.body.message, "Invalid credentials")
      && LoginOutcomeOf(response).error != ""
    ensures response.Replied? && response.ok && response.body.data.None? ==>
      LoginOutcomeOf(response) == LoginFailed("Network error")
    ensures response.Replied? && response.ok && response.body.data.Some? && !WellFormedReply(response.body) ==>
      LoginOutcomeOf(response) == LoginFailed("Malformed login response")
  {
  }

  /** The provider's state. */
  class Session {
    var user: Option<AuthUser>
    var token: Option<string>
    var isLoading: bool

    constructor(preToken: Option<string>, initialUser: Option<AuthUser>)
      ensures user == initialUser && token == preToken && !isLoading
    {
      user, token := initialUser, preToken;
      isLoading := false;
    }

    /** `isAuthenticated`: the token is present and non-empty. */
    predicate IsAuthenticated()
      reads this
    {
      token.Some? && token.value != ""
    }

    /** `login`: a success stores the user and the token; a failure leaves the session as it
        was; either way loading is over afterwards. */
    method Login(response: Fetch<ReplyBody>) returns (outcome: LoginOutcome)
      modifies this
      ensures outcome == LoginOutcomeOf(response)
      ensures !isLoading
      ensures outcome.LoginSucceeded? ==>
        user == Some(outcome.user) && token == Some(outcome.token) && IsAuthenticated()
      ensures outcome.LoginFailed? ==> user == old(user) && token == old(token)
    {
      isLoading := true;
      outcome := LoginOutcomeOf(response);
      if outcome.LoginSucceeded? {
        user := Some(outcome.user);
        token := Some(outcome.token);
      }
      isLoading := false;
    }

    /** `logout`: once the request comes back (whatever its status) the session is cleared; if
        it throws, the error escapes with the session untouched. Loading is over either way. */
    method Logout(response: Fetch<()>)
      modifies this
      ensures !isLoading
      ensures response.Replied? ==> user.None? && token.None? && !IsAuthenticated()
      ensures response.Threw? ==> user == old(user) && token == old(token)
    {
      isLoading := true;
      if response.Replied? {
        user := None;
        token := None;
      }
      isLoading := false;
    }
  }
}

=== FILE: change_password.dfy ===
/** The change-password dialog: current, new and confirmed password, one error line. */
module ChangePassword {
  import opened Common
  import Text

  /** The body of a refused request as `response.json()` reads it: unreadable (the call
      throws) or an object with an optional `error`. A `null` body is `Unreadable`, since
      reading `error` from it throws as well. */
  datatype ReplyBody = Unreadable | Readable(error: Option<string>)

  datatype ChangeRequest = ChangeRequest(oldPassword: string, newPassword: string)

  /** The error line a sent request leaves, or `None` on success. Only a refused reply's body
      is read. */
  function SubmitError(response: Fetch<ReplyBody>): (r: Option<string>)
    ensures r.None? <==> response.Replied? && response.ok
    ensures r.Some? ==> r.value != ""
  {
    match response
    case Threw(_) => Some("Network error")
    case Replied(ok, body) =>
      if ok then None
      else if body.Unreadable? then Some("Network error")
      else Some(Text.OrElse(body.error, "Failed to change password"))
  }

  class ChangePasswordDialog {
    var isOpen: bool
    var currentPassword: string
    var newPassword: string
    var confirmPassword: string
    var error: string

    constructor()
      ensures isOpen && currentPassword == "" && newPassword == "" && confirmPassword == "" && error == ""
    {
      isOpen := true;
      currentPassword, newPassword, confirmPassword, error := "", "", "", "";
    }

    method EnterPasswords(current: string, password: string, confirmation: string)
      modifies this
      ensures currentPassword == current && newPassword == password && confirmPassword == confirmation
      ensures isOpen == old(isOpen) && error == old(error)
    {
      currentPassword, newPassword, confirmPassword := current, password, confirmation;
    }

    /** `handleSubmit`: the one local check is that the new password and its confirmation
        agree (no length rule). A mismatch sends nothing; a failure keeps the fields and
        shows its message; a success closes the dialog and clears everything. */
    method HandleSubmit(response: Fetch<ReplyBody>) returns (request: Option<ChangeRequest>)
      modifies this
      ensures request.Some? <==> old(newPassword) == old(confirmPassword)
      ensures request.None? ==>
        error == "New passwords do not match" && isOpen == old(isOpen)
        && currentPassword == old(currentPassword) && newPassword == old(newPassword)
        && confirmPassword == old(confirmPassword)
      ensures request.Some? ==> request.value == ChangeRequest(old(currentPassword), old(newPassword))
      ensures request.Some? && SubmitError(response).Some? ==>
        error == SubmitError(response).value && isOpen == old(isOpen)
        && currentPassword == old(currentPassword) && newPassword == old(newPassword)
        && confirmPassword == old(confirmPassword)
      ensures request.Some? && SubmitError(response).None? ==>
        !isOpen && currentPassword == "" && newPassword == "" && confirmPassword == "" && error == ""
    {
      if newPassword != confirmPassword {
        error := "New passwords do not match";
        return None;
      }
      request := Some(ChangeRequest(currentPassword, newPassword));
      var failure := SubmitError(response);
      if failure.Some? {
        error := failure.value;
      } else {
        isOpen := false;
        currentPassword, newPassword, confirmPassword, error := "", "", "", "";
      }
    }
  }
}

=== FILE: college_external.dfy ===
/** The college external examiner's dashboard: the faculty assigned to the examiner,
    filtered by a search and a designation, the evaluated/pending tallies, the marks cell and
    the row's action. */
module CollegeExternal {
  import opened Common
  import Lists
  import Worklist

  datatype AssignedFaculty = AssignedFaculty(
    id: string, name: string, employeeId: string, department: string,
    designation: string, status: string, externalMarks: Option<int>)

  /** The search hits the name or the employee id, and the designation drop-down is "all"
      or equal to the record's designation. */
  predicate Keep(search: string, designation: string, f: AssignedFaculty) {
    (Worklist.SearchHit(f.name, search) || Worklist.SearchHit(f.employeeId, search))
    && Worklist.Selects(designation, f.designation)
  }

  /** `filtered` */
  function Filtered(faculty: seq<AssignedFaculty>, search: string, designation: string): (r: seq<AssignedFaculty>)
    ensures forall i | 0 <= i < |r| :: r[i] in faculty && Keep(search, designation, r[i])
    ensures forall i | 0 <= i < |faculty| :: Keep(search, designation, faculty[i]) ==> faculty[i] in r
  {
    Lists.Filter(faculty, f => Keep(search, designation, f))
  }

  lemma FilteredIsSublist(faculty: seq<AssignedFaculty>, search: string, designation: string)
    ensures Lists.SubseqOf(Filtered(faculty, search, designation), faculty)
  {
    Lists.FilterIsSubseq(faculty, f => Keep(search, designation, f));
  }

  /** An empty search with designation "all" shows every record. */
  lemma NoFiltersShowAll(faculty: seq<AssignedFaculty>)
    ensures Filtered(faculty, "", "all") == faculty
  {
    forall i | 0 <= i < |faculty| ensures Keep("", "all", faculty[i]) {
      Worklist.EmptySearchHits(faculty[i].name);
    }
    Lists.FilterKeepsAll(faculty, f => Keep("", "all", f));
  }

  predicate IsEvaluated(f: AssignedFaculty) {
    f.externalMarks.Some?
  }

  predicate IsUnevaluated(f: AssignedFaculty) {
    f.externalMarks.None?
  }

  /** `evaluated`: the records that already carry external marks. */
  function Evaluated(faculty: seq<AssignedFaculty>): (n: nat)
    ensures n <= |faculty|
    ensures n == |faculty| <==> forall i | 0 <= i < |faculty| :: IsEvaluated(faculty[i])
  {
    Lists.CountAll(faculty, IsEvaluated);
    Lists.Count(faculty, IsEvaluated)
  }

  /** `pending = faculty.length - evaluated`, never negative. */
  function Pending(faculty: seq<AssignedFaculty>): (n: int)
    ensures 0 <= n <= |faculty|
    ensures n + Evaluated(faculty) == |faculty|
  {
    |faculty| - Evaluated(faculty)
  }

  /** The subtraction counts what it means to: the records still without external marks. */
  lemma {:induction false} PendingCountsUnevaluated(faculty: seq<AssignedFaculty>)
    ensures Pending(faculty) == Lists.Count(faculty, IsUnevaluated)
  {
    if faculty != [] {
      Lists.CountCons(faculty, IsEvaluated);
      Lists.CountCons(faculty, IsUnevaluated);
      PendingCountsUnevaluated(faculty[1..]);
    }
  }

  /** The placeholder as the page's source spells it: the three characters that the UTF-8
      bytes of an em dash become when they are read as Windows-1252. */
  const MisencodedDash: string := "\U{00E2}\U{20AC}\U{201D}"

  /** The marks cell as written. */
  function MarksCellAsWritten(f: AssignedFaculty): (r: string)
    ensures f.externalMarks.None? ==> r == MisencodedDash
  {
    Worklist.MarksCell(f.externalMarks, MisencodedDash)
  }

  /** A row without marks shows the three stray characters, not the dash every other table
      shows for a missing value. */
  lemma UnmarkedRowShowsMojibake(f: AssignedFaculty)
    requires f.externalMarks.None?
    ensures MarksCellAsWritten(f) != Worklist.Dash
    ensures |MarksCellAsWritten(f)| == 3
  {
  }

  /** The marks cell with the intended em dash. */
  function MarksCellOf(f: AssignedFaculty): (r: string)
    ensures r == Worklist.Dash <==> f.externalMarks.None?
  {
    Worklist.PlaceholderIffUnmarked(f.externalMarks, Worklist.Dash, 0);
    Worklist.MarksCell(f.externalMarks, Worklist.Dash)
  }

  /** The row's button. */
  function ActionLabel(f: AssignedFaculty): (r: string)
    ensures r == "Re-evaluate" <==> IsEvaluated(f)
    ensures r == "Evaluate" <==> IsUnevaluated(f)
  {
    Worklist.EvaluateLabel(f.externalMarks)
  }
}

=== FILE: common.dfy ===
/** Values shared by every component: an absent-or-present value (JSON fields that may be
    missing, nullable state) and the outcome of one HTTP round trip as the front end sees it. */
module Common {

  datatype Option<+T> = None | Some(value: T) {
    /** `x ?? fallback` */
    function GetOr(fallback: T): T {
      match this
      case Some(v) => v
      case None => fallback
    }
  }

  /** What an awaited `fetch(...)` produced: the promise rejected (a network failure) with
      an error message, or the server answered, with `res.ok` and the body as read by the
      component. */
  datatype Fetch<+T> = Threw(message: string) | Replied(ok: bool, body: T)
}

=== FILE: completion.dfy ===
/** The completion bar every form part shows: fields the user has filled in, as a share of
    the fields on display, in percent. */
module Completion {

  /** `(interacted / total) * 100` */
  function Percent(interacted: nat, total: nat): (p: real)
    requires total > 0
    ensures p == 0.0 <==> interacted == 0
  {
    (interacted as real / total as real) * 100.0
  }

  /** With no more filled fields than fields, the bar stays within `[0, 100]` and is full
      exactly when every field is filled. */
  lemma PercentBounds(interacted: nat, total: nat)
    requires 0 < total && interacted <= total
    ensures 0.0 <= Percent(interacted, total) <= 100.0
    ensures Percent(interacted, total) == 100.0 <==> interacted == total
  {
    var q := interacted as real / total as real;
    var t := total as real;
    assert q * t == interacted as real;
    assert 0.0 <= q;
    if interacted < total {
      assert q < 1.0;
    } else {
      assert q == 1.0;
    }
  }
}

=== FILE: director_verify.dfy ===
/** Director verification: the director types a mark out of 60 and confirms it. */
module DirectorVerify {
  import opened Common
  import Text

  const MaxDirectorMarks: int := 60

  /** The mark `handleConfirm` goes on with: `parseInt` of the typed text, refused when it is
      NaN or outside 0..60. */
  function AcceptedMarks(input: string): (r: Option<int>)
    ensures r.Some? ==> 0 <= r.value <= MaxDirectorMarks && Text.ParseInt(input) == r
    ensures r.None? ==> Text.ParseInt(input).None?
                        || Text.ParseInt(input).value < 0 || Text.ParseInt(input).value > MaxDirectorMarks
  {
    match Text.ParseInt(input)
    case None => None
    case Some(m) => if m < 0 || m > MaxDirectorMarks then None else Some(m)
  }

  /** Every mark from 0 to 60, typed in decimal, is accepted as itself. */
  lemma AcceptsEveryMarkInRange(n: int)
    requires 0 <= n <= MaxDirectorMarks
    ensures AcceptedMarks(Text.ShowInt(n)) == Some(n)
  {
    Text.ParseIntShowInt(n);
  }

  /** Every integer outside 0..60, typed in decimal, is refused. */
  lemma RejectsEveryMarkOutOfRange(n: int)
    requires n < 0 || n > MaxDirectorMarks
    ensures AcceptedMarks(Text.ShowInt(n)) == None
  {
    Text.ParseIntShowInt(n);
  }

  /** Blank text is refused. */
  lemma RejectsBlank(input: string)
    requires Text.IsBlank(input)
    ensures AcceptedMarks(input) == None
  {
    Text.TrimStartEmpty(input);
  }

  /** `parseInt` reads only the leading integer: "42.9" is accepted as 42. */
  lemma FractionIsTruncated()
    ensures AcceptedMarks("42.9") == Some(42)
  {
    var s := "42.9";
    assert !Text.IsSpace(s[0]);
    assert Text.TrimStart(s) == s;
    assert Text.ParseIntUnsigned(s) == s;
    assert Text.ParseIntRadix(s) == 10;
    assert s[1..][1..] == ".9";
    assert Text.DigitValue('.') == 36;
    assert Text.DigitPrefixLength(s[1..][1..], 10) == 0;
    assert Text.DigitPrefixLength(s, 10) == 2;
    assert Text.ParseIntDigits(s) == "42";
    assert "42"[..1] == "4";
    assert Text.DigitsValue("42", 10) == 42;
  }

  /** The director verification page. */
  class DirectorVerifyPage {
    var directorMarks: string
    var submitting: bool
    var confirmOpen: bool

    constructor()
      ensures directorMarks == "" && !submitting && !confirmOpen
    {
      directorMarks := "";
      submitting, confirmOpen := false, false;
    }

    method OnMarksInput(value: string)
      modifies this
      ensures directorMarks == value
      ensures submitting == old(submitting) && confirmOpen == old(confirmOpen)
    {
      directorMarks := value;
    }

    /** The "Confirm & Verify" button is disabled while the box is empty or a save runs. */
    predicate ConfirmDisabled()
      reads this
    {
      directorMarks == "" || submitting
    }

    method OpenConfirm()
      modifies this
      ensures confirmOpen == (old(confirmOpen) || !old(ConfirmDisabled()))
      ensures directorMarks == old(directorMarks) && submitting == old(submitting)
    {
      if !ConfirmDisabled() {
        confirmOpen := true;
      }
    }

    /** A click on the dialog's "Confirm" action, which is disabled while a save runs:
        `handleConfirm` reads the mark, and the action then closes the dialog, since the
        handler does not prevent that. A refused mark changes nothing else; an accepted one is
        the mark the page would save (the save calls themselves are still to be written in
        the source), after which no save is running. */
    method HandleConfirm() returns (accepted: Option<int>)
      requires !submitting
      modifies this
      ensures accepted == AcceptedMarks(old(directorMarks))
      ensures directorMarks == old(directorMarks)
      ensures !submitting && !confirmOpen
    {
      accepted := AcceptedMarks(directorMarks);
      confirmOpen := false;
    }
  }
}

=== FILE: faculty_forms.dfy ===
/** The director's list of submitted appraisal forms: four filters, a tally per status and
    status pills that switch the status filter. */
module FacultyForms {
  import opened Common
  import Lists
  import Worklist

  datatype FacultyRecord = FacultyRecord(
    id: string, name: string, employeeId: string, department: string,
    designation: string, status: string, grandTotal: Option<real>)

  /** `STATUS_OPTIONS` */
  const StatusOptions: seq<string> := ["all", "SentToDirector", "interaction_pending", "done", "verification_pending"]

  /** The filter test: the search hits the name or the employee id, and each drop-down is
      "all" or equal to the record's value. */
  predicate Keep(search: string, department: string, status: string, designation: string, f: FacultyRecord) {
    (Worklist.SearchHit(f.name, search) || Worklist.SearchHit(f.employeeId, search))
    && Worklist.Selects(department, f.department)
    && Worklist.Selects(status, f.status)
    && Worklist.Selects(designation, f.designation)
  }

  /** `filtered` */
  function Filtered(faculty: seq<FacultyRecord>, search: string, department: string, status: string,
                    designation: string): (r: seq<FacultyRecord>)
    ensures forall i | 0 <= i < |r| :: r[i] in faculty && Keep(search, department, status, designation, r[i])
    ensures forall i | 0 <= i < |faculty| ::
      Keep(search, department, status, designation, faculty[i]) ==> faculty[i] in r
  {
    Lists.Filter(faculty, f => Keep(search, department, status, designation, f))
  }

  /** The list shown keeps the order of the full one. */
  lemma FilteredIsSublist(faculty: seq<FacultyRecord>, search: string, department: string, status: string,
                          designation: string)
    ensures Lists.SubseqOf(Filtered(faculty, search, department, status, designation), faculty)
  {
    Lists.FilterIsSubseq(faculty, f => Keep(search, department, status, designation, f));
  }

  /** No search and every drop-down on "all": everything is shown. */
  lemma NoFiltersShowAll(faculty: seq<FacultyRecord>)
    ensures Filtered(faculty, "", "all", "all", "all") == faculty
  {
    forall i | 0 <= i < |faculty| ensures Keep("", "all", "all", "all", faculty[i]) {
      Worklist.EmptySearchHits(faculty[i].name);
    }
    Lists.FilterKeepsAll(faculty, f => Keep("", "all", "all", "all", f));
  }

  // ---- the status tallies ----------------------------------------------------------------

  /** The statuses that get a pill: every option but "all". */
  function PillStatuses(): (r: seq<string>)
    ensures r == ["SentToDirector", "interaction_pending", "done", "verification_pending"]
  {
    var r := Lists.Filter(StatusOptions, s => s != "all");
    assert StatusOptions[1..][1..][1..][1..][1..] == [];
    r
  }

  function HasStatus(s: string): FacultyRecord -> bool {
    (f: FacultyRecord) => f.status == s
  }

  /** `faculty.filter((f) => f.status === s).length` */
  function CountOf(faculty: seq<FacultyRecord>, s: string): (n: nat)
    ensures n <= |faculty|
  {
    Lists.CountAll(faculty, HasStatus(s));
    Lists.Count(faculty, HasStatus(s))
  }

  /** The `forEach` that fills `counts`: one entry per status listed, the number of records
      with that status. */
  method Tally(faculty: seq<FacultyRecord>, statuses: seq<string>) returns (counts: map<string, nat>)
    ensures forall s :: s in counts <==> s in statuses
    ensures forall s | s in counts :: counts[s] == CountOf(faculty, s)
  {
    counts := map[];
    for k := 0 to |statuses|
      invariant forall s :: s in counts <==> s in statuses[..k]
      invariant forall s | s in counts :: counts[s] == CountOf(faculty, s)
    {
      assert statuses[..k + 1] == statuses[..k] + [statuses[k]];
      counts := counts[statuses[k] := CountOf(faculty, statuses[k])];
    }
    assert statuses[..|statuses|] == statuses;
  }

  /** `counts`: a tally for each of the four pill statuses and for nothing else. */
  method StatusCounts(faculty: seq<FacultyRecord>) returns (counts: map<string, nat>)
    ensures forall s :: s in counts <==> s in PillStatuses()
    ensures forall s | s in counts :: counts[s] == CountOf(faculty, s)
  {
    counts := Tally(faculty, PillStatuses());
  }

  function StatusTests(): seq<FacultyRecord -> bool> {
    [HasStatus("SentToDirector"), HasStatus("interaction_pending"), HasStatus("done"), HasStatus("verification_pending")]
  }

  /** A record has one status, so the four tallies together never exceed the number of
      records (records in other states, "pending" say, are in none of them). */
  lemma CountsBounded(faculty: seq<FacultyRecord>)
    ensures CountOf(faculty, "SentToDirector") + CountOf(faculty, "interaction_pending")
          + CountOf(faculty, "done") + CountOf(faculty, "verification_pending")
          <= |faculty|
  {
    var ps := StatusTests();
    forall x | x in faculty ensures Lists.AtMostOne(x, ps) {
    }
    Lists.SumCountsPartition(faculty, ps);
    Lists.SumCountsEmpty<FacultyRecord>([]);
    assert ps[1..][1..][1..][1..] == [];
    assert Lists.SumCounts(faculty, ps[1..][1..][1..]) == CountOf(faculty, "verification_pending");
    assert Lists.SumCounts(faculty, ps[1..][1..]) == CountOf(faculty, "done")
      + Lists.SumCounts(faculty, ps[1..][1..][1..]);
    assert Lists.SumCounts(faculty, ps[1..]) == CountOf(faculty, "interaction_pending")
      + Lists.SumCounts(faculty, ps[1..][1..]);
  }

  /** With no other filter set, selecting a pill shows exactly as many rows as its tally. */
  lemma PillCountMatchesRows(faculty: seq<FacultyRecord>, status: string)
    requires status != "all"
    ensures CountOf(faculty, status) == |Filtered(faculty, "", "all", status, "all")|
  {
    forall i | 0 <= i < |faculty|
      ensures HasStatus(status)(faculty[i]) == Keep("", "all", status, "all", faculty[i])
    {
      Worklist.EmptySearchHits(faculty[i].name);
    }
    Lists.FilterSameTest(faculty, HasStatus(status), f => Keep("", "all", status, "all", f));
  }

  // ---- the page --------------------------------------------------------------------------

  class FacultyFormsPage {
    var faculty: seq<FacultyRecord>
    var search: string
    var departmentFilter: string
    var statusFilter: string
    var designationFilter: string

    constructor()
      ensures faculty == [] && search == "" && departmentFilter == "all" && statusFilter == "all"
      ensures designationFilter == "all"
    {
      faculty, search := [], "";
      departmentFilter, statusFilter, designationFilter := "all", "all", "all";
    }

    function Shown(): seq<FacultyRecord>
      reads this
    {
      Filtered(faculty, search, departmentFilter, statusFilter, designationFilter)
    }

    /** A status pill: selects its status, or goes back to "all" if it was already selected. */
    method OnPillClick(status: string)
      modifies this
      ensures statusFilter == Toggle(old(statusFilter), status)
      ensures faculty == old(faculty) && search == old(search)
      ensures departmentFilter == old(departmentFilter) && designationFilter == old(designationFilter)
    {
      statusFilter := Toggle(statusFilter, status);
    }
  }

  /** The pill's effect on the status filter. */
  function Toggle(current: string, status: string): (r: string)
    ensures r == "all" || r == status
    ensures r == "all" <==> current == status || status == "all"
  {
    if current == status then "all" else status
  }

  /** Clicking the same pill twice from any other selection returns the filter to "all"; from
      "all" one click selects the pill's status. */
  lemma PillTwiceClears(current: string, status: string)
    requires current != status && status != "all"
    ensures Toggle(current, status) == status
    ensures Toggle(Toggle(current, status), status) == "all"
  {
  }
}

=== FILE: forgot_password.dfy ===
/** The forgot-password page: a two-step flow (send a one-time code to an e-mail address,
    then reset the password with it). */
module ForgotPassword {
  import opened Common
  import Text

  /** `step` can only ever be one of the two. */
  datatype Step = EmailStep | OtpStep

  /** A reply body as `response.json()` reads it: unreadable (the call throws) or an object
      with an optional `message`. A `null` body is `Unreadable` on a refused reply (reading
      `message` throws as well) and `Readable(None)` on an accepted one (nothing is read). */
  datatype ReplyBody = Unreadable | Readable(message: Option<string>)

  datatype ResetRequest = ResetRequest(email: string, otp: string, newPassword: string)

  const ConnectError := "Failed to connect to the server. Please try again."
  const OtpSent := "OTP has been sent to your email address"
  const ResetDone := "Password reset successfully! Redirecting to login..."

  /** The message a failed request leaves, or `None` when the request succeeded. */
  function RequestError(response: Fetch<ReplyBody>, fallback: string): (r: Option<string>)
    requires fallback != ""
    ensures r.Some? ==> r.value != ""
    ensures r.None? <==> response.Replied? && response.ok && response.body.Readable?
  {
    match response
    case Threw(_) => Some(ConnectError)
    case Replied(ok, body) =>
      if body.Unreadable? then Some(ConnectError)
      else if !ok then Some(Text.OrElse(body.message, fallback))
      else None
  }

  /** The two local checks before a reset, mismatch first. */
  function ResetCheck(newPassword: string, confirmPassword: string): (r: Option<string>)
    ensures r.None? <==> newPassword == confirmPassword && |newPassword| >= 6
    ensures newPassword != confirmPassword ==> r == Some("Passwords do not match")
  {
    if newPassword != confirmPassword then Some("Passwords do not match")
    else if |newPassword| < 6 then Some("Password must be at least 6 characters long")
    else None
  }

  class ForgotPasswordPage {
    var step: Step
    var email: string
    var otp: string
    var newPassword: string
    var confirmPassword: string
    var isLoading: bool
    var error: string
    var success: string
    /** The two-second timer that moves to the code step is running. */
    var stepTimerPending: bool

    constructor()
      ensures step == EmailStep && email == "" && otp == "" && newPassword == "" && confirmPassword == ""
      ensures !isLoading && error == "" && success == "" && !stepTimerPending
    {
      step, email, otp, newPassword, confirmPassword := EmailStep, "", "", "", "";
      isLoading, error, success, stepTimerPending := false, "", "", false;
    }

    method EnterEmail(value: string)
      modifies this
      ensures email == value
      ensures step == old(step) && otp == old(otp) && newPassword == old(newPassword)
      ensures confirmPassword == old(confirmPassword) && isLoading == old(isLoading)
      ensures error == old(error) && success == old(success) && stepTimerPending == old(stepTimerPending)
    {
      email := value;
    }

    method EnterReset(code: string, password: string, confirmation: string)
      modifies this
      ensures otp == code && newPassword == password && confirmPassword == confirmation
      ensures step == old(step) && email == old(email) && isLoading == old(isLoading)
      ensures error == old(error) && success == old(success) && stepTimerPending == old(stepTimerPending)
    {
      otp, newPassword, confirmPassword := code, password, confirmation;
    }

    /** `handleSendOTP`: always sends the e-mail; a failure leaves the step where it was with
        the server's message (or "Failed to send OTP", or the connection message); a success
        shows the confirmation and starts the timer. */
    method HandleSendOtp(response: Fetch<ReplyBody>) returns (sentFor: string)
      modifies this
      ensures sentFor == old(email)
      ensures !isLoading && step == old(step)
      ensures var failure := RequestError(response, "Failed to send OTP");
        (failure.Some? ==> error == failure.value && success == "" && stepTimerPending == old(stepTimerPending))
        && (failure.None? ==> error == "" && success == OtpSent && stepTimerPending)
      ensures email == old(email) && otp == old(otp) && newPassword == old(newPassword)
      ensures confirmPassword == old(confirmPassword)
    {
      error, success := "", "";
      isLoading := true;
      sentFor := email;
      var failure := RequestError(response, "Failed to send OTP");
      if failure.Some? {
        error := failure.value;
      } else {
        success := OtpSent;
        stepTimerPending := true;
      }
      isLoading := false;
    }

    /** The timer callback: on to the code step, confirmation cleared. */
    method StepTimerFires()
      requires stepTimerPending
      modifies this
      ensures step == OtpStep && success == "" && !stepTimerPending
      ensures email == old(email) && otp == old(otp) && newPassword == old(newPassword)
      ensures confirmPassword == old(confirmPassword) && isLoading == old(isLoading) && error == old(error)
    {
      step, success, stepTimerPending := OtpStep, "", false;
    }

    /** `handleResetPassword`: a mismatch (checked first) or a short password is reported
        without a request and without loading; otherwise the reset is sent and its failure
        or success reported. */
    method HandleResetPassword(response: Fetch<ReplyBody>) returns (request: Option<ResetRequest>)
      modifies this
      ensures var check := ResetCheck(old(newPassword), old(confirmPassword));
        (check.Some? ==> request.None? && error == check.value && success == "" && isLoading == old(isLoading))
        && (check.None? ==> request == Some(ResetRequest(old(email), old(otp), old(newPassword))) && !isLoading)
      ensures request.Some? ==>
        var failure := RequestError(response, "Failed to reset password");
        (failure.Some? ==> error == failure.value && success == "")
        && (failure.None? ==> error == "" && success == ResetDone)
      ensures step == old(step) && email == old(email) && otp == old(otp) && newPassword == old(newPassword)
      ensures confirmPassword == old(confirmPassword) && stepTimerPending == old(stepTimerPending)
    {
      error, success := "", "";
      var check := ResetCheck(newPassword, confirmPassword);
      if check.Some? {
        error := check.value;
        return None;
      }
      isLoading := true;
      request := Some(ResetRequest(email, otp, newPassword));
      var failure := RequestError(response, "Failed to reset password");
      if failure.Some? {
        error := failure.value;
      } else {
        success := ResetDone;
      }
      isLoading := false;
    }

    /** "Resend": back to the e-mail step with the code, both passwords and the error cleared;
        the e-mail and any confirmation stay. */
    method Resend()
      modifies this
      ensures step == EmailStep && otp == "" && newPassword == "" && confirmPassword == "" && error == ""
      ensures email == old(email) && success == old(success) && isLoading == old(isLoading)
      ensures stepTimerPending == old(stepTimerPending)
    {
      step, otp, newPassword, confirmPassword, error := EmailStep, "", "", "", "";
    }
  }
}

=== FILE: lists.dfy ===
/** `Array.prototype.filter`, the order-preserving sub-list it returns, and the tallies
    `xs.filter(p).length` that the dashboards show. */
module Lists {

  /** `xs.filter(keep)` */
  function Filter<T>(xs: seq<T>, keep: T -> bool): (r: seq<T>)
    ensures |r| <= |xs|
    ensures forall i | 0 <= i < |r| :: r[i] in xs && keep(r[i])
    ensures forall i | 0 <= i < |xs| :: keep(xs[i]) ==> xs[i] in r
  {
    if xs == [] then [] else (if keep(xs[0]) then [xs[0]] else []) + Filter(xs[1..], keep)
  }

  /** `a` is `b` with some elements left out and the rest in their original order. */
  ghost predicate SubseqOf<T>(a: seq<T>, b: seq<T>)
    decreases |b|
  {
    if a == [] then true
    else if b == [] then false
    else (a[0] == b[0] && SubseqOf(a[1..], b[1..])) || SubseqOf(a, b[1..])
  }

  lemma {:induction false} FilterIsSubseq<T>(xs: seq<T>, keep: T -> bool)
    ensures SubseqOf(Filter(xs, keep), xs)
  {
    if xs != [] {
      FilterIsSubseq(xs[1..], keep);
      var rest := Filter(xs[1..], keep);
      if keep(xs[0]) {
        assert Filter(xs, keep) == [xs[0]] + rest;
        assert ([xs[0]] + rest)[1..] == rest;
      } else {
        assert Filter(xs, keep) == rest;
      }
    }
  }

  /** A filter that keeps every element returns the list itself. */
  lemma {:induction false} FilterKeepsAll<T>(xs: seq<T>, keep: T -> bool)
    requires forall i | 0 <= i < |xs| :: keep(xs[i])
    ensures Filter(xs, keep) == xs
  {
    if xs != [] {
      assert keep(xs[0]);
      FilterKeepsAll(xs[1..], keep);
    }
  }

  /** Filtering a concatenation filters each part. */
  lemma {:induction false} FilterAppend<T>(a: seq<T>, b: seq<T>, keep: T -> bool)
    ensures Filter(a + b, keep) == Filter(a, keep) + Filter(b, keep)
  {
    if a != [] {
      assert (a + b)[0] == a[0];
      assert (a + b)[1..] == a[1..] + b;
      FilterAppend(a[1..], b, keep);
    } else {
      assert a + b == b;
    }
  }

  /** Two tests that agree on every element filter alike. */
  lemma {:induction false} FilterSameTest<T>(xs: seq<T>, k1: T -> bool, k2: T -> bool)
    requires forall i | 0 <= i < |xs| :: k1(xs[i]) == k2(xs[i])
    ensures Filter(xs, k1) == Filter(xs, k2)
  {
    if xs != [] {
      assert k1(xs[0]) == k2(xs[0]);
      FilterSameTest(xs[1..], k1, k2);
    }
  }

  /** Filtering twice with the same test changes nothing the second time. */
  lemma FilterIdempotent<T>(xs: seq<T>, keep: T -> bool)
    ensures Filter(Filter(xs, keep), keep) == Filter(xs, keep)
  {
    FilterKeepsAll(Filter(xs, keep), keep);
  }

  /** `xs.filter(p).length` */
  function Count<T>(xs: seq<T>, p: T -> bool): nat {
    |Filter(xs, p)|
  }

  lemma CountCons<T>(xs: seq<T>, p: T -> bool)
    requires xs != []
    ensures Count(xs, p) == (if p(xs[0]) then 1 else 0) + Count(xs[1..], p)
  {
  }

  /** The tally reaches the length of the list exactly when every element passes. */
  lemma {:induction false} CountAll<T>(xs: seq<T>, p: T -> bool)
    ensures Count(xs, p) <= |xs|
    ensures Count(xs, p) == |xs| <==> forall i | 0 <= i < |xs| :: p(xs[i])
  {
    if xs != [] {
      CountAll(xs[1..], p);
      CountCons(xs, p);
      if forall i | 0 <= i < |xs[1..]| :: p(xs[1..][i]) {
        if p(xs[0]) {
          forall i | 0 <= i < |xs| ensures p(xs[i]) {
            if i > 0 { assert xs[i] == xs[1..][i - 1]; }
          }
        }
      } else {
        var i :| 0 <= i < |xs[1..]| && !p(xs[1..][i]);
        assert !p(xs[i + 1]);
      }
    }
  }

  /** The tallies of several predicates, added up. */
  function SumCounts<T>(xs: seq<T>, ps: seq<T -> bool>): nat {
    if ps == [] then 0 else Count(xs, ps[0]) + SumCounts(xs, ps[1..])
  }

  /** How many of the predicates hold of `x`. */
  function Hits<T>(x: T, ps: seq<T -> bool>): nat {
    if ps == [] then 0 else (if ps[0](x) then 1 else 0) + Hits(x, ps[1..])
  }

  predicate AtMostOne<T>(x: T, ps: seq<T -> bool>) {
    forall i, j | 0 <= i < j < |ps| :: !(ps[i](x) && ps[j](x))
  }

  predicate AnyHolds<T>(x: T, ps: seq<T -> bool>) {
    exists i | 0 <= i < |ps| :: ps[i](x)
  }

  lemma {:induction false} HitsAtMostOne<T>(x: T, ps: seq<T -> bool>)
    requires AtMostOne(x, ps)
    ensures Hits(x, ps) <= 1
    ensures Hits(x, ps) == 1 <==> AnyHolds(x, ps)
  {
    if ps != [] {
      var tail := ps[1..];
      assert AtMostOne(x, tail) by {
        forall i, j | 0 <= i < j < |tail| ensures !(tail[i](x) && tail[j](x)) {
          assert tail[i] == ps[i + 1] && tail[j] == ps[j + 1];
        }
      }
      HitsAtMostOne(x, tail);
      if ps[0](x) {
        forall j | 0 <= j < |tail| ensures !tail[j](x) {
          assert tail[j] == ps[j + 1];
        }
      }
      if AnyHolds(x, ps) && !ps[0](x) {
        var i :| 0 <= i < |ps| && ps[i](x);
        assert tail[i - 1](x);
      }
      if AnyHolds(x, tail) {
        var i :| 0 <= i < |tail| && tail[i](x);
        assert ps[i + 1](x);
      }
    }
  }

  lemma {:induction false} SumCountsCons<T>(xs: seq<T>, ps: seq<T -> bool>)
    requires xs != []
    ensures SumCounts(xs, ps) == Hits(xs[0], ps) + SumCounts(xs[1..], ps)
  {
    if ps != [] {
      CountCons(xs, ps[0]);
      SumCountsCons(xs, ps[1..]);
    }
  }

  /** Tallies of predicates no two of which hold of one element add up to at most the
      length of the list; when each element satisfies exactly one, to exactly the length. */
  lemma {:induction false} SumCountsPartition<T>(xs: seq<T>, ps: seq<T -> bool>)
    requires forall x | x in xs :: AtMostOne(x, ps)
    ensures SumCounts(xs, ps) <= |xs|
    ensures (forall x | x in xs :: AnyHolds(x, ps)) ==> SumCounts(xs, ps) == |xs|
  {
    if xs == [] {
      SumCountsEmpty(ps);
    } else {
      SumCountsCons(xs, ps);
      HitsAtMostOne(xs[0], ps);
      assert forall x | x in xs[1..] :: x in xs;
      SumCountsPartition(xs[1..], ps);
    }
  }

  lemma {:induction false} SumCountsEmpty<T>(ps: seq<T -> bool>)
    ensures SumCounts([], ps) == 0
  {
    if ps != [] {
      SumCountsEmpty(ps[1..]);
    }
  }
}

=== FILE: lock.dfy ===
/** The status gate shared by the form parts: a part is editable only while the status the
    backend reports is exactly "pending". */
module Lock {
  import opened Common

  /** `formStatus !== "pending"`; a status the backend left undefined locks as well. */
  predicate Locked(status: Option<string>) {
    status != Some("pending")
  }
}

=== FILE: middleware.dfy ===
/** The edge middleware: which requests pass, and which are sent back to the landing page
    "/" for want of a token or for entering another role's area. */
module Middleware {
  import opened Common
  import Text

  /** `normalizeRole`: an absent or empty cookie is no role; otherwise the lower-cased value,
      collapsed to the first of coordinator, head, admin, participant that it contains. */
  function NormalizeRole(role: Option<string>): (r: Option<string>)
    ensures r.None? <==> role.None? || role.value == ""
  {
    if role.None? || role.value == "" then None
    else
      var l := Text.ToLower(role.value);
      if Text.Contains(l, "coordinator") then Some("coordinator")
      else if Text.Contains(l, "head") then Some("head")
      else if Text.Contains(l, "admin") then Some("admin")
      else if Text.Contains(l, "participant") then Some("participant")
      else Some(l)
  }

  /** The normalised role is always lower case. */
  lemma NormalizeRoleLowerCase(role: Option<string>)
    ensures NormalizeRole(role).Some? ==> Text.IsLowerCase(NormalizeRole(role).value)
  {
    if role.Some? {
      Text.ToLowerIsLower(role.value);
    }
  }

  /** Precedence: "coordinator" wins over everything, "head" over admin and participant,
      "admin" over participant, matched case-insensitively anywhere in the value; a non-empty
      value containing none of them is kept, lower-cased. */
  lemma NormalizeRolePrecedence(role: string)
    ensures var l := Text.ToLower(role);
      (Text.Contains(l, "coordinator") ==> NormalizeRole(Some(role)) == Some("coordinator"))
      && (!Text.Contains(l, "coordinator") && Text.Contains(l, "head") ==> NormalizeRole(Some(role)) == Some("head"))
      && (!Text.Contains(l, "coordinator") && !Text.Contains(l, "head") && Text.Contains(l, "admin")
          ==> NormalizeRole(Some(role)) == Some("admin"))
      && ((!Text.Contains(l, "coordinator") && !Text.Contains(l, "head") && !Text.Contains(l, "admin")
           && Text.Contains(l, "participant")) ==> NormalizeRole(Some(role)) == Some("participant"))
      && ((role != "" && !Text.Contains(l, "coordinator") && !Text.Contains(l, "head")
           && !Text.Contains(l, "admin") && !Text.Contains(l, "participant")) ==> NormalizeRole(Some(role)) == Some(l))
  {
    if Text.Contains(Text.ToLower(role), "coordinator") {
      assert role != "" by {
        if role == "" { Text.NotContainsLonger(Text.ToLower(role), "coordinator"); }
      }
    } else if Text.Contains(Text.ToLower(role), "head") {
      assert role != "" by {
        if role == "" { Text.NotContainsLonger(Text.ToLower(role), "head"); }
      }
    } else if Text.Contains(Text.ToLower(role), "admin") {
      assert role != "" by {
        if role == "" { Text.NotContainsLonger(Text.ToLower(role), "admin"); }
      }
    } else if Text.Contains(Text.ToLower(role), "participant") {
      assert role != "" by {
        if role == "" { Text.NotContainsLonger(Text.ToLower(role), "participant"); }
      }
    }
  }

  lemma CoordinatorFixed()
    ensures NormalizeRole(Some("coordinator")) == Some("coordinator")
  {
    var l := "coordinator";
    Text.LowerCaseFixed(l);
    assert Text.ToLower(l) == l;
    assert Text.Contains(l, l) by { Text.ContainsSelf(l); }
  }

  lemma HeadFixed()
    ensures NormalizeRole(Some("head")) == Some("head")
  {
    Text.LowerCaseFixed("head");
    Text.ContainsSelf("head");
    Text.NotContainsLonger("head", "coordinator");
  }

  lemma AdminFixed()
    ensures NormalizeRole(Some("admin")) == Some("admin")
  {
    Text.LowerCaseFixed("admin");
    Text.ContainsSelf("admin");
    Text.NotContainsLonger("admin", "coordinator");
    if Text.Contains("admin", "head") {
      Text.ContainsFirstChar("admin", "head");
      assert false;
    }
  }

  lemma ParticipantLacksCoordinator()
    ensures !Text.Contains("participant", "coordinator")
  {
    if Text.Contains("participant", "coordinator") {
      Text.ContainsChar("participant", "coordinator", 4);
      assert false;
    }
  }

  lemma ParticipantLacksHead()
    ensures !Text.Contains("participant", "head")
  {
    if Text.Contains("participant", "head") {
      Text.ContainsChar("participant", "head", 0);
      assert false;
    }
  }

  lemma ParticipantLacksAdmin()
    ensures !Text.Contains("participant", "admin")
  {
    if Text.Contains("participant", "admin") {
      Text.ContainsChar("participant", "admin", 1);
      assert false;
    }
  }

  lemma ParticipantFixed()
    ensures NormalizeRole(Some("participant")) == Some("participant")
  {
    var l := "participant";
    Text.LowerCaseFixed(l);
    assert Text.ToLower(l) == l;
    ParticipantLacksCoordinator();
    ParticipantLacksHead();
    ParticipantLacksAdmin();
    assert Text.Contains(l, l) by { Text.ContainsSelf(l); }
  }

  /** `normalizeRole` is idempotent. */
  lemma NormalizeRoleIdempotent(role: Option<string>)
    ensures NormalizeRole(NormalizeRole(role)) == NormalizeRole(role)
  {
    var r := NormalizeRole(role);
    if r == Some("coordinator") {
      CoordinatorFixed();
    } else if r == Some("head") {
      HeadFixed();
    } else if r == Some("admin") {
      AdminFixed();
    } else if r == Some("participant") {
      ParticipantFixed();
    } else if r.Some? {
      var l := Text.ToLower(role.value);
      assert r == Some(l);
      Text.ToLowerIsLower(role.value);
      assert Text.ToLower(l) == l;
    }
  }

  // ---- the request decision -------------------------------------------------------------

  datatype Decision = Next | RedirectHome

  /** `ROLE_PATHS`, in declaration order: each role and the one prefix it owns. */
  const RolePaths: seq<(string, string)> :=
    [("admin", "/admin"), ("coordinator", "/coordinator"), ("head", "/head"), ("participant", "/participant")]

  /** Framework assets, static files, anything with a dot and the auth routes are never gated. */
  predicate Bypass(path: string) {
    Text.StartsWith(path, "/_next") || Text.StartsWith(path, "/static")
    || Text.Contains(path, ".") || Text.StartsWith(path, "/auth")
  }

  /** The role loop: some role's prefix begins the path and that role is not the user's. */
  predicate EntersOtherArea(path: string, role: string) {
    exists k | 0 <= k < |RolePaths| :: Text.StartsWith(path, RolePaths[k].1) && role != RolePaths[k].0
  }

  /** `middleware(req)`; `backend` is the outcome of the `/auth/me` check (a throw, or a
      reply that is ok or not), consulted only once a token is present. */
  function Decide(path: string, token: Option<string>, roleCookie: Option<string>, backend: Fetch<()>): (d: Decision)
    ensures d == RedirectHome ==> !Bypass(path) && path != "/"
    ensures d == Next && !Bypass(path) && path != "/" ==>
      token.Some? && token.value != "" && !(backend.Replied? && !backend.ok)
  {
    if Bypass(path) then Next
    else if path == "/" then Next
    else if token.None? || token.value == "" then RedirectHome
    else if backend.Replied? && !backend.ok then RedirectHome
    else
      var role := NormalizeRole(roleCookie);
      if role.Some? && EntersOtherArea(path, role.value) then RedirectHome else Next
  }

  /** `config.matcher`: the framework runs the middleware only on "/" followed by something
      that does not begin with `_next/static`, `_next/image`, `api`, or `favicon`, any one
      character and `ico` (the dot in the pattern is unescaped). */
  predicate Matched(path: string)
    ensures Matched(path) ==> |path| >= 1 && path[0] == '/'
    ensures path == "/" || (|path| >= 2 && path[0] == '/' && path[1] !in {'_', 'a', 'f'}) ==> Matched(path)
  {
    |path| >= 1 && path[0] == '/'
    && var rest := path[1..];
    !Text.StartsWith(rest, "_next/static") && !Text.StartsWith(rest, "_next/image")
    && !Text.StartsWith(rest, "api")
    && !(|rest| >= 11 && rest[..7] == "favicon" && rest[8..11] == "ico")
  }

  /** What a request meets: the middleware on a path the matcher selects; elsewhere the
      middleware does not run and the request goes on. */
  function Route(path: string, token: Option<string>, roleCookie: Option<string>, backend: Fetch<()>): (d: Decision)
    ensures d == RedirectHome ==> Matched(path) && !Bypass(path) && path != "/"
    ensures d == Next && Matched(path) && !Bypass(path) && path != "/" ==> token.Some? && token.value != ""
  {
    if Matched(path) then Decide(path, token, roleCookie, backend) else Next
  }

  /** Requests under `/api` never reach the middleware, whatever the cookies say. */
  lemma ApiPathsSkipMiddleware(path: string, token: Option<string>, roleCookie: Option<string>, backend: Fetch<()>)
    requires Text.StartsWith(path, "/api")
    ensures !Matched(path)
    ensures Route(path, token, roleCookie, backend) == Next
  {
    assert path[1..][..3] == path[1..4] == "api";
  }

  /** So an `/api` request without a token goes on, though the middleware itself would send
      it home. */
  lemma ApiRequestsUngated(backend: Fetch<()>)
    ensures Decide("/api/users", None, None, backend) == RedirectHome
    ensures Route("/api/users", None, None, backend) == Next
  {
    var path := "/api/users";
    ApiPathsSkipMiddleware(path, None, None, backend);
    assert !Text.StartsWith(path, "/_next") by { assert path[1] != "/_next"[1]; }
    assert !Text.StartsWith(path, "/static") by { assert path[1] != "/static"[1]; }
    assert !Text.StartsWith(path, "/auth") by { assert path[2] != "/auth"[2]; }
    if Text.Contains(path, ".") {
      Text.ContainsChar(path, ".", 0);
      assert false;
    }
  }

  /** Bypassed paths and the landing page pass whatever the cookies and the backend say. */
  lemma UngatedPathsPass(path: string, token: Option<string>, roleCookie: Option<string>, backend: Fetch<()>)
    requires Bypass(path) || path == "/"
    ensures Decide(path, token, roleCookie, backend) == Next
  {
  }

  /** The middleware sends any other path without a token back to "/", whatever the backend
      would say; a request meets that only on a path the matcher selects. */
  lemma NoTokenRedirects(path: string, token: Option<string>, roleCookie: Option<string>, backend: Fetch<()>)
    requires !Bypass(path) && path != "/"
    requires token.None? || token.value == ""
    ensures Decide(path, token, roleCookie, backend) == RedirectHome
    ensures Route(path, token, roleCookie, backend) == RedirectHome <==> Matched(path)
  {
  }

  /** A thrown backend check is swallowed: the decision is the one an ok reply gives. */
  lemma ThrownCheckIsIgnored(path: string, token: Option<string>, roleCookie: Option<string>, message: string)
    ensures Decide(path, token, roleCookie, Threw(message)) == Decide(path, token, roleCookie, Replied(true, ()))
  {
  }

  /** Without a role cookie the role gate is skipped: a token and a backend that did not refuse
      let every path through. */
  lemma NoRoleSkipsGate(path: string, token: string, roleCookie: Option<string>, backend: Fetch<()>)
    requires token != ""
    requires roleCookie.None? || roleCookie.value == ""
    requires !(backend.Replied? && !backend.ok)
    ensures Decide(path, Some(token), roleCookie, backend) == Next
  {
  }

  lemma PrefixesDisjoint(path: string, i: nat, j: nat)
    requires i < |RolePaths| && j < |RolePaths| && i != j
    requires Text.StartsWith(path, RolePaths[i].1)
    ensures !Text.StartsWith(path, RolePaths[j].1)
  {
    assert path[1] == RolePaths[i].1[1];
  }

  /** Inside a role's area, with a token and a backend that did not refuse, a user with a role
      passes exactly when that role is the area's own. */
  lemma RoleAreaGate(path: string, k: nat, token: string, roleCookie: Option<string>, backend: Fetch<()>)
    requires k < |RolePaths| && Text.StartsWith(path, RolePaths[k].1) && !Bypass(path)
    requires token != "" && !(backend.Replied? && !backend.ok)
    requires NormalizeRole(roleCookie).Some?
    ensures Decide(path, Some(token), roleCookie, backend) == Next
        <==> NormalizeRole(roleCookie).value == RolePaths[k].0
  {
    var role := NormalizeRole(roleCookie).value;
    assert path != "/" by { assert |RolePaths[k].1| > 1; }
    if role == RolePaths[k].0 {
      forall j | 0 <= j < |RolePaths| && Text.StartsWith(path, RolePaths[j].1) ensures role == RolePaths[j].0 {
        if j != k { PrefixesDisjoint(path, k, j); }
      }
    }
  }

  /** Paths outside the four role prefixes (the director's pages, say) are never sent back by
      the role gate. */
  lemma DirectorPagesPass(rest: string, token: string, roleCookie: Option<string>, backend: Fetch<()>)
    requires token != "" && !(backend.Replied? && !backend.ok)
    ensures Decide("/director" + rest, Some(token), roleCookie, backend) == Next
  {
    var path := "/director" + rest;
    assert path[1] == 'd';
    if NormalizeRole(roleCookie).Some? {
      forall k | 0 <= k < |RolePaths| ensures !Text.StartsWith(path, RolePaths[k].1) {
        assert RolePaths[k].1[1] != 'd';
      }
    }
  }

  lemma AdminUsersNotBypassed()
    ensures !Bypass("/admin/users")
  {
    var path := "/admin/users";
    assert !Text.StartsWith(path, "/_next") by { assert path[1] != "/_next"[1]; }
    assert !Text.StartsWith(path, "/static") by { assert path[1] != "/static"[1]; }
    assert !Text.StartsWith(path, "/auth") by { assert path[2] != "/auth"[2]; }
    if Text.Contains(path, ".") {
      Text.ContainsChar(path, ".", 0);
      assert false;
    }
  }

  lemma AdminCoordinatorIsCoordinator()
    ensures NormalizeRole(Some("Admin Coordinator")) == Some("coordinator")
  {
    var l := Text.ToLower("Admin Coordinator");
    assert l == "admin coordinator";
    assert "coordinator" <= l[6..];
  }

  /** Substring normalisation at work: an "Admin Coordinator" counts as a coordinator and is
      turned away from the admin area. */
  lemma AdminCoordinatorLeavesAdmin()
    ensures Decide("/admin/users", Some("t"), Some("Admin Coordinator"), Replied(true, ())) == RedirectHome
  {
    AdminUsersNotBypassed();
    AdminCoordinatorIsCoordinator();
    assert Text.StartsWith("/admin/users", RolePaths[0].1);
  }
}

=== FILE: part_a.dfy ===
/** Part A (academic involvement): eight self-entered sub-scores, each clamped to its own
    maximum, summed, scaled by a designation factor and capped by a designation maximum. */
module PartA {
  import opened Common
  import Lists
  import Completion

  datatype Field =
    | ResultAnalysis | CourseOutcome | ELearning | AcademicEngagement
    | TeachingLoad | ProjectsGuided | StudentFeedback | PtgMeetings

  /** The fields in the order `Object.values(scores)` visits them. */
  const Fields: seq<Field> := [ResultAnalysis, CourseOutcome, ELearning, AcademicEngagement,
                               TeachingLoad, ProjectsGuided, StudentFeedback, PtgMeetings]

  /** `MAXES` */
  function Max(f: Field): real {
    match f
    case ResultAnalysis => 50.0
    case CourseOutcome => 50.0
    case ELearning => 50.0
    case AcademicEngagement => 50.0
    case TeachingLoad => 50.0
    case ProjectsGuided => 40.0
    case StudentFeedback => 100.0
    case PtgMeetings => 50.0
  }

  datatype ScoreState = ScoreState(
    resultAnalysis: real, courseOutcome: real, eLearning: real, academicEngagement: real,
    teachingLoad: real, projectsGuided: real, studentFeedback: real, ptgMeetings: real)
  {
    function Get(f: Field): real {
      match f
      case ResultAnalysis => resultAnalysis
      case CourseOutcome => courseOutcome
      case ELearning => eLearning
      case AcademicEngagement => academicEngagement
      case TeachingLoad => teachingLoad
      case ProjectsGuided => projectsGuided
      case StudentFeedback => studentFeedback
      case PtgMeetings => ptgMeetings
    }

    /** `{ ...prev, [f]: v }` */
    function With(f: Field, v: real): (r: ScoreState)
      ensures r.Get(f) == v
      ensures forall g :: g != f ==> r.Get(g) == Get(g)
    {
      match f
      case ResultAnalysis => this.(resultAnalysis := v)
      case CourseOutcome => this.(courseOutcome := v)
      case ELearning => this.(eLearning := v)
      case AcademicEngagement => this.(academicEngagement := v)
      case TeachingLoad => this.(teachingLoad := v)
      case ProjectsGuided => this.(projectsGuided := v)
      case StudentFeedback => this.(studentFeedback := v)
      case PtgMeetings => this.(ptgMeetings := v)
    }
  }

  const Zero := ScoreState(0.0, 0.0, 0.0, 0.0, 0.0, 0.0, 0.0, 0.0)

  /** Every sub-score lies within `[0, MAXES[f]]`. */
  ghost predicate Clamped(s: ScoreState) {
    forall f :: 0.0 <= s.Get(f) <= Max(f)
  }

  /** `Math.min(hi, Math.max(lo, v))` */
  function Clamp(v: real, lo: real, hi: real): (r: real)
    requires lo <= hi
    ensures lo <= r <= hi
    ensures lo <= v <= hi ==> r == v
    ensures v < lo ==> r == lo
    ensures hi < v ==> r == hi
  {
    if hi < (if v < lo then lo else v) then hi else (if v < lo then lo else v)
  }

  function Min(a: real, b: real): real {
    if a <= b then a else b
  }

  /** `Math.round(x)`: halves go up. */
  function Round(x: real): (r: int)
    ensures r as real - 0.5 <= x < r as real + 0.5
  {
    (x + 0.5).Floor
  }

  /** The sum of the sub-scores of `fs`. */
  function SumOver(fs: seq<Field>, s: ScoreState): real {
    if fs == [] then 0.0 else s.Get(fs[0]) + SumOver(fs[1..], s)
  }

  function MaxOver(fs: seq<Field>): real {
    if fs == [] then 0.0 else Max(fs[0]) + MaxOver(fs[1..])
  }

  /** `rawSum`: the eight sub-scores added up. */
  function RawSum(s: ScoreState): (r: real)
    ensures r == s.resultAnalysis + s.courseOutcome + s.eLearning + s.academicEngagement
               + s.teachingLoad + s.projectsGuided + s.studentFeedback + s.ptgMeetings
  {
    SumOverFields(s);
    SumOver(Fields, s)
  }

  /** Unfolds `SumOver` along the eight fields, last first. */
  lemma SumOverFields(s: ScoreState)
    ensures SumOver(Fields, s) == s.resultAnalysis + s.courseOutcome + s.eLearning + s.academicEngagement
                                  + s.teachingLoad + s.projectsGuided + s.studentFeedback + s.ptgMeetings
  {
    assert SumOver(Fields[8..], s) == 0.0;
    assert SumOver(Fields[7..], s) == s.ptgMeetings by { assert Fields[7..][1..] == Fields[8..]; }
    assert SumOver(Fields[6..], s) == s.studentFeedback + s.ptgMeetings by { assert Fields[6..][1..] == Fields[7..]; }
    assert SumOver(Fields[5..], s) == s.projectsGuided + s.studentFeedback + s.ptgMeetings by {
      assert Fields[5..][1..] == Fields[6..];
    }
    assert SumOver(Fields[4..], s) == s.teachingLoad + s.projectsGuided + s.studentFeedback + s.ptgMeetings by {
      assert Fields[4..][1..] == Fields[5..];
    }
    var t4 := s.teachingLoad + s.projectsGuided + s.studentFeedback + s.ptgMeetings;
    assert SumOver(Fields[3..], s) == s.academicEngagement + t4 by { assert Fields[3..][1..] == Fields[4..]; }
    assert SumOver(Fields[2..], s) == s.eLearning + s.academicEngagement + t4 by {
      assert Fields[2..][1..] == Fields[3..];
    }
    assert SumOver(Fields[1..], s) == s.courseOutcome + s.eLearning + s.academicEngagement + t4 by {
      assert Fields[1..][1..] == Fields[2..];
    }
  }

  /** `ROLE_FACTOR[userRole] ?? 1.0` */
  function Factor(role: string): (r: real)
    ensures 0.0 < r <= 1.0
  {
    if role == "Professor" then 0.68
    else if role == "Associate Professor" then 0.79
    else if role == "Assistant Professor" then 1.0
    else 1.0
  }

  /** `ROLE_MAX[userRole] ?? 440` */
  function MaxScore(role: string): (r: int)
    ensures 300 <= r <= 440
  {
    if role == "Professor" then 300
    else if role == "Associate Professor" then 350
    else if role == "Assistant Professor" then 440
    else 440
  }

  /** `finalScore`: never above the designation maximum, and not negative when the raw sum
      is not. */
  function FinalScore(s: ScoreState, role: string): (r: int)
    ensures r <= MaxScore(role)
    ensures RawSum(s) >= 0.0 ==> r >= 0
  {
    Round(Min(MaxScore(role) as real, RawSum(s) * Factor(role)))
  }

  /** `interactedCount`: the fields holding a positive score. */
  function InteractedCount(s: ScoreState): nat {
    Lists.Count(Fields, PositiveIn(s))
  }

  function PositiveIn(s: ScoreState): Field -> bool {
    (f: Field) => s.Get(f) > 0.0
  }

  /** `progressPercent`: a percentage, whatever the scores. */
  function ProgressPercent(s: ScoreState): (r: real)
    ensures 0.0 <= r <= 100.0
  {
    Completion.PercentBounds(InteractedCount(s), |Fields|);
    Completion.Percent(InteractedCount(s), |Fields|)
  }

  // ---- properties ----------------------------------------------------------------------

  lemma {:induction false} SumOverBounds(fs: seq<Field>, s: ScoreState)
    requires Clamped(s)
    ensures 0.0 <= SumOver(fs, s) <= MaxOver(fs)
  {
    if fs != [] {
      SumOverBounds(fs[1..], s);
    }
  }

  /** With every field clamped the raw sum lies in `[0, 440]`, 440 being the sum of `MAXES`. */
  lemma RawSumBounds(s: ScoreState)
    requires Clamped(s)
    ensures 0.0 <= RawSum(s) <= 440.0
  {
    SumOverBounds(Fields, s);
    assert MaxOver(Fields) == 440.0;
  }

  /** An unknown designation is scored as an Assistant Professor: factor 1.0, maximum 440. */
  lemma UnknownDesignationFallsBack(role: string)
    requires role != "Professor" && role != "Associate Professor"
    ensures Factor(role) == Factor("Assistant Professor") == 1.0
    ensures MaxScore(role) == MaxScore("Assistant Professor") == 440
  {
  }

  /** The final score never leaves `[0, maxScore]`. */
  lemma FinalScoreBounds(s: ScoreState, role: string)
    requires Clamped(s)
    ensures 0 <= FinalScore(s, role) <= MaxScore(role)
  {
    RawSumBounds(s);
    var m := Min(MaxScore(role) as real, RawSum(s) * Factor(role));
    assert 0.0 <= m <= MaxScore(role) as real;
    assert (m + 0.5).Floor <= MaxScore(role);
  }

  /** For clamped input the designation cap never binds: even 440 raw marks scaled by the
      factor stay at or below the designation maximum (299.2 < 300, 347.6 < 350). */
  lemma CapNeverBinds(s: ScoreState, role: string)
    requires Clamped(s)
    ensures RawSum(s) * Factor(role) <= MaxScore(role) as real
    ensures FinalScore(s, role) == Round(RawSum(s) * Factor(role))
  {
    RawSumBounds(s);
    assert RawSum(s) * Factor(role) <= 440.0 * Factor(role);
  }

  lemma {:induction false} SumOverMonotone(fs: seq<Field>, s: ScoreState, t: ScoreState)
    requires forall f :: s.Get(f) <= t.Get(f)
    ensures SumOver(fs, s) <= SumOver(fs, t)
  {
    if fs != [] {
      SumOverMonotone(fs[1..], s, t);
    }
  }

  /** Raising any sub-scores never lowers the final score. */
  lemma FinalScoreMonotone(s: ScoreState, t: ScoreState, role: string)
    requires forall f :: s.Get(f) <= t.Get(f)
    ensures RawSum(s) <= RawSum(t)
    ensures FinalScore(s, role) <= FinalScore(t, role)
  {
    SumOverMonotone(Fields, s, t);
    var k := Factor(role);
    assert RawSum(s) * k <= RawSum(t) * k;
    var a := Min(MaxScore(role) as real, RawSum(s) * k);
    var b := Min(MaxScore(role) as real, RawSum(t) * k);
    assert a <= b;
    assert (a + 0.5).Floor <= (b + 0.5).Floor;
  }

  /** A Professor with 390 raw marks gets round(265.2) = 265. */
  lemma ProfessorExample()
    ensures RawSum(ScoreState(50.0, 50.0, 50.0, 50.0, 50.0, 40.0, 50.0, 50.0)) == 390.0
    ensures FinalScore(ScoreState(50.0, 50.0, 50.0, 50.0, 50.0, 40.0, 50.0, 50.0), "Professor") == 265
  {
    var s := ScoreState(50.0, 50.0, 50.0, 50.0, 50.0, 40.0, 50.0, 50.0);
    assert RawSum(s) == 390.0;
    assert 390.0 * 0.68 == 265.2;
    assert (265.2 + 0.5).Floor == 265;
  }

  /** The position of a field in `Fields`. */
  function IndexOf(f: Field): (i: nat)
    ensures i < |Fields| && Fields[i] == f
  {
    match f
    case ResultAnalysis => 0
    case CourseOutcome => 1
    case ELearning => 2
    case AcademicEngagement => 3
    case TeachingLoad => 4
    case ProjectsGuided => 5
    case StudentFeedback => 6
    case PtgMeetings => 7
  }

  /** Progress lies in `[0, 100]` and is 100 exactly when every sub-score is positive. */
  lemma ProgressBounds(s: ScoreState)
    ensures 0.0 <= ProgressPercent(s) <= 100.0
    ensures ProgressPercent(s) == 100.0 <==> forall f :: s.Get(f) > 0.0
  {
    var p := PositiveIn(s);
    Lists.CountAll(Fields, p);
    var n := InteractedCount(s);
    Completion.PercentBounds(n, 8);
    if forall f :: s.Get(f) > 0.0 {
      forall i | 0 <= i < |Fields| ensures p(Fields[i]) {
        assert s.Get(Fields[i]) > 0.0;
      }
      assert n == 8;
    } else {
      var g :| s.Get(g) <= 0.0;
      assert !p(Fields[IndexOf(g)]);
      assert n < 8;
    }
  }

  /** The Part A component: its designation and the state record `setScore` updates. */
  class PartAForm {
    const userRole: string
    var scores: ScoreState
    var manualScoring: bool

    ghost predicate Valid()
      reads this
    {
      Clamped(scores)
    }

    /** `userRole` defaults to "Professor"; every sub-score starts at 0. */
    constructor(role: Option<string>)
      ensures Valid()
      ensures userRole == role.GetOr("Professor") && scores == Zero && !manualScoring
    {
      userRole := role.GetOr("Professor");
      scores := Zero;
      manualScoring := false;
    }

    /** `setScore(field, value)`: only `field` changes, and it lands in `[0, MAXES[field]]`
        whatever number was typed. */
    method SetScore(field: Field, value: real)
      requires Valid()
      modifies this
      ensures Valid()
      ensures scores == old(scores).With(field, Clamp(value, 0.0, Max(field)))
      ensures 0.0 <= scores.Get(field) <= Max(field)
      ensures forall g :: g != field ==> scores.Get(g) == old(scores).Get(g)
      ensures manualScoring == old(manualScoring)
    {
      scores := scores.With(field, Clamp(value, 0.0, Max(field)));
    }

    /** The manual-entry switch. */
    method ToggleManualScoring()
      modifies this
      ensures manualScoring == !old(manualScoring) && scores == old(scores)
    {
      manualScoring := !manualScoring;
    }
  }
}

=== FILE: part_d.dfy ===
/** Part D (portfolio): self-awarded marks capped at 60, a superior mark chosen by portfolio
    type or, for administrative roles, by the administrative role, a total capped at 120, and
    the lock gate on saving. */
module PartD {
  import opened Common
  import Text
  import Lock
  import Completion

  /** `PortfolioFormData` */
  datatype PortfolioData = PortfolioData(
    portfolioType: string, selfAwardedMarks: real, deanMarks: real, hodMarks: real,
    isMarkHOD: bool, isMarkDean: bool, isAdministrativeRole: bool, administrativeRole: string,
    adminSelfAwardedMarks: real, directorMarks: real, adminDeanMarks: real)

  /** Part D as the backend returns it: every field may be missing. */
  datatype PortfolioJson = PortfolioJson(
    portfolioType: Option<string>, selfAwardedMarks: Option<real>, deanMarks: Option<real>,
    hodMarks: Option<real>, isMarkHOD: Option<bool>, isMarkDean: Option<bool>,
    isAdministrativeRole: Option<bool>, administrativeRole: Option<string>,
    adminSelfAwardedMarks: Option<real>, directorMarks: Option<real>, adminDeanMarks: Option<real>,
    instituteLevelPortfolio: Option<string>, departmentLevelPortfolio: Option<string>)

  /** The body of the save request: the form data, both portfolio texts, the total as
      `marks`, and whether this is the first save. */
  datatype SavePayload = SavePayload(
    data: PortfolioData, instituteLevelPortfolio: string, departmentLevelPortfolio: string,
    marks: real, isFirstTime: bool)

  datatype Scores = Scores(self: real, superior: real)

  function Min(a: real, b: real): real {
    if a <= b then a else b
  }

  /** `selfMarksValue`: the self mark of the active branch, the administrative one for an
      administrative role and the faculty one otherwise. */
  function SelfMarksValue(d: PortfolioData): (v: real)
    ensures d.isAdministrativeRole ==> v == d.adminSelfAwardedMarks
    ensures !d.isAdministrativeRole ==> v == d.selfAwardedMarks
  {
    if d.isAdministrativeRole then d.adminSelfAwardedMarks else d.selfAwardedMarks
  }

  /** `scores` */
  function ComputeScores(d: PortfolioData): (r: Scores)
    ensures r.self <= 60.0
    ensures r.self == Min(60.0, SelfMarksValue(d))
  {
    Scores(
      Min(60.0, SelfMarksValue(d)),
      if d.isAdministrativeRole then
        (if d.administrativeRole == "associate_dean" then d.adminDeanMarks else d.directorMarks)
      else if d.portfolioType == "both" then (d.deanMarks + d.hodMarks) / 2.0
      else if d.portfolioType == "institute" then d.deanMarks
      else d.hodMarks)
  }

  /** `totalScore` */
  function TotalScore(d: PortfolioData): (t: real)
    ensures t <= 120.0 && t <= ComputeScores(d).self + ComputeScores(d).superior
    ensures t == 120.0 || t == ComputeScores(d).self + ComputeScores(d).superior
  {
    Min(120.0, ComputeScores(d).self + ComputeScores(d).superior)
  }

  /** For a faculty member the superior mark is the HOD/Dean average for "both", the Dean's
      mark for "institute" and the HOD's mark otherwise; the administrative marks play no part. */
  lemma FacultySuperior(d: PortfolioData, director: real, adminDean: real, adminSelf: real)
    requires !d.isAdministrativeRole
    ensures d.portfolioType == "both" ==> ComputeScores(d).superior == (d.deanMarks + d.hodMarks) / 2.0
    ensures d.portfolioType == "institute" ==> ComputeScores(d).superior == d.deanMarks
    ensures d.portfolioType == "department" ==> ComputeScores(d).superior == d.hodMarks
    ensures ComputeScores(d.(directorMarks := director, adminDeanMarks := adminDean,
                             adminSelfAwardedMarks := adminSelf)) == ComputeScores(d)
  {
  }

  /** For an administrative role the superior mark is the associate-dean mark when the role
      is "associate_dean" and the director's mark otherwise; HOD and Dean marks, the portfolio
      type and the faculty self mark play no part. */
  lemma AdministrativeSuperior(d: PortfolioData, hod: real, dean: real, self: real, kind: string)
    requires d.isAdministrativeRole
    ensures ComputeScores(d).superior ==
      (if d.administrativeRole == "associate_dean" then d.adminDeanMarks else d.directorMarks)
    ensures ComputeScores(d.(hodMarks := hod, deanMarks := dean, selfAwardedMarks := self,
                             portfolioType := kind)) == ComputeScores(d)
  {
  }

  /** Full marks on both sides meet the cap exactly: 60 + 60 gives 120. */
  lemma TotalBoundary(d: PortfolioData)
    requires SelfMarksValue(d) >= 60.0 && ComputeScores(d).superior >= 60.0
    ensures TotalScore(d) == 120.0
  {
  }

  /** `showInstitute`: the institute text is on display for "both", "institute" and every
      administrative role. */
  predicate ShowsInstitute(d: PortfolioData) {
    d.portfolioType == "both" || d.portfolioType == "institute" || d.isAdministrativeRole
  }

  /** `showDepartment` */
  predicate ShowsDepartment(d: PortfolioData) {
    d.portfolioType == "both" || d.portfolioType == "department" || d.isAdministrativeRole
  }

  /** A loaded field holds the stored value, or the default when the record lacks it. */
  predicate Loaded<T(==)>(stored: Option<T>, value: T, default: T) {
    stored == Some(value) || (stored.None? && value == default)
  }

  /** The form data a load produces from a backend record, with the component's defaults:
      "both" for the portfolio type, 0 for marks, false for the marking flags, and the
      designation's flag and name for the administrative role. */
  function FromJson(j: PortfolioJson, isAdminFromDesignation: bool, userDesignation: string): (d: PortfolioData)
    ensures Loaded(j.portfolioType, d.portfolioType, "both")
    ensures Loaded(j.selfAwardedMarks, d.selfAwardedMarks, 0.0)
    ensures Loaded(j.deanMarks, d.deanMarks, 0.0) && Loaded(j.hodMarks, d.hodMarks, 0.0)
    ensures Loaded(j.isMarkHOD, d.isMarkHOD, false) && Loaded(j.isMarkDean, d.isMarkDean, false)
    ensures Loaded(j.isAdministrativeRole, d.isAdministrativeRole, isAdminFromDesignation)
    ensures Loaded(j.administrativeRole, d.administrativeRole, userDesignation)
    ensures Loaded(j.adminSelfAwardedMarks, d.adminSelfAwardedMarks, 0.0)
    ensures Loaded(j.directorMarks, d.directorMarks, 0.0) && Loaded(j.adminDeanMarks, d.adminDeanMarks, 0.0)
    ensures j.selfAwardedMarks.None? && j.adminSelfAwardedMarks.None? ==> SelfMarksValue(d) == 0.0
  {
    PortfolioData(
      j.portfolioType.GetOr("both"), j.selfAwardedMarks.GetOr(0.0),
      j.deanMarks.GetOr(0.0), j.hodMarks.GetOr(0.0),
      j.isMarkHOD.GetOr(false), j.isMarkDean.GetOr(false),
      j.isAdministrativeRole.GetOr(isAdminFromDesignation),
      j.administrativeRole.GetOr(userDesignation),
      j.adminSelfAwardedMarks.GetOr(0.0), j.directorMarks.GetOr(0.0), j.adminDeanMarks.GetOr(0.0))
  }

  /** The record the backend stores for a save; loading it gives back the saved form data and
      texts, whatever the defaults. */
  function ToJson(p: SavePayload): (j: PortfolioJson)
    ensures forall admin: bool, designation: string :: FromJson(j, admin, designation) == p.data
    ensures j.instituteLevelPortfolio == Some(p.instituteLevelPortfolio)
    ensures j.departmentLevelPortfolio == Some(p.departmentLevelPortfolio)
  {
    var d := p.data;
    PortfolioJson(
      Some(d.portfolioType), Some(d.selfAwardedMarks), Some(d.deanMarks), Some(d.hodMarks),
      Some(d.isMarkHOD), Some(d.isMarkDean), Some(d.isAdministrativeRole),
      Some(d.administrativeRole), Some(d.adminSelfAwardedMarks), Some(d.directorMarks),
      Some(d.adminDeanMarks), Some(p.instituteLevelPortfolio), Some(p.departmentLevelPortfolio))
  }

  /** The Part D component state. */
  class PartDForm {
    const isAdminFromDesignation: bool
    const userDesignation: string
    var formData: PortfolioData
    var instituteLevelPortfolio: string
    var departmentLevelPortfolio: string
    var isLoading: bool
    var isSubmitting: bool
    var formStatus: Option<string>
    var showStatusModal: bool
    var isFirstTime: bool
    var submitSuccess: bool
    var submitError: Option<string>

    constructor(isAdmin: bool, designation: string)
      ensures isAdminFromDesignation == isAdmin && userDesignation == designation
      ensures formData == PortfolioData("both", 0.0, 0.0, 0.0, false, false, isAdmin, designation, 0.0, 0.0, 0.0)
      ensures instituteLevelPortfolio == "" && departmentLevelPortfolio == ""
      ensures isLoading && !isSubmitting && formStatus == Some("pending") && !showStatusModal
      ensures isFirstTime && !submitSuccess && submitError == None
    {
      isAdminFromDesignation, userDesignation := isAdmin, designation;
      formData := PortfolioData("both", 0.0, 0.0, 0.0, false, false, isAdmin, designation, 0.0, 0.0, 0.0);
      instituteLevelPortfolio, departmentLevelPortfolio := "", "";
      isLoading, isSubmitting := true, false;
      formStatus, showStatusModal := Some("pending"), false;
      isFirstTime, submitSuccess, submitError := true, false, None;
    }

    /** The progress bar: one field for the self mark plus one per visible portfolio text,
        counted as the source counts them, step by step. */
    method Progress() returns (interacted: nat, totalFields: nat, percent: real)
      ensures totalFields ==
        (if formData.portfolioType == "both" || formData.isAdministrativeRole then 3
         else if formData.portfolioType == "institute" || formData.portfolioType == "department" then 2
         else 1)
      ensures interacted ==
        (if SelfMarksValue(formData) > 0.0 then 1 else 0)
        + (if ShowsInstitute(formData) && !Text.IsBlank(instituteLevelPortfolio) then 1 else 0)
        + (if ShowsDepartment(formData) && !Text.IsBlank(departmentLevelPortfolio) then 1 else 0)
      ensures interacted <= totalFields && percent == Completion.Percent(interacted, totalFields)
      ensures 0.0 <= percent <= 100.0
      ensures percent == 100.0 <==>
        SelfMarksValue(formData) > 0.0
        && (ShowsInstitute(formData) ==> !Text.IsBlank(instituteLevelPortfolio))
        && (ShowsDepartment(formData) ==> !Text.IsBlank(departmentLevelPortfolio))
    {
      Text.TrimEmptyIff(instituteLevelPortfolio);
      Text.TrimEmptyIff(departmentLevelPortfolio);
      interacted, totalFields := 0, 0;
      var selfMarksValue := SelfMarksValue(formData);
      if selfMarksValue > 0.0 { interacted := interacted + 1; }
      totalFields := totalFields + 1;
      if ShowsInstitute(formData) {
        totalFields := totalFields + 1;
        if |Text.Trim(instituteLevelPortfolio)| > 0 { interacted := interacted + 1; }
      }
      if ShowsDepartment(formData) {
        totalFields := totalFields + 1;
        if |Text.Trim(departmentLevelPortfolio)| > 0 { interacted := interacted + 1; }
      }
      percent := Completion.Percent(interacted, totalFields);
      Completion.PercentBounds(interacted, totalFields);
    }

    /** The initial fetch of the saved record and then of the status. A record that arrives
        sets the form (with defaults for missing fields) and clears `isFirstTime`; a thrown
        request abandons the rest; loading always ends. */
    method Load(record: Fetch<Option<PortfolioJson>>, status: Fetch<Option<string>>)
      modifies this
      ensures !isLoading
      ensures record.Replied? && record.ok && record.body.Some? ==>
        formData == FromJson(record.body.value, isAdminFromDesignation, userDesignation)
        && instituteLevelPortfolio == record.body.value.instituteLevelPortfolio.GetOr("")
        && departmentLevelPortfolio == record.body.value.departmentLevelPortfolio.GetOr("")
        && !isFirstTime
      ensures !(record.Replied? && record.ok && record.body.Some?) ==>
        formData == old(formData) && instituteLevelPortfolio == old(instituteLevelPortfolio)
        && departmentLevelPortfolio == old(departmentLevelPortfolio) && isFirstTime == old(isFirstTime)
      ensures formStatus ==
        (if record.Replied? && status.Replied? && status.ok then status.body else old(formStatus))
      ensures isSubmitting == old(isSubmitting) && showStatusModal == old(showStatusModal)
      ensures submitSuccess == old(submitSuccess) && submitError == old(submitError)
    {
      if record.Replied? {
        if record.ok && record.body.Some? {
          var j := record.body.value;
          formData := FromJson(j, isAdminFromDesignation, userDesignation);
          instituteLevelPortfolio := j.instituteLevelPortfolio.GetOr("");
          departmentLevelPortfolio := j.departmentLevelPortfolio.GetOr("");
          isFirstTime := false;
        }
        if status.Replied? && status.ok {
          formStatus := status.body;
        }
      }
      isLoading := false;
    }

    /** `handleSubmit`: while locked it issues no request and only opens the status notice;
        otherwise it posts the payload whose `marks` is the total score. */
    method HandleSubmit(response: Fetch<()>) returns (request: Option<SavePayload>)
      modifies this
      ensures Lock.Locked(old(formStatus)) ==>
        request == None && showStatusModal
        && isSubmitting == old(isSubmitting) && isFirstTime == old(isFirstTime)
        && submitSuccess == old(submitSuccess) && submitError == old(submitError)
      ensures !Lock.Locked(old(formStatus)) ==>
        request == Some(SavePayload(formData, instituteLevelPortfolio, departmentLevelPortfolio,
                                    TotalScore(formData), old(isFirstTime)))
        && request.value.marks <= 120.0
        && !isSubmitting && showStatusModal == old(showStatusModal)
        && (response == Replied(true, ()) ==> !isFirstTime && submitSuccess && submitError == None)
        && (response == Replied(false, ()) ==>
              isFirstTime == old(isFirstTime) && submitSuccess == old(submitSuccess)
              && submitError == Some("Save Failed"))
        && (response.Threw? ==>
              isFirstTime == old(isFirstTime) && submitSuccess == old(submitSuccess)
              && submitError == Some(response.message))
      ensures formData == old(formData) && formStatus == old(formStatus)
      ensures instituteLevelPortfolio == old(instituteLevelPortfolio)
      ensures departmentLevelPortfolio == old(departmentLevelPortfolio)
      ensures isLoading == old(isLoading)
    {
      if Lock.Locked(formStatus) {
        showStatusModal := true;
        return None;
      }
      isSubmitting := true;
      submitError := None;
      request := Some(SavePayload(formData, instituteLevelPortfolio, departmentLevelPortfolio,
                                  TotalScore(formData), isFirstTime));
      match response {
        case Threw(message) =>
          submitError := Some(message);
        case Replied(ok, _) =>
          if ok {
            isFirstTime := false;
            submitSuccess := true;
          } else {
            submitError := Some("Save Failed");
          }
      }
      isSubmitting := false;
    }

    /** The self-mark input: the typed number is clamped to `[0, 60]` and written to the
        field of the active branch only. The input is disabled while the part is locked. */
    method OnSelfMarksInput(value: real)
      requires !Lock.Locked(formStatus)
      modifies this
      ensures var v := if value < 0.0 then 0.0 else if value > 60.0 then 60.0 else value;
        formData == (if old(formData).isAdministrativeRole
                     then old(formData).(adminSelfAwardedMarks := v)
                     else old(formData).(selfAwardedMarks := v))
      ensures 0.0 <= SelfMarksValue(formData) <= 60.0
      ensures TotalScore(formData) <= 120.0
      ensures formStatus == old(formStatus) && isFirstTime == old(isFirstTime)
      ensures instituteLevelPortfolio == old(instituteLevelPortfolio)
      ensures departmentLevelPortfolio == old(departmentLevelPortfolio)
      ensures isLoading == old(isLoading) && isSubmitting == old(isSubmitting)
      ensures showStatusModal == old(showStatusModal) && submitSuccess == old(submitSuccess)
      ensures submitError == old(submitError)
    {
      var v := if value < 0.0 then 0.0 else if value > 60.0 then 60.0 else value;
      if formData.isAdministrativeRole {
        formData := formData.(adminSelfAwardedMarks := v);
      } else {
        formData := formData.(selfAwardedMarks := v);
      }
    }

    /** A portfolio-type button; the buttons are disabled while the part is locked. */
    method OnPortfolioType(t: string)
      requires !Lock.Locked(formStatus)
      modifies this
      ensures formData == old(formData).(portfolioType := t)
      ensures instituteLevelPortfolio == old(instituteLevelPortfolio)
      ensures departmentLevelPortfolio == old(departmentLevelPortfolio)
      ensures formStatus == old(formStatus) && isFirstTime == old(isFirstTime)
      ensures isLoading == old(isLoading) && isSubmitting == old(isSubmitting)
      ensures showStatusModal == old(showStatusModal) && submitSuccess == old(submitSuccess)
      ensures submitError == old(submitError)
    {
      formData := formData.(portfolioType := t);
    }

    /** The institute text area, disabled while the part is locked. */
    method OnInstitutePortfolio(text: string)
      requires !Lock.Locked(formStatus)
      modifies this
      ensures instituteLevelPortfolio == text
      ensures formData == old(formData) && departmentLevelPortfolio == old(departmentLevelPortfolio)
      ensures formStatus == old(formStatus) && isFirstTime == old(isFirstTime)
      ensures isLoading == old(isLoading) && isSubmitting == old(isSubmitting)
      ensures showStatusModal == old(showStatusModal) && submitSuccess == old(submitSuccess)
      ensures submitError == old(submitError)
    {
      instituteLevelPortfolio := text;
    }

    /** The department text area, disabled while the part is locked. */
    method OnDepartmentPortfolio(text: string)
      requires !Lock.Locked(formStatus)
      modifies this
      ensures departmentLevelPortfolio == text
      ensures formData == old(formData) && instituteLevelPortfolio == old(instituteLevelPortfolio)
      ensures formStatus == old(formStatus) && isFirstTime == old(isFirstTime)
      ensures isLoading == old(isLoading) && isSubmitting == old(isSubmitting)
      ensures showStatusModal == old(showStatusModal) && submitSuccess == old(submitSuccess)
      ensures submitError == old(submitError)
    {
      departmentLevelPortfolio := text;
    }
  }
}

=== FILE: part_e.dfy ===
/** Part E (extra contributions): a free-text description and one self-awarded mark capped
    at 50, saved under the backend's field names and guarded by the lock gate. */
module PartE {
  import opened Common
  import Text
  import Lock

  /** `ExtraFormData` */
  datatype ExtraData = ExtraData(contributions: string, selfAwardedMarks: real)

  /** Part E under the backend's field names; either may be missing on load. */
  datatype ExtraJson = ExtraJson(bullet_points: Option<string>, total_marks: Option<real>)

  /** The body of the save request. */
  datatype SavePayload = SavePayload(e: ExtraJson, isFirstTime: bool)

  /** The form data a load produces: missing text loads as "" and missing marks as 0. */
  function FromJson(j: ExtraJson): (d: ExtraData)
    ensures j.bullet_points.None? ==> d.contributions == ""
    ensures j.total_marks.None? ==> d.selfAwardedMarks == 0.0
    ensures j.bullet_points.Some? ==> d.contributions == j.bullet_points.value
    ensures j.total_marks.Some? ==> d.selfAwardedMarks == j.total_marks.value
  {
    ExtraData(j.bullet_points.GetOr(""), j.total_marks.GetOr(0.0))
  }

  /** The save mapping: marks go to `total_marks`, text to `bullet_points`; loading what was
      saved gives the form data back. */
  function ToJson(d: ExtraData): (j: ExtraJson)
    ensures j.total_marks == Some(d.selfAwardedMarks) && j.bullet_points == Some(d.contributions)
    ensures FromJson(j) == d
  {
    ExtraJson(Some(d.contributions), Some(d.selfAwardedMarks))
  }

  /** The marks input: `Math.min(50, Math.max(0, v))`. */
  function ClampMarks(v: real): (r: real)
    ensures 0.0 <= r <= 50.0
    ensures 0.0 <= v <= 50.0 ==> r == v
    ensures v < 0.0 ==> r == 0.0
    ensures v > 50.0 ==> r == 50.0
  {
    if v < 0.0 then 0.0 else if v > 50.0 then 50.0 else v
  }

  /** The Part E component state. */
  class PartEForm {
    var formData: ExtraData
    var isLoading: bool
    var isSubmitting: bool
    var formStatus: Option<string>
    var showStatusModal: bool
    var isFirstTime: bool
    var submitSuccess: bool
    var submitError: Option<string>

    constructor()
      ensures formData == ExtraData("", 0.0)
      ensures isLoading && !isSubmitting && formStatus == Some("pending") && !showStatusModal
      ensures isFirstTime && !submitSuccess && submitError == None
    {
      formData := ExtraData("", 0.0);
      isLoading, isSubmitting := true, false;
      formStatus, showStatusModal := Some("pending"), false;
      isFirstTime, submitSuccess, submitError := true, false, None;
    }

    /** The progress bar: half for a non-blank description, half for positive marks. */
    method Progress() returns (percent: real)
      ensures percent == 0.0 || percent == 50.0 || percent == 100.0
      ensures percent == 100.0 <==> !Text.IsBlank(formData.contributions) && formData.selfAwardedMarks > 0.0
      ensures percent == 0.0 <==> Text.IsBlank(formData.contributions) && formData.selfAwardedMarks <= 0.0
    {
      var interacted := 0;
      Text.TrimEmptyIff(formData.contributions);
      if |Text.Trim(formData.contributions)| > 0 { interacted := interacted + 1; }
      if formData.selfAwardedMarks > 0.0 { interacted := interacted + 1; }
      percent := (interacted as real / 2.0) * 100.0;
    }

    /** The initial fetch. A record read from an ok response replaces the form data and
        clears `isFirstTime`; a null body throws inside the try, so nothing further happens;
        the status is read only when the first request did not throw. */
    method Load(record: Fetch<Option<ExtraJson>>, status: Fetch<Option<string>>)
      modifies this
      ensures !isLoading
      ensures record.Replied? && record.ok && record.body.Some? ==>
        formData == FromJson(record.body.value) && !isFirstTime
      ensures !(record.Replied? && record.ok && record.body.Some?) ==>
        formData == old(formData) && isFirstTime == old(isFirstTime)
      ensures formStatus ==
        (if record.Replied? && !(record.ok && record.body.None?) && status.Replied? && status.ok
         then status.body else old(formStatus))
      ensures isSubmitting == old(isSubmitting) && showStatusModal == old(showStatusModal)
      ensures submitSuccess == old(submitSuccess) && submitError == old(submitError)
    {
      if record.Replied? {
        if record.ok {
          if record.body.None? {
            // reading a field of a null body throws; the catch swallows it
            isLoading := false;
            return;
          }
          formData := FromJson(record.body.value);
          isFirstTime := false;
        }
        if status.Replied? && status.ok {
          formStatus := status.body;
        }
      }
      isLoading := false;
    }

    /** `handleSubmit`: while locked nothing is sent and the locked notice opens; otherwise
        the mapped payload is posted and the outcome recorded. */
    method HandleSubmit(response: Fetch<()>) returns (request: Option<SavePayload>)
      modifies this
      ensures Lock.Locked(old(formStatus)) ==>
        request == None && showStatusModal
        && isSubmitting == old(isSubmitting) && isFirstTime == old(isFirstTime)
        && submitSuccess == old(submitSuccess) && submitError == old(submitError)
      ensures !Lock.Locked(old(formStatus)) ==>
        request == Some(SavePayload(ToJson(formData), old(isFirstTime)))
        && !isSubmitting && showStatusModal == old(showStatusModal)
        && (response == Replied(true, ()) ==> !isFirstTime && submitSuccess && submitError == None)
        && (response == Replied(false, ()) ==>
              isFirstTime == old(isFirstTime) && submitSuccess == old(submitSuccess)
              && submitError == Some("Save Failed"))
        && (response.Threw? ==>
              isFirstTime == old(isFirstTime) && submitSuccess == old(submitSuccess)
              && submitError == Some(response.message))
      ensures formData == old(formData) && formStatus == old(formStatus) && isLoading == old(isLoading)
    {
      if Lock.Locked(formStatus) {
        showStatusModal := true;
        return None;
      }
      isSubmitting := true;
      submitError := None;
      request := Some(SavePayload(ToJson(formData), isFirstTime));
      match response {
        case Threw(message) =>
          submitError := Some(message);
        case Replied(ok, _) =>
          if ok {
            isFirstTime := false;
            submitSuccess := true;
          } else {
            submitError := Some("Save Failed");
          }
      }
      isSubmitting := false;
    }

    /** The marks input: clamped to `[0, 50]`; the description is left alone. The input is
        disabled while the part is locked. */
    method OnMarksInput(value: real)
      requires !Lock.Locked(formStatus)
      modifies this
      ensures formData == ExtraData(old(formData).contributions, ClampMarks(value))
      ensures formStatus == old(formStatus) && isFirstTime == old(isFirstTime)
      ensures isLoading == old(isLoading) && isSubmitting == old(isSubmitting)
      ensures showStatusModal == old(showStatusModal) && submitSuccess == old(submitSuccess)
      ensures submitError == old(submitError)
    {
      formData := formData.(selfAwardedMarks := ClampMarks(value));
    }

    /** The description text area, disabled while the part is locked. */
    method OnContributionsInput(text: string)
      requires !Lock.Locked(formStatus)
      modifies this
      ensures formData == ExtraData(text, old(formData).selfAwardedMarks)
      ensures formStatus == old(formStatus) && isFirstTime == old(isFirstTime)
      ensures isLoading == old(isLoading) && isSubmitting == old(isSubmitting)
      ensures showStatusModal == old(showStatusModal) && submitSuccess == old(submitSuccess)
      ensures submitError == old(submitError)
    {
      formData := formData.(contributions := text);
    }
  }
}

=== FILE: rubric.dfy ===
/** The rubric evaluator: one score button row per criterion and a weighted total. */
module Rubric {
  /** A rubric criterion; `weight` multiplies the chosen score, `maxScore` is the number of
      score buttons. */
  datatype Criterion = Criterion(id: string, name: string, description: string, weight: real, maxScore: nat)

  /** `scores[c.id] || 0`: an unscored criterion (and a score of 0) counts as 0. */
  function ScoreOf(scores: map<string, int>, c: Criterion): (r: int)
    ensures c.id in scores ==> r == scores[c.id]
    ensures c.id !in scores ==> r == 0
  {
    if c.id in scores then scores[c.id] else 0
  }

  /** `calculateTotal()`: the left fold of score × weight over the criteria. */
  function Total(criteria: seq<Criterion>, scores: map<string, int>): (r: real)
    ensures scores == map[] ==> r == 0.0
  {
    if criteria == [] then 0.0
    else
      var c := criteria[|criteria| - 1];
      Total(criteria[..|criteria| - 1], scores) + ScoreOf(scores, c) as real * c.weight
  }

  /** `maxScore`: the left fold of maxScore × weight over the criteria. */
  function MaxTotal(criteria: seq<Criterion>): real {
    if criteria == [] then 0.0
    else
      var c := criteria[|criteria| - 1];
      MaxTotal(criteria[..|criteria| - 1]) + c.maxScore as real * c.weight
  }

  predicate NonNegativeWeights(criteria: seq<Criterion>) {
    forall i | 0 <= i < |criteria| :: criteria[i].weight >= 0.0
  }

  /** Every criterion that has a score holds one its buttons can give, 1..maxScore. */
  predicate ScoresInRange(criteria: seq<Criterion>, scores: map<string, int>) {
    forall i | 0 <= i < |criteria| && criteria[i].id in scores ::
      1 <= scores[criteria[i].id] <= criteria[i].maxScore
  }

  predicate UniqueIds(criteria: seq<Criterion>) {
    forall i, j | 0 <= i < j < |criteria| :: criteria[i].id != criteria[j].id
  }

  /** With no criteria both the total and the maximum are 0. */
  lemma EmptyRubric(scores: map<string, int>)
    ensures Total([], scores) == 0.0 && MaxTotal([]) == 0.0
  {
  }

  /** None of the criteria scored yet: the total is 0, whatever else the map holds. */
  lemma {:induction false} NothingScored(criteria: seq<Criterion>, scores: map<string, int>)
    requires forall i | 0 <= i < |criteria| :: criteria[i].id !in scores
    ensures Total(criteria, scores) == 0.0
  {
    if criteria != [] {
      NothingScored(criteria[..|criteria| - 1], scores);
    }
  }

  lemma ScaledBounds(s: int, m: nat, w: real)
    requires 0 <= s <= m && w >= 0.0
    ensures 0.0 <= s as real * w <= m as real * w
  {
  }

  /** With non-negative weights and every score one the buttons offer, the total lies between
      0 and the maximum. */
  lemma {:induction false} TotalBounded(criteria: seq<Criterion>, scores: map<string, int>)
    requires NonNegativeWeights(criteria)
    requires ScoresInRange(criteria, scores)
    ensures 0.0 <= Total(criteria, scores) <= MaxTotal(criteria)
  {
    if criteria != [] {
      var n := |criteria| - 1;
      var c := criteria[n];
      var init := criteria[..n];
      assert NonNegativeWeights(init) by {
        forall i | 0 <= i < |init| ensures init[i].weight >= 0.0 { assert init[i] == criteria[i]; }
      }
      assert ScoresInRange(init, scores) by {
        forall i | 0 <= i < |init| && init[i].id in scores ensures 1 <= scores[init[i].id] <= init[i].maxScore {
          assert init[i] == criteria[i];
        }
      }
      TotalBounded(init, scores);
      var lo, hi := Total(init, scores), MaxTotal(init);
      assert 0 <= ScoreOf(scores, c) <= c.maxScore && c.weight >= 0.0 by {
        assert c == criteria[n];
      }
      ScaledBounds(ScoreOf(scores, c), c.maxScore, c.weight);
      var earned, possible := ScoreOf(scores, c) as real * c.weight, c.maxScore as real * c.weight;
      assert 0.0 <= earned <= possible;
      assert Total(criteria, scores) == lo + earned;
      assert MaxTotal(criteria) == hi + possible;
    }
  }

  /** Giving every criterion its top score reaches the maximum exactly. */
  lemma {:induction false} TopScoresReachMax(criteria: seq<Criterion>, scores: map<string, int>)
    requires forall i | 0 <= i < |criteria| :: criteria[i].id in scores && scores[criteria[i].id] == criteria[i].maxScore
    ensures Total(criteria, scores) == MaxTotal(criteria)
  {
    if criteria != [] {
      TopScoresReachMax(criteria[..|criteria| - 1], scores);
    }
  }

  /** Raising any scores never lowers the total when weights are non-negative. */
  lemma {:induction false} TotalMonotone(criteria: seq<Criterion>, lo: map<string, int>, hi: map<string, int>)
    requires NonNegativeWeights(criteria)
    requires forall i | 0 <= i < |criteria| :: ScoreOf(lo, criteria[i]) <= ScoreOf(hi, criteria[i])
    ensures Total(criteria, lo) <= Total(criteria, hi)
  {
    if criteria != [] {
      var n := |criteria| - 1;
      var c := criteria[n];
      TotalMonotone(criteria[..n], lo, hi);
      assert c.weight >= 0.0 && ScoreOf(lo, criteria[n]) <= ScoreOf(hi, criteria[n]);
      assert (ScoreOf(hi, c) - ScoreOf(lo, c)) as real * c.weight >= 0.0;
      assert Total(criteria, lo) == Total(criteria[..n], lo) + ScoreOf(lo, c) as real * c.weight;
      assert Total(criteria, hi) == Total(criteria[..n], hi) + ScoreOf(hi, c) as real * c.weight;
    }
  }

  /** Scoring a criterion the rubric does not list leaves the total unchanged. */
  lemma {:induction false} ForeignScoreIgnored(criteria: seq<Criterion>, scores: map<string, int>, id: string, score: int)
    requires forall i | 0 <= i < |criteria| :: criteria[i].id != id
    ensures Total(criteria, scores[id := score]) == Total(criteria, scores)
  {
    if criteria != [] {
      ForeignScoreIgnored(criteria[..|criteria| - 1], scores, id, score);
    }
  }

  /** The evaluator's state: the criteria it was given and the scores chosen so far. */
  class RubricEvaluator {
    const criteria: seq<Criterion>
    var scores: map<string, int>

    constructor(criteria: seq<Criterion>)
      ensures this.criteria == criteria && scores == map[]
    {
      this.criteria := criteria;
      scores := map[];
    }

    /** `handleScoreChange(id, score)`: sets that one key. */
    method HandleScoreChange(id: string, score: int)
      modifies this
      ensures scores == old(scores)[id := score]
      ensures forall other | other in old(scores) && other != id :: other in scores && scores[other] == old(scores)[other]
    {
      scores := scores[id := score];
    }

    /** The button numbered `idx + 1` in the row of criterion `k`; with distinct ids every
        score stays one the buttons offer. */
    method ClickScore(k: nat, idx: nat)
      requires k < |criteria| && idx < criteria[k].maxScore
      modifies this
      ensures scores == old(scores)[criteria[k].id := idx + 1]
      ensures UniqueIds(criteria) && old(ScoresInRange(criteria, scores)) ==> ScoresInRange(criteria, scores)
    {
      HandleScoreChange(criteria[k].id, idx + 1);
    }

    function TotalScore(): (r: real)
      reads this
      ensures scores == map[] ==> r == 0.0
    {
      Total(criteria, scores)
    }

    /** "Submit Evaluation": hands the scores and the total to the caller. */
    method Submit() returns (submitted: map<string, int>, totalScore: real)
      ensures submitted == scores && totalScore == Total(criteria, scores)
      ensures NonNegativeWeights(criteria) && ScoresInRange(criteria, scores) ==>
        0.0 <= totalScore <= MaxTotal(criteria)
    {
      submitted, totalScore := scores, TotalScore();
      if NonNegativeWeights(criteria) && ScoresInRange(criteria, scores) {
        TotalBounded(criteria, scores);
      }
    }
  }
}

=== FILE: text.dfy ===
/** The JavaScript string operations the components rely on: `trim`, the `\s` class,
    `toLowerCase`, `includes`, `startsWith`, `split("@")[0]`, truthiness of strings and
    `parseInt` with its default radix, plus the decimal rendering of an integer. */
module Text {
  import opened Common

  /** White space as `String.prototype.trim` and the regular-expression class `\s` see it
      (ECMAScript WhiteSpace and LineTerminator code points). */
  predicate IsSpace(c: char)
    ensures c == ' ' || c == '\t' || c == '\n' || c == '\r' ==> IsSpace(c)
    ensures '!' <= c <= '~' ==> !IsSpace(c)
  {
    c == ' ' || c == '\t' || c == '\n' || c == '\r' || c == '\U{000B}' || c == '\U{000C}'
    || c == '\U{00A0}' || c == '\U{1680}' || ('\U{2000}' <= c <= '\U{200A}')
    || c == '\U{2028}' || c == '\U{2029}' || c == '\U{202F}' || c == '\U{205F}'
    || c == '\U{3000}' || c == '\U{FEFF}'
  }

  predicate IsBlank(s: string) {
    forall i | 0 <= i < |s| :: IsSpace(s[i])
  }

  function TrimStart(s: string): (r: string)
    ensures r == [] || !IsSpace(r[0])
    ensures |r| <= |s| && r == s[|s| - |r|..]
  {
    if s != [] && IsSpace(s[0]) then TrimStart(s[1..]) else s
  }

  function TrimEnd(s: string): (r: string)
    ensures r <= s
    ensures r == [] || !IsSpace(r[|r| - 1])
  {
    if s != [] && IsSpace(s[|s| - 1]) then TrimEnd(s[..|s| - 1]) else s
  }

  /** `s.trim()`: a piece of `s` that neither starts nor ends with white space. */
  function Trim(s: string): (r: string)
    ensures r == [] || (!IsSpace(r[0]) && !IsSpace(r[|r| - 1]))
    ensures Contains(s, r)
  {
    var t := TrimStart(s);
    assert s[|s| - |t|..] == t;
    assert TrimEnd(t) <= s[|s| - |t|..];
    TrimEnd(TrimStart(s))
  }

  lemma {:induction false} TrimStartEmpty(s: string)
    ensures TrimStart(s) == [] <==> IsBlank(s)
  {
    if s != [] {
      BlankCons(s);
      if IsSpace(s[0]) {
        TrimStartEmpty(s[1..]);
      }
    }
  }

  /** A non-empty string is blank exactly when its first character is white space and the
      rest is blank. */
  lemma BlankCons(s: string)
    requires s != []
    ensures IsBlank(s) <==> IsSpace(s[0]) && IsBlank(s[1..])
  {
    if IsSpace(s[0]) && IsBlank(s[1..]) {
      forall i | 0 <= i < |s| ensures IsSpace(s[i]) {
        if i > 0 { assert s[i] == s[1..][i - 1]; }
      }
    }
  }

  lemma {:induction false} TrimEndEmpty(s: string)
    ensures TrimEnd(s) == [] <==> IsBlank(s)
  {
    if s != [] && IsSpace(s[|s| - 1]) {
      var p := s[..|s| - 1];
      TrimEndEmpty(p);
      assert IsBlank(s) <==> IsBlank(p) by {
        if IsBlank(p) {
          forall i | 0 <= i < |s| ensures IsSpace(s[i]) {
            if i < |s| - 1 { assert s[i] == p[i]; }
          }
        }
      }
    }
  }

  /** `!s.trim()` holds exactly of the strings made only of white space. */
  lemma TrimEmptyIff(s: string)
    ensures Trim(s) == [] <==> IsBlank(s)
  {
    var t := TrimStart(s);
    TrimStartEmpty(s);
    TrimEndEmpty(t);
    if t != [] {
      assert !IsSpace(t[0]);
    }
  }

  /** JavaScript truthiness of a possibly absent string: `x || fallback`. */
  function OrElse(x: Option<string>, fallback: string): (r: string)
    ensures r == fallback || (x.Some? && r == x.value && r != [])
    ensures x.Some? && x.value != [] ==> r == x.value
  {
    if x.Some? && x.value != [] then x.value else fallback
  }

  /** `toLowerCase`, on the ASCII letters. */
  function LowerChar(c: char): char {
    if 'A' <= c <= 'Z' then (c as int + 32) as char else c
  }

  predicate IsLowerCase(s: string) {
    forall i | 0 <= i < |s| :: !('A' <= s[i] <= 'Z')
  }

  function ToLower(s: string): (r: string)
    ensures |r| == |s|
    ensures forall i | 0 <= i < |s| :: r[i] == LowerChar(s[i])
  {
    seq(|s|, i requires 0 <= i < |s| => LowerChar(s[i]))
  }

  lemma ToLowerIsLower(s: string)
    ensures IsLowerCase(ToLower(s))
    ensures ToLower(ToLower(s)) == ToLower(s)
  {
  }

  /** A string with no upper-case ASCII letter is its own lower-case form. */
  lemma LowerCaseFixed(s: string)
    requires IsLowerCase(s)
    ensures ToLower(s) == s
  {
  }

  /** `s.includes(sub)` */
  predicate Contains(s: string, sub: string)
    ensures Contains(s, sub) ==> |sub| <= |s|
    ensures sub <= s ==> Contains(s, sub)
  {
    assert s[0..] == s;
    exists i | 0 <= i <= |s| :: sub <= s[i..]
  }

  lemma ContainsEmpty(s: string)
    ensures Contains(s, "")
  {
    assert "" <= s[0..];
  }

  lemma ContainsSelf(s: string)
    ensures Contains(s, s)
  {
    assert s <= s[0..];
  }

  /** A string contains nothing longer than itself. */
  lemma NotContainsLonger(s: string, sub: string)
    requires |sub| > |s|
    ensures !Contains(s, sub)
  {
  }

  /** What a string contains starts with one of its characters. */
  lemma ContainsFirstChar(s: string, sub: string)
    requires sub != [] && Contains(s, sub)
    ensures sub[0] in s
  {
    ContainsChar(s, sub, 0);
  }

  /** Every character of what a string contains is one of its characters. */
  lemma ContainsChar(s: string, sub: string, k: nat)
    requires k < |sub| && Contains(s, sub)
    ensures sub[k] in s
  {
    var i :| 0 <= i <= |s| && sub <= s[i..];
    assert s[i..][k] == s[i + k];
  }

  /** `s.startsWith(p)` */
  predicate StartsWith(s: string, p: string) {
    p <= s
  }

  /** `s.split(sep)[0]`: everything before the first `sep`, or all of `s`. */
  function BeforeFirst(s: string, sep: char): (r: string)
    ensures r <= s
    ensures sep !in r
    ensures |r| < |s| ==> s[|r|] == sep
  {
    if s == [] || s[0] == sep then [] else [s[0]] + BeforeFirst(s[1..], sep)
  }

  // ---- parseInt -----------------------------------------------------------------------

  /** The value of a digit in radixes up to 36; 36 for anything that is no digit. */
  function DigitValue(c: char): nat {
    if '0' <= c <= '9' then c as nat - '0' as nat
    else if 'a' <= c <= 'z' then c as nat - 'a' as nat + 10
    else if 'A' <= c <= 'Z' then c as nat - 'A' as nat + 10
    else 36
  }

  /** The number of leading characters of `s` that are digits in `radix`. */
  function DigitPrefixLength(s: string, radix: nat): (n: nat)
    ensures n <= |s|
    ensures forall i | 0 <= i < n :: DigitValue(s[i]) < radix
    ensures n < |s| ==> DigitValue(s[n]) >= radix
  {
    if s != [] && DigitValue(s[0]) < radix then 1 + DigitPrefixLength(s[1..], radix) else 0
  }

  /** The number a string of digits denotes, most significant first. */
  function DigitsValue(d: string, radix: nat): nat {
    if d == [] then 0 else DigitsValue(d[..|d| - 1], radix) * radix + DigitValue(d[|d| - 1])
  }

  /** `parseInt(s)` with no radix: skip leading white space, an optional sign, a `0x`/`0X`
      prefix switching to radix 16, then the longest run of digits; `None` is NaN. */
  function ParseInt(s: string): (r: Option<int>)
    ensures r.None? <==> ParseIntDigits(s) == []
  {
    var digits := ParseIntDigits(s);
    if digits == [] then None
    else
      var v: int := DigitsValue(digits, ParseIntRadix(s));
      Some(if ParseIntNegative(s) then -v else v)
  }

  function ParseIntUnsigned(s: string): string {
    var t := TrimStart(s);
    if t != [] && (t[0] == '-' || t[0] == '+') then t[1..] else t
  }

  predicate ParseIntNegative(s: string) {
    var t := TrimStart(s);
    t != [] && t[0] == '-'
  }

  predicate HasHexPrefix(u: string) {
    |u| >= 2 && u[0] == '0' && (u[1] == 'x' || u[1] == 'X')
  }

  function ParseIntRadix(s: string): nat {
    if HasHexPrefix(ParseIntUnsigned(s)) then 16 else 10
  }

  /** The digits `parseInt` reads. */
  function ParseIntDigits(s: string): string {
    var u := ParseIntUnsigned(s);
    var body := if HasHexPrefix(u) then u[2..] else u;
    body[..DigitPrefixLength(body, ParseIntRadix(s))]
  }

  // ---- decimal rendering ---------------------------------------------------------------

  predicate IsDecimalDigit(c: char) {
    '0' <= c <= '9'
  }

  function DigitChar(d: nat): (c: char)
    requires d < 10
    ensures IsDecimalDigit(c) && DigitValue(c) == d
  {
    ('0' as nat + d) as char
  }

  function ShowNat(n: nat): (r: string)
    ensures |r| >= 1
    ensures forall i | 0 <= i < |r| :: IsDecimalDigit(r[i])
  {
    if n < 10 then [DigitChar(n)] else ShowNat(n / 10) + [DigitChar(n % 10)]
  }

  /** `String(n)` for an integer `n`: a minus sign exactly for negatives, then digits. */
  function ShowInt(n: int): (r: string)
    ensures r != [] && (r[0] == '-' <==> n < 0)
    ensures forall i | 1 <= i < |r| :: IsDecimalDigit(r[i])
  {
    if n < 0 then "-" + ShowNat(-n) else ShowNat(n)
  }

  lemma {:induction false} ShowNatValue(n: nat)
    ensures DigitsValue(ShowNat(n), 10) == n
  {
    if n >= 10 {
      var s := ShowNat(n);
      assert s[..|s| - 1] == ShowNat(n / 10);
      ShowNatValue(n / 10);
    }
  }

  lemma {:induction false} AllDigitsPrefix(s: string)
    requires forall i | 0 <= i < |s| :: IsDecimalDigit(s[i])
    ensures DigitPrefixLength(s, 10) == |s|
  {
    if s != [] {
      AllDigitsPrefix(s[1..]);
    }
  }

  /** `parseInt(String(n)) === n`: every integer typed in decimal is read back exactly. */
  lemma ParseIntShowInt(n: int)
    ensures ParseInt(ShowInt(n)) == Some(n)
  {
    var s := ShowInt(n);
    var m := if n < 0 then -n else n;
    var d := ShowNat(m);
    assert s == (if n < 0 then "-" else "") + d;
    assert '!' <= s[0] <= '~' by {
      if n >= 0 { assert IsDecimalDigit(d[0]); }
    }
    assert TrimStart(s) == s;
    assert ParseIntUnsigned(s) == d;
    assert !HasHexPrefix(d) by {
      if |d| >= 2 { assert IsDecimalDigit(d[1]); }
    }
    AllDigitsPrefix(d);
    assert ParseIntDigits(s) == d;
    ShowNatValue(m);
  }

  /** The rendering of an integer holds only digits and a minus sign, so it is never blank
      and never a word such as "Not evaluated". */
  lemma ShowIntChars(n: int)
    ensures |ShowInt(n)| >= 1
    ensures forall i | 0 <= i < |ShowInt(n)| :: IsDecimalDigit(ShowInt(n)[i]) || ShowInt(n)[i] == '-'
  {
  }
}

=== FILE: verification_dashboard.dfy ===
/** The verification team's dashboard: the faculty awaiting verification, filtered by a
    search and a department, three tallies by verification status and the row's action. */
module VerificationDashboard {
  import Lists
  import Worklist

  /** `verificationStatus`: one of exactly three values. */
  datatype VerificationStatus = Pending | InProgress | Verified

  datatype FacultyRecord = FacultyRecord(
    id: string, name: string, employeeId: string, department: string,
    designation: string, status: string, verificationStatus: VerificationStatus)

  /** The search hits the name or the employee id, and the department drop-down is "all" or
      equal to the record's department. */
  predicate Keep(search: string, department: string, f: FacultyRecord) {
    (Worklist.SearchHit(f.name, search) || Worklist.SearchHit(f.employeeId, search))
    && Worklist.Selects(department, f.department)
  }

  /** `filtered` */
  function Filtered(faculty: seq<FacultyRecord>, search: string, department: string): (r: seq<FacultyRecord>)
    ensures forall i | 0 <= i < |r| :: r[i] in faculty && Keep(search, department, r[i])
    ensures forall i | 0 <= i < |faculty| :: Keep(search, department, faculty[i]) ==> faculty[i] in r
  {
    Lists.Filter(faculty, f => Keep(search, department, f))
  }

  lemma FilteredIsSublist(faculty: seq<FacultyRecord>, search: string, department: string)
    ensures Lists.SubseqOf(Filtered(faculty, search, department), faculty)
  {
    Lists.FilterIsSubseq(faculty, f => Keep(search, department, f));
  }

  /** An empty search with department "all" shows every record. */
  lemma NoFiltersShowAll(faculty: seq<FacultyRecord>)
    ensures Filtered(faculty, "", "all") == faculty
  {
    forall i | 0 <= i < |faculty| ensures Keep("", "all", faculty[i]) {
      Worklist.EmptySearchHits(faculty[i].name);
    }
    Lists.FilterKeepsAll(faculty, f => Keep("", "all", f));
  }

  /** A department other than "all" lets through only records of exactly that department. */
  lemma DepartmentFilterExact(faculty: seq<FacultyRecord>, search: string, department: string)
    requires department != "all"
    ensures forall f | f in Filtered(faculty, search, department) :: f.department == department
  {
  }

  function HasStatus(v: VerificationStatus): FacultyRecord -> bool {
    (f: FacultyRecord) => f.verificationStatus == v
  }

  /** `pending`, `inProgress` and `verified`: how many records are in the given state. */
  function Tally(faculty: seq<FacultyRecord>, v: VerificationStatus): (n: nat)
    ensures n <= |faculty|
  {
    Lists.CountAll(faculty, HasStatus(v));
    Lists.Count(faculty, HasStatus(v))
  }

  /** Every record is in exactly one of the three states, so the tallies add up to the
      "Total Faculty" figure. */
  lemma {:induction false} TalliesCoverAll(faculty: seq<FacultyRecord>)
    ensures Tally(faculty, Pending) + Tally(faculty, InProgress) + Tally(faculty, Verified) == |faculty|
  {
    if faculty != [] {
      Lists.CountCons(faculty, HasStatus(Pending));
      Lists.CountCons(faculty, HasStatus(InProgress));
      Lists.CountCons(faculty, HasStatus(Verified));
      TalliesCoverAll(faculty[1..]);
    }
  }

  /** The row's button: "Review" for a verified record, "Verify" for the others. */
  function ActionLabel(f: FacultyRecord): (r: string)
    ensures r == "Review" || r == "Verify"
    ensures r == "Review" <==> f.verificationStatus == Verified
  {
    if f.verificationStatus == Verified then "Review" else "Verify"
  }
}

=== FILE: verification_form.dfy ===
/** Part B verification: the fixed table of research categories, edited in place by the
    verification team, and the flat key-to-integer payload built from it on save. */
module VerificationForm {
  import opened Common
  import Text

  /** `VerificationItem`: `claimed` and `proofUrl` come from the faculty's claim and are shown
      read-only; `verified` is the text the verifier typed. */
  datatype Item = Item(key: string, name: string, claimed: int, proofUrl: string, verified: string)

  datatype Section = Section(id: string, title: string, items: seq<Item>)

  function Blank(key: string, name: string): Item {
    Item(key, name, 0, "", "")
  }

  const Journals: seq<Item> :=
    [ Blank("sci", "SCI / SCI-E Indexed"), Blank("esci", "ESCI Indexed"),
      Blank("scopus", "Scopus Indexed"), Blank("ugc", "UGC Listed"),
      Blank("other_journal", "Other Journals") ]
  const Conferences: seq<Item> :=
    [ Blank("conf_international", "International Conference"),
      Blank("conf_national", "National Conference") ]
  const Books: seq<Item> :=
    [ Blank("book_authored", "Books Authored"), Blank("book_edited", "Books Edited"),
      Blank("book_chapter", "Book Chapters") ]
  const Citations: seq<Item> :=
    [ Blank("citation_wos", "Web of Science Citations"),
      Blank("citation_scopus", "Scopus Citations"),
      Blank("citation_google", "Google Scholar Citations") ]
  const Property: seq<Item> :=
    [ Blank("copyright_individual", "Copyright – Individual"),
      Blank("copyright_institute", "Copyright – Institute"),
      Blank("patent_individual", "Patent – Individual"),
      Blank("patent_institute", "Patent – Institute") ]
  const Grants: seq<Item> :=
    [ Blank("research_grant", "Research Grants"), Blank("training_revenue", "Training Revenue"),
      Blank("non_research_grant", "Non-Research Grants") ]
  const Startups: seq<Item> :=
    [ Blank("products", "Products Developed"), Blank("startups", "Startups Founded"),
      Blank("awards", "Awards & Fellowships"), Blank("mou", "MoUs Signed"),
      Blank("industry_association", "Industry Association Activities") ]

  /** `buildSections()`: seven sections of at least two items each, none of them touched. */
  function BuildSections(): (r: seq<Section>)
    ensures |r| == 7
    ensures forall i | 0 <= i < |r| :: |r[i].items| >= 2 && Untouched(r[i].items)
  {
    [ Section("journals", "Journal Papers", Journals),
      Section("conference", "Conference Papers", Conferences),
      Section("books", "Books & Book Chapters", Books),
      Section("citations", "Citations", Citations),
      Section("ip", "Intellectual Property", Property),
      Section("grants", "Research Grants & Revenue", Grants),
      Section("startups", "Products, Startups & Awards", Startups) ]
  }

  /** All items, section by section, in display order. */
  function Flatten(sections: seq<Section>): seq<Item> {
    if sections == [] then []
    else Flatten(sections[..|sections| - 1]) + sections[|sections| - 1].items
  }

  function Keys(items: seq<Item>): seq<string> {
    seq(|items|, i requires 0 <= i < |items| => items[i].key)
  }

  predicate DistinctKeys(items: seq<Item>) {
    forall i, j | 0 <= i < j < |items| :: items[i].key != items[j].key
  }

  /** The 25 category keys in display order. */
  const CategoryKeys: seq<string> :=
    ["sci", "esci", "scopus", "ugc", "other_journal",
     "conf_international", "conf_national", "book_authored", "book_edited", "book_chapter",
     "citation_wos", "citation_scopus", "citation_google", "copyright_individual",
     "copyright_institute", "patent_individual", "patent_institute", "research_grant",
     "training_revenue", "non_research_grant", "products", "startups", "awards", "mou",
     "industry_association"]

  lemma {:induction false} FlattenSnoc(s: seq<Section>, i: nat)
    requires i < |s|
    ensures Flatten(s[..i + 1]) == Flatten(s[..i]) + s[i].items
  {
    assert s[..i + 1][..i] == s[..i];
  }

  predicate Untouched(items: seq<Item>) {
    forall k | 0 <= k < |items| :: items[k].claimed == 0 && items[k].verified == "" && items[k].proofUrl == ""
  }

  lemma KeysAppend(a: seq<Item>, b: seq<Item>)
    ensures Keys(a + b) == Keys(a) + Keys(b)
  {
  }

  lemma UntouchedAppend(a: seq<Item>, b: seq<Item>)
    requires Untouched(a) && Untouched(b)
    ensures Untouched(a + b)
  {
    forall k | 0 <= k < |a + b| ensures (a + b)[k].claimed == 0 && (a + b)[k].verified == "" && (a + b)[k].proofUrl == "" {
      if k >= |a| { assert (a + b)[k] == b[k - |a|]; }
    }
  }

  lemma FlattenBuildSections()
    ensures Flatten(BuildSections()) == Journals + Conferences + Books + Citations + Property + Grants + Startups
  {
    var s := BuildSections();
    assert s[..0] == [];
    FlattenSnoc(s, 0);
    FlattenSnoc(s, 1);
    FlattenSnoc(s, 2);
    FlattenSnoc(s, 3);
    FlattenSnoc(s, 4);
    FlattenSnoc(s, 5);
    FlattenSnoc(s, 6);
    assert s[..7] == s;
  }

  lemma SectionKeys()
    ensures Keys(Journals) == ["sci", "esci", "scopus", "ugc", "other_journal"]
    ensures Keys(Conferences) == ["conf_international", "conf_national"]
    ensures Keys(Books) == ["book_authored", "book_edited", "book_chapter"]
    ensures Keys(Citations) == ["citation_wos", "citation_scopus", "citation_google"]
    ensures Keys(Property) == ["copyright_individual", "copyright_institute", "patent_individual", "patent_institute"]
    ensures Keys(Grants) == ["research_grant", "training_revenue", "non_research_grant"]
    ensures Keys(Startups) == ["products", "startups", "awards", "mou", "industry_association"]
  {
  }

  lemma BuildSectionsKeys()
    ensures Keys(Flatten(BuildSections())) == CategoryKeys
  {
    FlattenBuildSections();
    SectionKeys();
    var a := Journals + Conferences;
    var b := a + Books;
    var c := b + Citations;
    var d := c + Property;
    var e := d + Grants;
    KeysAppend(Journals, Conferences);
    KeysAppend(a, Books);
    KeysAppend(b, Citations);
    KeysAppend(c, Property);
    KeysAppend(d, Grants);
    KeysAppend(e, Startups);
  }

  lemma BuildSectionsUntouched()
    ensures Untouched(Flatten(BuildSections()))
  {
    FlattenBuildSections();
    var a := Journals + Conferences;
    var b := a + Books;
    var c := b + Citations;
    var d := c + Property;
    var e := d + Grants;
    UntouchedAppend(Journals, Conferences);
    UntouchedAppend(a, Books);
    UntouchedAppend(b, Citations);
    UntouchedAppend(c, Property);
    UntouchedAppend(d, Grants);
    UntouchedAppend(e, Startups);
  }

  lemma CategoryKeysDistinct()
    ensures forall i, j | 0 <= i < j < |CategoryKeys| :: CategoryKeys[i] != CategoryKeys[j]
  {
  }

  /** The fresh table has 7 sections and 25 items with distinct keys, nothing claimed and
      nothing verified yet. */
  lemma BuildSectionsShape()
    ensures |BuildSections()| == 7
    ensures |Flatten(BuildSections())| == 25
    ensures DistinctKeys(Flatten(BuildSections()))
    ensures Untouched(Flatten(BuildSections()))
  {
    BuildSectionsKeys();
    BuildSectionsUntouched();
    CategoryKeysDistinct();
    var items := Flatten(BuildSections());
    assert |Keys(items)| == |items|;
    forall i, j | 0 <= i < j < |items| ensures items[i].key != items[j].key {
      assert Keys(items)[i] == items[i].key && Keys(items)[j] == items[j].key;
    }
  }

  /** `handleVerifiedChange(secId, itemKey, value)` as the new table it produces. */
  function UpdateVerified(sections: seq<Section>, secId: string, key: string, value: string): (r: seq<Section>)
    ensures |r| == |sections|
    ensures forall i | 0 <= i < |r| ::
      r[i].id == sections[i].id && r[i].title == sections[i].title
      && |r[i].items| == |sections[i].items|
    ensures forall i, j | 0 <= i < |r| && 0 <= j < |r[i].items| ::
      r[i].items[j] == sections[i].items[j].(verified :=
        if sections[i].id == secId && sections[i].items[j].key == key then value
        else sections[i].items[j].verified)
  {
    seq(|sections|, i requires 0 <= i < |sections| =>
      if sections[i].id == secId then
        sections[i].(items := seq(|sections[i].items|, j requires 0 <= j < |sections[i].items| =>
          if sections[i].items[j].key == key then sections[i].items[j].(verified := value)
          else sections[i].items[j]))
      else sections[i])
  }

  lemma {:induction false} FlattenLength(a: seq<Section>, b: seq<Section>)
    requires |a| == |b|
    requires forall i | 0 <= i < |a| :: |a[i].items| == |b[i].items|
    ensures |Flatten(a)| == |Flatten(b)|
  {
    if a != [] {
      FlattenLength(a[..|a| - 1], b[..|b| - 1]);
    }
  }

  /** An edit leaves every item's key, label, claim and proof in place, in the same order;
      only verified texts change. */
  lemma {:induction false} UpdateKeepsClaims(sections: seq<Section>, secId: string, key: string, value: string)
    ensures var before, after := Flatten(sections), Flatten(UpdateVerified(sections, secId, key, value));
      |after| == |before|
      && forall k | 0 <= k < |after| ::
           after[k].key == before[k].key && after[k].name == before[k].name
           && after[k].claimed == before[k].claimed && after[k].proofUrl == before[k].proofUrl
  {
    if sections != [] {
      var n := |sections| - 1;
      var r := UpdateVerified(sections, secId, key, value);
      assert UpdateVerified(sections[..n], secId, key, value) == r[..n];
      UpdateKeepsClaims(sections[..n], secId, key, value);
    }
  }

  // ---- the payload ---------------------------------------------------------------------

  /** `parseInt(v) || 0`: NaN and 0 both give 0. */
  function VerifiedValue(v: string): (n: int)
    ensures Text.ParseInt(v).Some? ==> n == Text.ParseInt(v).value
    ensures Text.ParseInt(v).None? ==> n == 0
  {
    match Text.ParseInt(v)
    case None => 0
    case Some(n) => n
  }

  /** A blank entry counts as 0. */
  lemma BlankIsZero(v: string)
    requires Text.IsBlank(v)
    ensures VerifiedValue(v) == 0
  {
    Text.TrimStartEmpty(v);
  }

  /** Text that starts (after white space) with neither a digit nor a sign counts as 0. */
  lemma NonNumericIsZero(v: string)
    requires var t := Text.TrimStart(v); t != [] && !Text.IsDecimalDigit(t[0]) && t[0] != '-' && t[0] != '+'
    ensures VerifiedValue(v) == 0
  {
    var t := Text.TrimStart(v);
    assert Text.ParseIntUnsigned(v) == t;
    assert !Text.HasHexPrefix(t);
    assert Text.DigitValue(t[0]) >= 10;
    assert Text.ParseIntDigits(v) == [];
  }

  /** Any integer typed in decimal reaches the payload unchanged; a negative one too, since
      only the input's `min` attribute stands against it. */
  lemma TypedIntegerPassesThrough(n: int)
    ensures VerifiedValue(Text.ShowInt(n)) == n
  {
    Text.ParseIntShowInt(n);
  }

  /** The payload as successive `payload[item.key] = ...` assignments: a later item with the
      same key overwrites an earlier one. */
  function PayloadOf(items: seq<Item>): (r: map<string, int>)
    ensures |r| <= |items|
  {
    if items == [] then map[]
    else PayloadOf(items[..|items| - 1])[items[|items| - 1].key := VerifiedValue(items[|items| - 1].verified)]
  }

  lemma PayloadSnoc(items: seq<Item>, it: Item)
    ensures PayloadOf(items + [it]) == PayloadOf(items)[it.key := VerifiedValue(it.verified)]
  {
    assert (items + [it])[..|items|] == items;
  }

  lemma PayloadStep(done: seq<Item>, items: seq<Item>, j: nat)
    requires j < |items|
    ensures PayloadOf(done + items[..j + 1]) == PayloadOf(done + items[..j])[items[j].key := VerifiedValue(items[j].verified)]
  {
    assert done + items[..j + 1] == (done + items[..j]) + [items[j]];
    PayloadSnoc(done + items[..j], items[j]);
  }

  function KeySet(items: seq<Item>): set<string> {
    set k | 0 <= k < |items| :: items[k].key
  }

  lemma KeySetSnoc(items: seq<Item>, it: Item)
    ensures KeySet(items + [it]) == KeySet(items) + {it.key}
  {
    var xs := items + [it];
    forall key | key in KeySet(xs) ensures key in KeySet(items) + {it.key} {
      var k :| 0 <= k < |xs| && xs[k].key == key;
      if k < |items| { assert items[k].key == key; }
    }
    forall key | key in KeySet(items) ensures key in KeySet(xs) {
      var k :| 0 <= k < |items| && items[k].key == key;
      assert xs[k].key == key;
    }
    assert xs[|items|].key == it.key;
  }

  /** The payload's keys are exactly the items' keys. */
  lemma {:induction false} PayloadKeys(items: seq<Item>)
    ensures PayloadOf(items).Keys == KeySet(items)
  {
    if items != [] {
      var n := |items| - 1;
      assert items == items[..n] + [items[n]];
      PayloadKeys(items[..n]);
      PayloadSnoc(items[..n], items[n]);
      KeySetSnoc(items[..n], items[n]);
    }
  }

  /** With distinct keys there is one entry per item. */
  lemma {:induction false} PayloadSize(items: seq<Item>)
    requires DistinctKeys(items)
    ensures |PayloadOf(items)| == |items|
  {
    if items != [] {
      var n := |items| - 1;
      var init, last := items[..n], items[n];
      assert items == init + [last];
      assert DistinctKeys(init);
      PayloadSize(init);
      PayloadKeys(init);
      PayloadSnoc(init, last);
      assert last.key !in KeySet(init);
    }
  }

  /** With distinct keys each item's entry is its own parsed verified text. */
  lemma {:induction false} PayloadLookup(items: seq<Item>)
    requires DistinctKeys(items)
    ensures forall k | 0 <= k < |items| ::
      items[k].key in PayloadOf(items) && PayloadOf(items)[items[k].key] == VerifiedValue(items[k].verified)
  {
    if items != [] {
      var n := |items| - 1;
      var init, last := items[..n], items[n];
      assert items == init + [last];
      assert DistinctKeys(init);
      PayloadLookup(init);
      PayloadSnoc(init, last);
      forall k | 0 <= k < |items|
        ensures items[k].key in PayloadOf(items) && PayloadOf(items)[items[k].key] == VerifiedValue(items[k].verified)
      {
        if k < n {
          assert items[k] == init[k];
          assert items[k].key != last.key;
        }
      }
    }
  }

  /** Saving the untouched table sends all 25 keys, each with 0. */
  lemma FreshPayload()
    ensures |PayloadOf(Flatten(BuildSections()))| == 25
    ensures forall k | k in PayloadOf(Flatten(BuildSections())) :: PayloadOf(Flatten(BuildSections()))[k] == 0
  {
    BuildSectionsShape();
    var items := Flatten(BuildSections());
    PayloadKeys(items);
    PayloadSize(items);
    PayloadLookup(items);
    assert VerifiedValue("") == 0;
    forall key | key in PayloadOf(items) ensures PayloadOf(items)[key] == 0 {
      var k :| 0 <= k < |items| && items[k].key == key;
    }
  }

  /** The payload loops of `handleSave`: every item of every section, in order. */
  method BuildPayload(sections: seq<Section>) returns (payload: map<string, int>)
    ensures payload == PayloadOf(Flatten(sections))
  {
    payload := map[];
    assert sections[..0] == [];
    for i := 0 to |sections|
      invariant payload == PayloadOf(Flatten(sections[..i]))
    {
      ghost var done := Flatten(sections[..i]);
      var items := sections[i].items;
      assert done + items[..0] == done;
      for j := 0 to |items|
        invariant payload == PayloadOf(done + items[..j])
      {
        PayloadStep(done, items, j);
        payload := payload[items[j].key := VerifiedValue(items[j].verified)];
      }
      FlattenSnoc(sections, i);
      assert items[..|items|] == items;
    }
    assert sections[..|sections|] == sections;
  }

  /** The verification page: the table being edited and the two flags around saving. */
  class VerificationFormPage {
    var sections: seq<Section>
    var saving: bool
    var confirmOpen: bool

    constructor()
      ensures sections == BuildSections() && !saving && !confirmOpen
    {
      sections := BuildSections();
      saving, confirmOpen := false, false;
    }

    /** A keystroke in one verified cell. */
    method HandleVerifiedChange(secId: string, key: string, value: string)
      modifies this
      ensures sections == UpdateVerified(old(sections), secId, key, value)
      ensures saving == old(saving) && confirmOpen == old(confirmOpen)
    {
      sections := UpdateVerified(sections, secId, key, value);
    }

    /** The submit button opens the confirmation (it is disabled while saving). */
    method OpenConfirm()
      modifies this
      ensures confirmOpen == !old(saving) || old(confirmOpen)
      ensures sections == old(sections) && saving == old(saving)
    {
      if !saving {
        confirmOpen := true;
      }
    }

    /** `handleSave(isSubmit)`: builds the payload from the table; afterwards neither the
        saving flag nor the confirmation is up. */
    method HandleSave(isSubmit: bool) returns (payload: map<string, int>)
      modifies this
      ensures payload == PayloadOf(Flatten(sections))
      ensures sections == old(sections)
      ensures !saving && !confirmOpen
    {
      saving := true;
      payload := BuildPayload(sections);
      saving := false;
      confirmOpen := false;
    }
  }
}

=== FILE: worklist.dfy ===
/** The two tests every review list on the staff pages is filtered by: a free-text search
    and a drop-down whose "all" entry switches it off. */
module Worklist {
  import opened Common
  import Text

  /** `field.toLowerCase().includes(search.toLowerCase())` */
  predicate SearchHit(field: string, search: string) {
    Text.Contains(Text.ToLower(field), Text.ToLower(search))
  }

  /** An empty search matches every field. */
  lemma EmptySearchHits(field: string)
    ensures SearchHit(field, "")
  {
    Text.ContainsEmpty(Text.ToLower(field));
  }

  /** The search ignores the letter case of what is typed. */
  lemma SearchIgnoresCase(field: string, search: string)
    ensures SearchHit(field, search) == SearchHit(field, Text.ToLower(search))
  {
    Text.ToLowerIsLower(search);
  }

  /** `filter === "all" || value === filter` */
  predicate Selects(filter: string, value: string) {
    filter == "all" || value == filter
  }

  /** The placeholder the tables show for an empty or missing value. */
  const Dash: string := "\U{2014}"

  /** `value || "—"`: a string cell, with the dash when the string is empty. */
  function OrDash(value: string): (r: string)
    ensures r != []
    ensures r == value || (value == [] && r == Dash)
  {
    Text.OrElse(Some(value), Dash)
  }

  /** A marks cell: the marks in decimal when present (`marks !== null`, or `marks ?? …`),
      the placeholder otherwise. */
  function MarksCell(marks: Option<int>, placeholder: string): (r: string)
    ensures marks.None? ==> r == placeholder
    ensures marks.Some? ==> Text.ParseInt(r) == Some(marks.value)
  {
    if marks.Some? then
      Text.ParseIntShowInt(marks.value);
      Text.ShowInt(marks.value)
    else placeholder
  }

  /** A placeholder that holds some character other than a digit or a minus sign (any word,
      or the dash) is shown exactly for the rows without marks. */
  lemma PlaceholderIffUnmarked(marks: Option<int>, placeholder: string, k: nat)
    requires k < |placeholder| && !Text.IsDecimalDigit(placeholder[k]) && placeholder[k] != '-'
    ensures MarksCell(marks, placeholder) == placeholder <==> marks.None?
  {
    if marks.Some? {
      Text.ShowIntChars(marks.value);
      if Text.ShowInt(marks.value) == placeholder {
        assert false;
      }
    }
  }

  /** The row's button once marks may exist: "Re-evaluate" when they do, "Evaluate" before. */
  function EvaluateLabel(marks: Option<int>): (r: string)
    ensures r == "Re-evaluate" || r == "Evaluate"
    ensures r == "Re-evaluate" <==> marks.Some?
  {
    if marks.Some? then "Re-evaluate" else "Evaluate"
  }
}
